=== FILE: README.md ===
# LyrixMatch lyric pipeline in Dafny

This project models the core of LyrixMatch. LyrixMatch is a quiz back-end. It reads a
Spotify playlist and searches Genius for each track's lyrics. It cleans the lyrics
and stores them in Firestore. It then serves summaries and keywords for a lyric quiz.
The model covers these parts:

- the text clean-ups:
  - the title clean-up and featured-artist expansion used to build search queries;
  - the service's lyric cleaner (`_clean_lyrics`);
  - the scripts' Genius filter (`clean_genius_lyrics`);
  - the two regex cleaners (`regex_clean_lyrics`, `clean_lyrics`).
- the service's search loop: four candidate queries per track, at most three attempts
  per query, and 5/10/20-second backoff on 429/403 errors.
- the service's playlist ingest: paging, the 30-track cap, per-track processing and the
  save.
- the two batch scripts' track listing and lyric harvest.
- the quiz controller: the `/crawl` and `/quizdata` endpoints and the song lookup.
- the lyric analyser: language detection and pipeline branch choice.
- the word-frequency builder of the word-cloud script.

Each Python regular expression is written out as a hand-written scanner with its exact
semantics:

- leftmost match, non-greedy where the pattern is;
- `.` does not match a newline;
- `$` matches at the end or before a final newline;
- `IGNORECASE` uses case-folded comparison.

External services become parameters:

- Spotify pages are a `seq<seq<Item>>`, or `None` when the call raises.
- Genius answers are a stream of `Outcome`s (`Hit`, `Miss`, `Err`), consumed one call
  at a time.
- The Firestore document is a value. Whether the quiz's read of it returns and whether a write succeeds are `bool`s.
- The NLP models are functions.
- `random.sample` is a `pick` sequence of distinct positions.
- The generated id postfix is a string parameter.

Modules, one file each:

- `Wrappers`: `Option` and `Field`. `Field` is Absent, `None` or a value, as `dict.get` sees a key.
- `Chars`: character classes and the ASCII case fold.
- `Strings`: search, strip, run collapsing and whitespace squashing.
- `Lines`: `split`, `splitlines` and `join`.
- `Scanners`: the regex substitutions.
- `Titles`, `Cleaners`: the clean-ups.
- `Search`, `Catalog`, `Service`, `Scripts`, `Quiz`, `Analyzer`, `WordFreq`: the operations.

## Model

| member | source | states |
|---|---|---|
| Strings.Before | app/services/music_service.py:252-253 | The text before the first "Translations" holds no "Translations" and is a prefix of the input. It is the whole input exactly when the word does not occur. Otherwise the word starts right after it. |
| Strings.SquashWhitespace | app/services/music_service.py:257-261 | The whitespace clean-up always yields tidy text: no empty line (no doubled newline), no tab, no run of spaces, no leading or trailing whitespace. |
| Strings.CollapseRuns | app/services/music_service.py:257-259 | Replacing runs of a class by one mark leaves no two adjacent class characters and never lengthens the text. Every class character left is the mark, and the first character is kept or marked. |
| Strings.CollapseRunsIsReference | app/services/music_service.py:257-259 | Collapsing run by run agrees with a character-by-character reference: a class character right after another is dropped, any other becomes the mark. |
| Strings.CollapseKeepsOthers | app/services/music_service.py:257-259 | Collapsing runs keeps every character outside the class, in order. |
| Strings.NotContainsSquash | app/services/music_service.py:257-261 | Squashing whitespace never creates a whitespace-free word such as "Translations" that was not there. |
| Strings.SquashTidy | app/services/music_service.py:257-261 | Squashing is idempotent: tidy text is a fixpoint. |
| Strings.Strip | app/services/music_service.py:261 | `strip()` yields a stripped slice of the input. Every non-whitespace character of the input lies inside that slice. |
| Strings.StripUnique | app/services/music_service.py:261 | Any stripped slice with only whitespace outside it is the result of `strip()`. This is the reference characterisation of `Strip`. |
| Strings.ExactIsFolded | app/services/music_service.py:240 | An exact occurrence is also a case-insensitive one, so `IGNORECASE` only widens the match. |
| Lines.SplitOn | get_lyrics_save_firestore.py:138 | `split(sep)` gives at least one piece, no piece holds the separator, and joining the pieces gives the input back. |
| Lines.SplitLines | get_lyrics_save_firestore.py:129 | `splitlines()` gives pieces without line-boundary characters. It gives no pieces exactly for the empty text. |
| Lines.SplitLinesRebuild | get_lyrics_save_firestore.py:129 | Every piece of `splitlines()` is followed by one line boundary, the last possibly by none. Interleaving the pieces with those boundaries gives the input back. |
| Lines.SplitLinesVersusSplit | lyrixmatch_clean.py:37 | On text broken only by newlines, `split("\n")` is `splitlines()` plus one empty last piece exactly when the text is empty or ends with a newline. |
| Scanners.CloseOnLine | app/services/music_service.py:243 | `.*?]` from an opener ends at the first closer on the same line. It fails exactly when the rest of the line has no closer. |
| Scanners.RemoveSubMultiset | app/services/music_service.py:243 | A removal pass only deletes characters: the result's multiset is within the input's. |
| Scanners.RemoveLeavesNoPair | app/services/music_service.py:243 | After the tag pass, no line still holds an opener followed by a closer. |
| Scanners.RemoveWithoutOpening | app/services/music_service.py:243 | Text without the pattern's opener is unchanged by the pass. |
| Scanners.DropHeader | app/services/music_service.py:240 | Without "lyrics" in any case, the text is unchanged. Otherwise the result is the text after the first case-insensitive "lyrics". |
| Scanners.DropHeaderAt | app/services/music_service.py:240 | When the first folded "lyrics" is at `p`, the header pass keeps exactly the text after it. |
| Scanners.DropEmbed | app/services/music_service.py:247 | The `\d*Embed$` pass only removes text just before the end, keeping a final newline: what precedes the cut and the final newline are untouched. |
| Scanners.DropEmbedTrailer | app/services/music_service.py:247 | Text ending in digits, "Embed" and at most one newline loses the digits and the word but keeps the newline. |
| Scanners.DropEmbedOtherwise | app/services/music_service.py:247 | Text that does not end in "Embed", before an optional final newline, is unchanged. |
| Scanners.BlankReadMoreByLines | app/services/music_service.py:249 | The `.*Read More.*` pass acts line by line. Each line mentioning "read more" in any case becomes empty, and its newline stays. |
| Scanners.BlankLines | app/services/music_service.py:249 | Each line is kept or blanked, the count is the same, and no result line mentions "read more". |
| Scanners.DropReadMoreByLines | get_lyrics_save_firestore.py:195 | The `.*Read More.*\n?` pass removes exactly the lines mentioning "read more" together with their newline. |
| Scanners.KeptLines | get_lyrics_save_firestore.py:195 | The kept lines are exactly the input lines that do not mention "read more". |
| Scanners.KeptLinesAppend | get_lyrics_save_firestore.py:195 | Line filtering keeps order: the kept lines of a concatenation are the concatenated kept lines. |
| Scanners.ReadMoreLineRemoved | save_to_json.py:14 | An "… Read More" line is removed through its newline, and the text after it is left intact. |
| Scanners.RemoveWithoutEllipsis | save_to_json.py:14 | Text without "…" is untouched by the read-more pass of the JSON cleaner. |
| Scanners.FirstFromMatch | app/services/music_service.py:266 | It finds the leftmost position from which `\s*- From .*?$` matches, or proves that none exists. |
| Scanners.FromCut | app/services/music_service.py:266 | The "- From" pass only cuts a tail that keeps a final newline. It changes the title exactly when the pattern matches somewhere. |
| Scanners.FromCutWithoutDash | app/services/music_service.py:266 | A title without "- From " is unchanged by that pass. |
| Scanners.NoPairSquash | app/services/music_service.py:257-261 | The whitespace passes never create an opener/closer pair on one line. |
| Titles.CleanTitle | app/services/music_service.py:263-268 | The cleaned title is stripped and never longer than the title. |
| Titles.CleanTitleNoParenPair | app/services/music_service.py:265 | A one-line title keeps no "(" followed by ")" after cleaning. |
| Titles.CleanTitleUnchanged | app/services/music_service.py:263-268 | A stripped title without "(", "- From " or "[From " is returned unchanged. |
| Titles.CleanTitleTrailingGroup | app/services/music_service.py:265 | A plain title followed by " (feat. X)" or any one-line group cleans to the plain title. |
| Titles.CleanTitleParensOnly | lyrixmatch_clean.py:18-20 | The older clean-up also yields a stripped title no longer than the input. |
| Titles.ParensOnlyUnchanged | lyrixmatch_clean.py:18-20 | The older clean-up keeps a stripped title without "(" unchanged, "From" suffixes included. |
| Titles.CleanTitleVersusParensOnly | lyrixmatch_clean.py:18-20 | The two clean-ups agree whenever the parenthesis-free text has no "From" pattern. |
| Titles.Featured | app/services/music_service.py:272 | Each captured featured name is non-empty and holds no ")". |
| Titles.FeaturedGroup | app/services/music_service.py:272 | A "(feat. X)", "(feat X)" or "(with X)" group yields X, and the scan resumes right after it. |
| Titles.FeaturedNone | app/services/music_service.py:272 | A title without "(" features nobody. |
| Titles.ExpandArtists | app/services/music_service.py:270-275 | The artist is unchanged exactly when no name is captured. With captured names, the result is the artist, a space, and the names joined by single spaces. |
| Titles.ExpandOneGroup | app/services/music_service.py:272-275 | One featured group adds a space and that one name. |
| Titles.ExpandTwoGroups | app/services/music_service.py:272-275 | Two groups add both names, in order of appearance, separated by single spaces. |
| Titles.FeaturedOfGroups | app/services/music_service.py:272 | Any number of featured groups yields their names, in order of appearance. |
| Titles.ExpandGroups | app/services/music_service.py:270-275 | A plain title followed by any number of groups expands the artist by all their names, in order, separated by single spaces. |
| Titles.ExpandIsCaseSensitive | app/services/music_service.py:272 | "(Feat. X)" is not captured, because the pattern is case-sensitive. |
| Cleaners.ServiceCleanLyrics | app/services/music_service.py:226-261 | A falsy input gives "". Every result is tidy, holds no "Translations", and has no section-tag bracket pair on a line. |
| Cleaners.ServiceCleanPlain | app/services/music_service.py:226-261 | On non-empty text holding nothing the other passes look for, the cleaner is the whitespace clean-up alone. |
| Cleaners.ServiceDropsHeader | app/services/music_service.py:240 | All text up to and including the first "lyrics", in any case, is discarded before the other passes. |
| Cleaners.ServiceCleanFixpoint | app/services/music_service.py:234-261 | Tidy text that holds nothing the passes look for comes back unchanged. |
| Cleaners.FromFirstBracket | get_lyrics_save_firestore.py:203-205 | The result is the suffix starting at the first "[". It is the whole text when there is no "[". |
| Cleaners.RegexCleanLyrics | get_lyrics_save_firestore.py:198-217 | A non-string gives "". Every result is tidy and has no bracket pair on a line. |
| Cleaners.JsonCleanLyrics | save_to_json.py:17-39 | A non-string gives "". Every result is tidy and has no bracket pair on a line. |
| Cleaners.PreludeDiscarded | save_to_json.py:22-27 | Text before the first "[" has no effect on either script cleaner. |
| Cleaners.JsonVersusRegex | save_to_json.py:14 | On text that never says "read more", the JSON cleaner and the Firestore script's cleaner agree. |
| Cleaners.RegexCleanFixpoint | get_lyrics_save_firestore.py:198-217 | Tidy text without "[" or "read more" is a fixpoint of both script cleaners. |
| Cleaners.GeniusClean | get_lyrics_save_firestore.py:123-138 | The result is `None` exactly for falsy input. Otherwise it is stripped and holds neither "Contributors" nor "Translations". |
| Cleaners.FilterMarkerFree | get_lyrics_save_firestore.py:129-136 | No line the filter keeps holds a marker word. |
| Cleaners.JoinedKept | get_lyrics_save_firestore.py:138 | Joining marker-free lines creates no marker, so the final cut at "Translations" never fires. |
| Cleaners.SkipAtMeans | get_lyrics_save_firestore.py:130-135 | The loop's skip flag is set exactly after a marker line followed only by letter-free lines. |
| Cleaners.GeniusFilterKeeps | get_lyrics_save_firestore.py:128-136 | The loop keeps exactly the stripped lines that are neither markers nor letter-free lines after a marker, in order. This agrees with an independent reference definition. |
| Cleaners.GeniusModesAgree | lyrixmatch_clean.py:37 | On text broken only by newlines, the `split("\n")` and `splitlines()` versions of the filter give the same lyrics. |
| Cleaners.FilterAppendEmpty | lyrixmatch_clean.py:37-44 | An extra empty last line is either dropped or kept as a trailing "". |
| Search.Candidates | app/services/music_service.py:163-168 | Four queries: the clean and original titles, each paired with the first artist and with the expanded artist. |
| Search.Attempts | app/services/music_service.py:182-202 | The retries of one query number at most three and consume consecutive outcomes. They continue past a miss (no song) and past a retryable 429/403 error. They end at a hit or a non-retryable error, or after the third attempt. |
| Search.QueryCalls | app/services/music_service.py:177-181 | A query is sent exactly when its title and artist are both non-empty, with at most three attempts. |
| Search.Trace | app/services/music_service.py:177-202 | All four queries are tried in order with no early exit. Call k sees outcome k, and there are at most three calls per query. |
| Search.LastReturned | app/services/music_service.py:184-186 | A returned song is the lyrics of some call that hit. |
| Search.LastReturnedMeans | app/services/music_service.py:184-198 | A returned song is the lyrics of the last call that did not raise, and that call hit. No song means the last such call missed, or every call raised. |
| Search.ServiceSearch | app/services/music_service.py:170-202 | The loop makes exactly the calls of `Trace`, keeps the last hit or miss, and sleeps the total backoff. |
| Search.Retry | app/services/music_service.py:182-202 | One query's retry loop appends that query's attempts and maintains the song and the sleep time. |
| Search.Attempt | app/services/music_service.py:183-202 | One call and its handling: it ends the loop exactly when the outcome stops retrying. |
| Search.EveryQuerySent | app/services/music_service.py:177-184 | Each query that is not skipped is sent, starting with attempt 0, right after the calls of the queries before it. |
| Search.CallBound | app/services/music_service.py:163-182 | A track costs at most twelve calls. |
| Search.MissesPastEnd | app/services/music_service.py:182-199 | Once the provider has nothing left, every query is tried three times and finds nothing. |
| Search.HitErasedByLaterMiss | app/services/music_service.py:184-186 | A hit by an early query is overwritten by a later query's miss, because the loop has no break. |
| Search.ThreeRateLimits | app/services/music_service.py:189-196 | Rate limiting on every attempt sleeps 5 + 10 + 20 seconds and finds nothing. |
| Search.EmptyStreamNoSong | app/services/music_service.py:204-205 | With no answers at all, no song is found. |
| Search.ScriptSearch | get_lyrics_save_firestore.py:163-170 | The scripts stop at the first hit. Every earlier call missed. With no hit, all candidates are tried. |
| Catalog.ConcatAppend | app/services/music_service.py:84-89 | Collecting pages is additive: more pages append their items in order. |
| Catalog.ConcatOne | app/services/music_service.py:84-89 | One page contributes exactly its items. |
| Service.ProcessSingleTrackMeans | app/services/music_service.py:145-224 | A record exists exactly when the track has an artist, its album has an image list, and the last call that did not raise hit. Its titles and artist come from the track. Its lyrics are the cleaned lyrics of that last call, tidy and without "Translations". Its album art is the first image when the album has images, and none otherwise. |
| Service.NoLyricsNoRecord | app/services/music_service.py:204-205 | A track without any answer from Genius yields no record. |
| Service.Cap | app/services/music_service.py:95-104 | At most 30 tracks are kept: all of them when there are at most 30, otherwise the sampled positions. |
| Service.Somes | app/services/music_service.py:117-120 | Each value is collected as often as it occurs as a successful result. Exactly the `None` results are dropped. |
| Service.SomesAppend | app/services/music_service.py:117-120 | Collecting keeps order: the values of a concatenation are the concatenated values. |
| Service.Processed | app/services/music_service.py:111-120 | Each record is collected as often as the kept tracks yield it, and one track is dropped per `None`. A record is collected exactly when some kept track yields it. |
| Service.FetchAndSave | app/services/music_service.py:74-143 | The request id is returned exactly when the client is ready, the pages arrive and the save succeeds, and only then is a document stored. The document records the playlist id, the client IP and the original track count. Its processed count equals its tracks and is at most the capped count. Its tracks are the tracks' records, each as often as it is yielded, and the count plus the number of `None` results is the number of kept tracks. |
| Service.StoredRecordsFromTracks | app/services/music_service.py:111-133 | Each stored record is the record of one of the kept tracks. |
| Service.EmptyPlaylistSaved | app/services/music_service.py:95-140 | An empty playlist is saved as an empty document and still returns the id. |
| Scripts.Rows | get_lyrics_save_firestore.py:110-118 | Rows are built for items with a track. An item with an artistless track raises. In the older script, an item without the track key raises too. |
| Scripts.RowsAppend | get_lyrics_save_firestore.py:102-118 | Listing is additive over pages, and an error in either part raises. |
| Scripts.FirestorePlaylistTracks | get_lyrics_save_firestore.py:82-118 | It lists the rows of all pages, or propagates the failure. |
| Scripts.LegacyPlaylistTracks | lyrixmatch_clean.py:50-74 | Any failure, including an item without the track key, gives the empty list. |
| Scripts.LyricsFor | get_lyrics_save_firestore.py:151-186 | A song keeps the track's titles and artist and costs one to four calls. It logs at most one line, and only when it has no lyrics. |
| Scripts.LyricsForMeans | get_lyrics_save_firestore.py:156-177 | The log line is written exactly when no call hit, and then all four calls were made. A found song carries the cleaned lyrics of the first hit. |
| Scripts.EmptyTitleStillSent | get_lyrics_save_firestore.py:156-168 | Unlike the service, the scripts also query a candidate with an empty title. |
| Scripts.AllErrorsLogged | get_lyrics_save_firestore.py:163-177 | Errors on all four calls give no lyrics and exactly one log line. |
| Scripts.GetLyrics | get_lyrics_save_firestore.py:141-187 | One song per track, in order. Between n and 4n calls are made, and every log line names a track without lyrics. |
| Scripts.GetLyricsRows | get_lyrics_save_firestore.py:141-187 | Song i is the song of track i, searched with the calls after those of the tracks before it. The total calls are those of all the tracks. |
| Scripts.GetLyricsOne | get_lyrics_save_firestore.py:141-187 | One track gives its song, its log line if any, and its calls. |
| Scripts.HarvestedAppend | get_lyrics_save_firestore.py:141-187 | The track loop runs in list order: over a concatenation, it harvests the first part, then the second from where the first stopped, with rows, log lines and calls appended. |
| Scripts.PostProcess | get_lyrics_save_firestore.py:260-261 | Every song gains tidy processed lyrics, "" for a song without lyrics, and keeps its fields. |
| Scripts.FirestoreMain | get_lyrics_save_firestore.py:240-287 | A listing failure raises. No tracks returns `None` without saving. Otherwise one song per track is saved, and the id is returned exactly when the save succeeds. Song k is track k's song from the search, searched after the calls of the tracks before it, with its lyrics processed by the regex cleaner. The failed-search log is that of the search. |
| Quiz.MatchFrom | app/controllers/quiz_controller.py:95 | It finds the leftmost position where `playlist/([a-zA-Z0-9]+)` matches, or proves that there is none. |
| Quiz.PlaylistId | app/controllers/quiz_controller.py:95-97 | There is no id exactly when the pattern never matches. An id is a non-empty alphanumeric run that follows the marker at a match. |
| Quiz.PlaylistIdOfLink | app/controllers/quiz_controller.py:95-97 | For a link of the shape `…playlist/<id><non-alphanumeric>…`, the id is exactly `<id>`. |
| Quiz.Crawl | app/controllers/quiz_controller.py:85-121 | 400 exactly for a missing body, a missing link or a link without an id. The service is called exactly otherwise. 200 is returned exactly when it answers a non-empty id, and that id is passed back. |
| Quiz.FirstAnswering | app/controllers/quiz_controller.py:25-30 | It finds the first song whose clean or original title equals the title asked for. |
| Quiz.FindSong | app/controllers/quiz_controller.py:10-36 | The song found is the first that answers to the title. No song means no document, unreadable tracks, or no song answers. |
| Quiz.VisitSong | app/controllers/quiz_controller.py:147-191 | Whitespace-only lyrics are skipped. A visit fails exactly on stored `None` lyrics, or on non-blank lyrics with a falsy summary for which the models give no analysis. The models are asked exactly when the summary is falsy. An analysed song takes its summary and keywords from the analysis, and an entry is produced exactly when summary and keywords are truthy. |
| Quiz.StripEmptyIsBlank | app/controllers/quiz_controller.py:152 | `not lyrics.strip()` holds exactly for whitespace-only lyrics. |
| Quiz.WalkSongs | app/controllers/quiz_controller.py:147-191 | The walk fails exactly when some song fails. Otherwise every entry is usable, only non-blank lyrics reach the models, and each track is the song as its visit leaves it. |
| Quiz.WalkOne | app/controllers/quiz_controller.py:147-191 | Walking one song is visiting it. |
| Quiz.WalkAppend | app/controllers/quiz_controller.py:147-191 | Walking a concatenation walks the first part, then the second, and fails when either part fails. |
| Quiz.GetQuizData | app/controllers/quiz_controller.py:124-207 | A read of the document that raises gives 500 and writes nothing. 404 exactly for a missing document that was read. 200 exactly when the read returns, the document exists, its tracks are readable, the walk succeeds, and either no song was analysed now or the update succeeds. The reply then holds the walk's entries. The document is written exactly when some song was analysed now, and the written tracks are the walk's tracks. Failures return no entries. |
| Quiz.NoneLyricsFailRequest | app/controllers/quiz_controller.py:151-152 | One song stored with `None` lyrics makes the whole request fail with 500. |
| Quiz.AnalysedPlaylistNotRewritten | app/controllers/quiz_controller.py:159-201 | A playlist whose songs all have summaries is answered with 200, and nothing is written. |
| Quiz.AnalysedWalk | app/controllers/quiz_controller.py:147-191 | Walking already analysed songs succeeds without asking the models. |
| Analyzer.DetectLanguage | lyrics_analyzer_firestore.py:52-63 | A text without Hangul syllables or Latin letters is English. Otherwise it is Korean exactly when the Hangul syllables make up at least the weight's share of those letters. |
| Analyzer.Letters | lyrics_analyzer_firestore.py:55-56 | The letters the detector looks at are Hangul syllables and A-Z/a-z only, and never more than the text. |
| Analyzer.LettersCounts | lyrics_analyzer_firestore.py:55-59 | The two counts of a text are those of its letters, and together they count every letter. |
| Analyzer.OnlyLettersMatter | lyrics_analyzer_firestore.py:52-63 | Only the letters decide the language. A text without letters is English. |
| Analyzer.OtherCharIgnored | lyrics_analyzer_firestore.py:55-56 | Inserting any other character anywhere never changes the language. |
| Analyzer.EvenSplitIsKorean | lyrics_analyzer_firestore.py:63 | With the default weight, an even split is Korean, because the comparison is `>=`. |
| Analyzer.MoreHangulStaysKorean | lyrics_analyzer_firestore.py:63 | With a weight of at most 1, adding a Hangul syllable keeps Korean text Korean. |
| Analyzer.MoreLatinStaysEnglish | lyrics_analyzer_firestore.py:63 | Adding a Latin letter keeps English text with letters English. |
| Analyzer.ProcessLyrics | lyrics_analyzer_firestore.py:191-200 | English lyrics are summarised in English, translated and keyworded in English. Other lyrics are summarised and keyworded in Korean. |
| Analyzer.OneBranch | lyrics_analyzer_firestore.py:193-199 | Exactly one branch runs, and translation happens exactly for English. |
| Analyzer.TitleOf | lyrics_analyzer_firestore.py:239 | The clean title when truthy, otherwise the original title. |
| Analyzer.LyricsOf | lyrics_analyzer_firestore.py:241 | Lyrics are non-empty exactly when the processed or the raw lyrics are truthy. The processed lyrics take precedence. |
| Analyzer.WithLyrics | lyrics_analyzer_firestore.py:243-245 | Exactly the songs with lyrics are analysed. |
| Analyzer.AnalyzePlaylist | lyrics_analyzer_firestore.py:230-247 | One report per song with lyrics, in order, with the chosen title, artist and analysis. |
| Analyzer.WithLyricsAppend | lyrics_analyzer_firestore.py:240-245 | The song filter keeps order: the songs with lyrics of a concatenation are the concatenated ones. |
| Analyzer.AnalyzeOne | lyrics_analyzer_firestore.py:230-247 | One song gives its report when it has lyrics, and nothing otherwise. |
| Analyzer.AnalyzeAppend | lyrics_analyzer_firestore.py:230-247 | Analysing a concatenation gives the concatenated reports. |
| WordFreq.Sanitize | wc.py:53 | Same length. Every character outside word characters, whitespace and "'" becomes a space, and the others stay. |
| WordFreq.Words | wc.py:62 | Tokens are non-empty and whitespace-free. Together they are exactly the non-whitespace characters of the text, in order. |
| WordFreq.WordsSquash | app/services/music_service.py:257-261 | The whitespace clean-up keeps every whitespace-separated word, in order. |
| WordFreq.ServiceCleanKeepsWords | app/services/music_service.py:226-261 | On text holding nothing the other passes look for, the service's cleaner keeps every word, in order. |
| WordFreq.WordsOfKept | wc.py:53-62 | After the punctuation pass, every token character is a word character or "'". |
| WordFreq.Lower | wc.py:63 | Lowering works character by character and keeps the length. |
| WordFreq.ContractionDropped | wc.py:65 | "that's" is filtered: the apostrophe ends the article "that" at a word boundary. |
| WordFreq.LongerWordKept | wc.py:65 | "another" is kept, because "an" runs on into the word. |
| WordFreq.Tally | wc.py:62-70 | Each word's count is its number of occurrences, or zero when the word is filtered. Every key counts at least one. |
| WordFreq.FrequencyDictKeys | wc.py:47-74 | A key is a lowered token that is no stopword and not headed by an article. Its count is its number of occurrences, and its characters are word characters or "'". |
| WordFreq.MoreStopwordsOnlyRemove | wc.py:47-49 | More stopwords only remove keys. A removed key is one of the added stopwords. |
| WordFreq.SongStopwords | wc.py:118-121 | The stopwords are exactly the lowered words of the title and of the artist. |
| WordFreq.SongWordsNotKeys | wc.py:118-137 | No word of a song's title or artist appears in its word cloud. |

## Left out

- Unicode: Python's character tables are modelled in part.
  - Whitespace (`\s`, `str.strip`, `str.split`) is exactly the set `str.isspace` accepts.
  - Line boundaries (`splitlines`) are exactly Python's: `\n`, `\r`, `\r\n`, `\v`, `\f`, `\x1c`-`\x1e`, `\x85`, U+2028 and U+2029.
  - Word characters (`\w`) are ASCII letters, digits and `_`; Latin-1 and Latin Extended letters (U+00C0 to U+024F, without × and ÷); ª ² ³ µ ¹ º ¼ ½ ¾; kana; the CJK unified ideographs U+4E00 to U+9FFF; Hangul jamo, compatibility jamo and syllables; and K (U+212A) and Å (U+212B). Other scripts (Greek, Cyrillic, Arabic letters, combining marks) are not word characters here.
  - Decimal digits are the ASCII, Arabic-Indic, extended Arabic-Indic, Devanagari and full-width ones. Other digit blocks are left out.
  - `str.lower` lowers ASCII and Latin-1 capitals. Other scripts are left unchanged.
  - `IGNORECASE` matching folds the ASCII letter pairs, plus İ and ı with i, ſ with s, and K (U+212A) with k. Other case pairs are left out.
- Network, Spotify, Genius, Firestore and Cloud Storage are not modelled. Their answers are parameters. Client construction and credential handling are left out.
- Concurrency: the thread pool in `fetch_and_save_playlist` runs per-track work independently. It is modelled as a map over the kept tracks in order. The order in which the pool completes is not modelled, so `Service.FetchAndSave` states the stored tracks with their multiplicities and not their order.
- Timestamps, `uuid` and `_id_generate` are left out. The id postfix is a parameter, and stored timestamps are omitted.
- `random.sample` is the `pick` parameter. Its only assumption is distinct in-range positions.
- The summarisers, translator and keyword extractors (`nlp_service`, the analyser's models) are functions passed in. The analyser's models are total functions and never raise. In `Quiz`, the `Analyzer` parameter may return `None`, which stands for a raise. The real `nlp_service` wrapper catches every exception, so this allows more failures than the source has.
- `get_wordcloud`, `analyze_single_song`, `image_service`, `makeWordCloud`, plotting, JSON file I/O and the older script's `main` are not part of this model.
- Logging: printed messages are left out. The failed-search log file is a list of (artist, title) entries without the time.
- The script copies of `clean_track_title` and `expand_artists` in get_lyrics_save_firestore.py:68-79 are textually identical to the service's. They are modelled by the same functions, `Titles.CleanTitle` and `Titles.ExpandArtists`.
- The candidate loop in `_process_single_track` has no `break` after a hit, so every query is tried and a later query's miss overwrites an earlier hit (`Search.HitErasedByLaterMiss`).
- `fetch_and_save_playlist` saves a playlist with no tracks as an empty document and reports success (`Service.EmptyPlaylistSaved`).
- `WordFreq.Tally` does not state the order of keys. Python dictionaries and `MultiDict` keep insertion order, and a map has none.
- `WordFreq.Words` states that the tokens cover exactly the non-whitespace characters in order. It does not state that each token is a maximal run.
- `Analyzer.DetectLanguage` takes the float weight `hangul_weight` as the rational `p / q`. Floating-point rounding of the share is not modelled.
- `Cleaners.ServiceCleanLyrics` is not idempotent in general, because a second header pass can remove more text. No idempotence is claimed. Its fixpoint is stated for text that holds nothing the passes look for.

=== FILE: analyzer.dfy ===
/**
 * The decision logic of the lyric analyser: the language of a text by its share of
 * Hangul syllables among Hangul and Latin letters (`detect_language`), the branch of the
 * analysis pipeline that language selects (`process_lyrics`), and the fields each
 * stored song is analysed by (`main`).
 *
 * The summarisers, the translator and the keyword extractors are parameters.  The
 * weight, a float in the source, is the rational `p / q`.
 */
module Analyzer {
  import opened Wrappers
  import opened Chars

  datatype Lang = Ko | En

  /** `len(re.findall(r"[가-힣]", text))`. */
  function HangulCount(s: string): nat
    decreases |s|
  {
    if |s| == 0 then 0 else (if IsHangulSyllable(s[|s| - 1]) then 1 else 0) + HangulCount(s[..|s| - 1])
  }

  /** `len(re.findall(r"[A-Za-z]", text))`. */
  function LatinCount(s: string): nat
    decreases |s|
  {
    if |s| == 0 then 0 else (if IsAsciiLetter(s[|s| - 1]) then 1 else 0) + LatinCount(s[..|s| - 1])
  }

  /**
   * `detect_language(text, p / q)`: English when the text has neither Hangul syllables nor
   * Latin letters, otherwise Korean exactly when the Hangul share reaches the weight.
   */
  function DetectLanguage(text: string, p: nat, q: nat): (r: Lang)
    requires q > 0
    ensures |Letters(text)| == 0 ==> r == En
    ensures |Letters(text)| > 0 ==> (r == Ko <==> HangulCount(Letters(text)) * q >= p * |Letters(text)|)
  {
    LettersCounts(text);
    ByShare(HangulCount(text), LatinCount(text), p, q)
  }

  /** The decision on the counts: `h / (h + l) >= p / q`, with English when both are zero. */
  function ByShare(h: nat, l: nat, p: nat, q: nat): Lang {
    if h + l == 0 then En
    else if h * q >= p * (h + l) then Ko
    else En
  }

  /** The default weight, 0.5. */
  function Detect(text: string): Lang {
    DetectLanguage(text, 1, 2)
  }

  /** The letters the detector looks at, in order: Hangul syllables and `A-Za-z`. */
  function Letters(s: string): (r: string)
    ensures |r| <= |s|
    ensures forall k :: 0 <= k < |r| ==> IsHangulSyllable(r[k]) || IsAsciiLetter(r[k])
    decreases |s|
  {
    if |s| == 0 then []
    else
      var c := s[|s| - 1];
      Letters(s[..|s| - 1]) + (if IsHangulSyllable(c) || IsAsciiLetter(c) then [c] else [])
  }

  /** Both counts are additive over concatenation. */
  lemma {:induction false} CountsAppend(a: string, b: string)
    ensures HangulCount(a + b) == HangulCount(a) + HangulCount(b)
    ensures LatinCount(a + b) == LatinCount(a) + LatinCount(b)
    decreases |b|
  {
    if |b| == 0 {
      assert a + b == a;
    } else {
      var b' := b[..|b| - 1];
      assert (a + b)[..|a + b| - 1] == a + b';
      assert (a + b)[|a + b| - 1] == b[|b| - 1];
      CountsAppend(a, b');
    }
  }

  /** The counts of a text are the counts of its letters, and every letter is counted. */
  lemma {:induction false} LettersCounts(s: string)
    ensures HangulCount(Letters(s)) == HangulCount(s)
    ensures LatinCount(Letters(s)) == LatinCount(s)
    ensures HangulCount(s) + LatinCount(s) == |Letters(s)|
    decreases |s|
  {
    if |s| > 0 {
      var c := s[|s| - 1];
      var init := s[..|s| - 1];
      LettersCounts(init);
      var tail: string := if IsHangulSyllable(c) || IsAsciiLetter(c) then [c] else [];
      CountsAppend(Letters(init), tail);
      assert tail == [] || tail[..0] == [];
    }
  }

  /**
   * Characters other than Hangul syllables and Latin letters (digits, jamo, accented
   * letters, punctuation) never change the language: the text and its letters agree.
   */
  lemma OnlyLettersMatter(text: string, p: nat, q: nat)
    requires q > 0
    ensures DetectLanguage(text, p, q) == DetectLanguage(Letters(text), p, q)
    ensures DetectLanguage(text, p, q) == En <== |Letters(text)| == 0
  {
    LettersCounts(text);
  }

  /** Any other character can be inserted anywhere without changing the language. */
  lemma OtherCharIgnored(a: string, c: char, b: string, p: nat, q: nat)
    requires q > 0 && !IsHangulSyllable(c) && !IsAsciiLetter(c)
    ensures DetectLanguage(a + [c] + b, p, q) == DetectLanguage(a + b, p, q)
  {
    CountsAppend(a + [c], b);
    CountsAppend(a, [c]);
    CountsAppend(a, b);
    assert [c][..0] == [];
  }

  /** With the default weight, as many Hangul syllables as Latin letters is Korean. */
  lemma EvenSplitIsKorean(text: string)
    requires HangulCount(text) == LatinCount(text) > 0
    ensures Detect(text) == Ko
  {
  }

  /** With a weight of at most 1, adding a Hangul syllable to Korean text keeps it Korean. */
  lemma MoreHangulStaysKorean(text: string, c: char, p: nat, q: nat)
    requires q > 0 && p <= q && IsHangulSyllable(c)
    requires DetectLanguage(text, p, q) == Ko
    ensures DetectLanguage(text + [c], p, q) == Ko
  {
    var h := HangulCount(text);
    var l := LatinCount(text);
    assert HangulCount(text + [c]) == h + 1 && LatinCount(text + [c]) == l by {
      CountsAppend(text, [c]);
      assert [c][..0] == [];
    }
    KoreanShare(h, l, p, q);
  }

  lemma KoreanShare(h: nat, l: nat, p: nat, q: nat)
    requires p <= q && ByShare(h, l, p, q) == Ko
    ensures ByShare(h + 1, l, p, q) == Ko
  {
    assert (h + 1) * q == h * q + q;
    assert p * (h + 1 + l) == p * (h + l) + p;
  }

  /** Adding a Latin letter to English text with some letters keeps it English. */
  lemma MoreLatinStaysEnglish(text: string, c: char, p: nat, q: nat)
    requires q > 0 && IsAsciiLetter(c) && HangulCount(text) + LatinCount(text) > 0
    requires DetectLanguage(text, p, q) == En
    ensures DetectLanguage(text + [c], p, q) == En
  {
    var h := HangulCount(text);
    var l := LatinCount(text);
    assert HangulCount(text + [c]) == h && LatinCount(text + [c]) == l + 1 by {
      CountsAppend(text, [c]);
      assert [c][..0] == [];
    }
    EnglishShare(h, l, p, q);
  }

  lemma EnglishShare(h: nat, l: nat, p: nat, q: nat)
    requires h + l > 0 && ByShare(h, l, p, q) == En
    ensures ByShare(h, l + 1, p, q) == En
  {
    assert p * (h + l + 1) == p * (h + l) + p;
  }

  // ---------------------------------------------------------------------------
  // process_lyrics

  /** A stage of the analysis pipeline. */
  datatype Stage = SummarizeEn | TranslateToKo | KeywordsEn | SummarizeKo | KeywordsKo

  /** The models the pipeline calls, as functions of their input text. */
  datatype Models = Models(
    summarizeEn: string -> string,
    translateToKo: string -> string,
    keywordsEn: string -> seq<string>,
    summarizeKo: string -> string,
    keywordsKo: string -> seq<string>)

  /** The Korean summary and keywords, with the stages that ran, in order. */
  datatype Analysis = Analysis(summary: string, keywords: seq<string>, stages: seq<Stage>)

  /**
   * `process_lyrics`: English lyrics are summarised in English, the summary translated,
   * and English keywords taken; any other lyrics are summarised and keyworded in Korean.
   */
  function ProcessLyrics(lyrics: string, m: Models): (r: Analysis)
    ensures Detect(lyrics) == En ==> r.stages == [SummarizeEn, TranslateToKo, KeywordsEn]
    ensures Detect(lyrics) == Ko ==> r.stages == [SummarizeKo, KeywordsKo]
    ensures Detect(lyrics) == En ==> r.summary == m.translateToKo(m.summarizeEn(lyrics)) && r.keywords == m.keywordsEn(lyrics)
    ensures Detect(lyrics) == Ko ==> r.summary == m.summarizeKo(lyrics) && r.keywords == m.keywordsKo(lyrics)
  {
    if Detect(lyrics) == En then
      var en := m.summarizeEn(lyrics);
      Analysis(m.translateToKo(en), m.keywordsEn(lyrics), [SummarizeEn, TranslateToKo, KeywordsEn])
    else
      Analysis(m.summarizeKo(lyrics), m.keywordsKo(lyrics), [SummarizeKo, KeywordsKo])
  }

  /** Exactly one branch runs: the stages of the two never mix. */
  lemma OneBranch(lyrics: string, m: Models)
    ensures var s := ProcessLyrics(lyrics, m).stages;
            (SummarizeEn in s) != (SummarizeKo in s)
    ensures var s := ProcessLyrics(lyrics, m).stages;
            (TranslateToKo in s) <==> Detect(lyrics) == En
  {
  }

  // ---------------------------------------------------------------------------
  // main

  /** A stored song as the analyser reads it; each key may be missing or `None`. */
  datatype Song = Song(
    cleanTitle: Field<string>,
    originalTitle: Field<string>,
    artist: Field<string>,
    lyricsProcessed: Field<string>,
    lyrics: Field<string>)

  predicate Truthy(f: Field<string>) { f.Value? && |f.v| > 0 }

  /** `song.get("clean_title") or song.get("original_title")`. */
  function TitleOf(s: Song): (r: Option<string>)
    ensures Truthy(s.cleanTitle) ==> r == Some(s.cleanTitle.v)
    ensures !Truthy(s.cleanTitle) ==> r == s.originalTitle.Get()
  {
    if Truthy(s.cleanTitle) then Some(s.cleanTitle.v) else s.originalTitle.Get()
  }

  /** `song.get("lyrics_processed") or song.get("lyrics") or ""`. */
  function LyricsOf(s: Song): (r: string)
    ensures |r| > 0 <==> Truthy(s.lyricsProcessed) || Truthy(s.lyrics)
    ensures Truthy(s.lyricsProcessed) ==> r == s.lyricsProcessed.v
    ensures !Truthy(s.lyricsProcessed) && Truthy(s.lyrics) ==> r == s.lyrics.v
  {
    if Truthy(s.lyricsProcessed) then s.lyricsProcessed.v
    else if Truthy(s.lyrics) then s.lyrics.v
    else ""
  }

  /** `song.get("artist", "Unknown")`. */
  function ArtistOf(s: Song): Option<string> {
    match s.artist
    case Absent => Some("Unknown")
    case Null => None
    case Value(a) => Some(a)
  }

  /** What `main` reports for one analysed song. */
  datatype Report = Report(title: Option<string>, artist: Option<string>, analysis: Analysis)

  /** The songs with lyrics to analyse, in order. */
  function WithLyrics(songs: seq<Song>): (r: seq<Song>)
    ensures |r| <= |songs|
    ensures forall s :: s in r <==> s in songs && |LyricsOf(s)| > 0
    decreases |songs|
  {
    if |songs| == 0 then []
    else
      assert songs == [songs[0]] + songs[1..];
      (if |LyricsOf(songs[0])| > 0 then [songs[0]] else []) + WithLyrics(songs[1..])
  }

  /** The report of one analysed song. */
  function ReportOf(s: Song, m: Models): Report {
    Report(TitleOf(s), ArtistOf(s), ProcessLyrics(LyricsOf(s), m))
  }

  /** One song is kept exactly when it has lyrics. */
  lemma WithLyricsOne(s: Song)
    ensures WithLyrics([s]) == if |LyricsOf(s)| > 0 then [s] else []
  {
    assert [s][1..] == [];
  }

  /** The selection is order-preserving: a concatenation keeps each part's songs in turn. */
  lemma {:induction false} WithLyricsAppend(a: seq<Song>, b: seq<Song>)
    ensures WithLyrics(a + b) == WithLyrics(a) + WithLyrics(b)
    decreases |a|
  {
    if |a| == 0 {
      assert a + b == b;
    } else {
      var ab := a + b;
      assert ab[0] == a[0];
      assert ab[1..] == a[1..] + b;
      WithLyricsAppend(a[1..], b);
      var h: seq<Song> := if |LyricsOf(a[0])| > 0 then [a[0]] else [];
      assert WithLyrics(ab) == h + WithLyrics(ab[1..]);
      assert WithLyrics(a) == h + WithLyrics(a[1..]);
      AppendAssoc(h, WithLyrics(a[1..]), WithLyrics(b));
    }
  }

  /**
   * `main` on a stored playlist (`None` for the stored "tracks" when the key is missing or
   * `None`): one report per song with lyrics, in order, with the chosen title and
   * lyrics; songs without lyrics are skipped.
   */
  function AnalyzePlaylist(tracks: Option<seq<Song>>, m: Models): (r: seq<Report>)
    ensures tracks.None? ==> r == []
    ensures tracks.Some? ==> |r| == |WithLyrics(tracks.value)|
    ensures tracks.Some? ==> forall k :: 0 <= k < |r| ==>
              var s := WithLyrics(tracks.value)[k];
              r[k] == Report(TitleOf(s), ArtistOf(s), ProcessLyrics(LyricsOf(s), m))
  {
    if tracks.None? then [] else Reports(WithLyrics(tracks.value), m)
  }

  /** The reports of the kept songs, one per song, in order. */
  function Reports(kept: seq<Song>, m: Models): (r: seq<Report>)
    ensures |r| == |kept|
  {
    seq(|kept|, k requires 0 <= k < |kept| => ReportOf(kept[k], m))
  }

  lemma ReportsAppend(x: seq<Song>, y: seq<Song>, m: Models)
    ensures Reports(x + y, m) == Reports(x, m) + Reports(y, m)
  {
    var r := Reports(x + y, m);
    forall k | 0 <= k < |r| ensures r[k] == (Reports(x, m) + Reports(y, m))[k] {
      if k < |x| {
        assert (x + y)[k] == x[k];
      } else {
        assert (x + y)[k] == y[k - |x|];
      }
    }
  }

  /** A song without lyrics adds no report; a song with lyrics adds exactly its own. */
  lemma AnalyzeOne(s: Song, m: Models)
    ensures AnalyzePlaylist(Some([s]), m)
         == if |LyricsOf(s)| > 0 then [ReportOf(s, m)] else []
  {
    WithLyricsOne(s);
  }

  /** The reports of a playlist are the reports of its parts, in order. */
  lemma AnalyzeAppend(a: seq<Song>, b: seq<Song>, m: Models)
    ensures AnalyzePlaylist(Some(a + b), m) == AnalyzePlaylist(Some(a), m) + AnalyzePlaylist(Some(b), m)
  {
    WithLyricsAppend(a, b);
    ReportsAppend(WithLyrics(a), WithLyrics(b), m);
  }
}

=== FILE: catalog.dfy ===
/**
 * The Spotify side of the pipeline: playlist items as the catalog returns them, and
 * the concatenation of result pages.
 */
module Catalog {
  import opened Wrappers

  /**
   * A track object: its name, the names of its artists in order, and the image URLs of
   * its album (`None` when `track["album"]["images"]` does not exist).
   */
  datatype Track = Track(name: string, artists: seq<string>, albumImages: Option<seq<string>>)

  /** A playlist item and its "track" key, which may be missing or `None`. */
  datatype Item = Item(track: Field<Track>)

  /** The items of all result pages, page after page (the `extend` loop over `next`). */
  function Concat(pages: seq<seq<Item>>): seq<Item>
    decreases |pages|
  {
    if |pages| == 0 then [] else pages[0] + Concat(pages[1..])
  }

  /** Concatenation respects page boundaries: no item is lost, reordered or repeated. */
  lemma {:induction false} ConcatAppend(p: seq<seq<Item>>, q: seq<seq<Item>>)
    ensures Concat(p + q) == Concat(p) + Concat(q)
    ensures |Concat(p + q)| == |Concat(p)| + |Concat(q)|
    decreases |p|
  {
    if |p| == 0 {
      assert p + q == q;
    } else {
      assert (p + q)[1..] == p[1..] + q;
      ConcatAppend(p[1..], q);
    }
  }

  /** A single page is returned as it is. */
  lemma ConcatOne(page: seq<Item>)
    ensures Concat([page]) == page
  {
    assert [page][1..] == [];
  }
}

=== FILE: chars.dfy ===
/**
 * Character classes of Python 3 `str` and `re` that the lyric pipeline relies on.
 *
 * `IsSpace` is exactly `str.isspace()` (and therefore what `\s` matches in a str
 * pattern and what `str.strip()`/`str.split()` remove).  `IsWordChar` (`\w`),
 * `IsDecimal` (`\d`) and `LowerChar` (`str.lower`) cover ASCII, Latin-1 and the
 * Hangul, kana and CJK blocks; the rest of the Unicode tables is not modelled.
 */
module Chars {

  /** `str.isspace()`: the Unicode White_Space characters plus the separators \x1c-\x1f. */
  predicate IsSpace(c: char) {
    || c == ' '
    || ('\t' <= c <= '\r')
    || ('\U{1C}' <= c <= '\U{1F}')
    || c == '\U{85}' || c == '\U{A0}' || c == '\U{1680}'
    || ('\U{2000}' <= c <= '\U{200A}')
    || c == '\U{2028}' || c == '\U{2029}' || c == '\U{202F}' || c == '\U{205F}' || c == '\U{3000}'
  }

  /** The characters at which `str.splitlines()` ends a line (\r\n counts as one break). */
  predicate IsLineBreak(c: char) {
    || c == '\n' || c == '\r' || c == '\U{B}' || c == '\U{C}'
    || c == '\U{1C}' || c == '\U{1D}' || c == '\U{1E}'
    || c == '\U{85}' || c == '\U{2028}' || c == '\U{2029}'
  }

  /** `\d`: decimal digits (ASCII, Arabic-Indic, extended Arabic-Indic, Devanagari, full-width). */
  predicate IsDecimal(c: char) {
    || ('0' <= c <= '9')
    || ('\U{660}' <= c <= '\U{669}')
    || ('\U{6F0}' <= c <= '\U{6F9}')
    || ('\U{966}' <= c <= '\U{96F}')
    || ('\U{FF10}' <= c <= '\U{FF19}')
  }

  predicate IsAsciiUpper(c: char) { 'A' <= c <= 'Z' }

  predicate IsAsciiLetter(c: char) { ('a' <= c <= 'z') || ('A' <= c <= 'Z') }

  /** `[a-zA-Z0-9]`, the class of the playlist-id pattern. */
  predicate IsAsciiAlnum(c: char) { IsAsciiLetter(c) || ('0' <= c <= '9') }

  /** `[가-힣]`: a precomposed Hangul syllable. */
  predicate IsHangulSyllable(c: char) { '\U{AC00}' <= c <= '\U{D7A3}' }

  /** Latin-1 upper-case letters, which `str.lower` maps 32 code points up. */
  predicate IsLatin1Upper(c: char) { '\U{C0}' <= c <= '\U{DE}' && c != '\U{D7}' }

  /** `\w`: letters, digits and numeric characters (`str.isalnum()`) and the underscore. */
  predicate IsWordChar(c: char) {
    || IsAsciiLetter(c) || IsDecimal(c) || c == '_'
    || c == '\U{AA}' || c == '\U{B2}' || c == '\U{B3}' || c == '\U{B5}' || c == '\U{B9}' || c == '\U{BA}'
    || ('\U{BC}' <= c <= '\U{BE}')
    || ('\U{C0}' <= c <= '\U{24F}' && c != '\U{D7}' && c != '\U{F7}')
    || ('\U{1100}' <= c <= '\U{11FF}')
    || ('\U{3041}' <= c <= '\U{3096}')
    || ('\U{30A1}' <= c <= '\U{30FA}')
    || ('\U{3131}' <= c <= '\U{318E}')
    || ('\U{4E00}' <= c <= '\U{9FFF}')
    || c == '\U{212A}' || c == '\U{212B}'
    || IsHangulSyllable(c)
  }

  /** `[\W\d_]`: a character that is not a letter (a non-word character, a digit or `_`). */
  predicate IsLetterFree(c: char) { !IsWordChar(c) || IsDecimal(c) || c == '_' }

  /** `str.lower()` on one character. */
  function LowerChar(c: char): (r: char)
    ensures IsWordChar(c) <==> IsWordChar(r)
    ensures IsSpace(c) <==> IsSpace(r)
    ensures !IsWordChar(c) ==> r == c
    ensures !IsAsciiUpper(r)
  {
    if IsAsciiUpper(c) || IsLatin1Upper(c) then (c as int + 32) as char else c
  }

  /**
   * Case-insensitive comparison of a subject character with a lower-case pattern
   * character, as `re.IGNORECASE` does it for str patterns: ASCII case pairs plus the
   * equivalences of the regular-expression engine for `i` (dotted and dotless I),
   * `s` (long s) and `k` (Kelvin sign).
   */
  predicate CaseFoldEq(c: char, p: char) {
    || c == p
    || ('a' <= p <= 'z' && c as int == p as int - 32)
    || (p == 'i' && (c == '\U{130}' || c == '\U{131}'))
    || (p == 's' && c == '\U{17F}')
    || (p == 'k' && c == '\U{212A}')
  }

  lemma CaseFoldAscii(c: char, p: char)
    requires 'a' <= p <= 'z' && CaseFoldEq(c, p)
    ensures IsWordChar(c) && !IsSpace(c) && c != '\n'
  {
  }
}

=== FILE: cleaners.dfy ===
/**
 * The lyric cleaners.  Each one is a fixed pipeline of the scanners in `Scanners`:
 *
 * - `ServiceCleanLyrics`: `MusicDataService._clean_lyrics` (header, tags, "Embed",
 *   read-more lines, "Translations", whitespace);
 * - `RegexCleanLyrics`: `regex_clean_lyrics` of the Firestore script;
 * - `JsonCleanLyrics`: `clean_lyrics` of the JSON post-processor, which differs only in
 *   its read-more pattern;
 * - `GeniusClean`: `clean_genius_lyrics` of both scripts, a line filter that drops the
 *   "Contributors"/"Translations" block; the two copies differ only in how they split lines.
 *
 * An optional argument stands for a Python value that may not be a string: `None` is
 * `None` for the functions that test truthiness, and any non-string for the ones that
 * test `isinstance(x, str)`.
 */
module Cleaners {
  import opened Wrappers
  import opened Chars
  import opened Strings
  import opened Lines
  import opened Scanners

  const Translations := "Translations"
  const Contributors := "Contributors"

  /** Python truthiness of an optional string: `None` and `""` are false. */
  predicate Truthy(s: Option<string>) {
    s.Some? && |s.value| > 0
  }

  // ---------------------------------------------------------------------------
  // MusicDataService._clean_lyrics

  /** The passes of `_clean_lyrics` that follow the header strip. */
  function ServiceBody(t: string): string {
    var tags := Remove(t, SectionTag);
    var embed := DropEmbed(tags);
    var blanked := BlankReadMoreLines(embed);
    SquashWhitespace(Before(blanked, Translations))
  }

  /**
   * `_clean_lyrics`: a falsy input gives "", and the result is tidy, holds no
   * "Translations" and no section-tag bracket pair on any line.
   */
  function ServiceCleanLyrics(lyrics: Option<string>): (r: string)
    ensures !Truthy(lyrics) ==> r == ""
    ensures Tidy(r)
    ensures !Contains(r, Translations)
    ensures NoPairOnLine(r, '[', ']')
  {
    if !Truthy(lyrics) then ""
    else
      var t := DropHeader(lyrics.value);
      ServiceBodyFacts(t);
      ServiceBody(t)
  }

  lemma ServiceBodyFacts(t: string)
    ensures !Contains(ServiceBody(t), Translations)
    ensures NoPairOnLine(ServiceBody(t), '[', ']')
  {
    var tags := Remove(t, SectionTag);
    var embed := DropEmbed(tags);
    var blanked := BlankReadMoreLines(embed);
    var cut := Before(blanked, Translations);
    RemoveLeavesNoPair(t, SectionTag);
    NoPairCutTail(tags, embed, '[', ']');
    BlankReadMoreKeepsNoPair(embed, '[', ']');
    NoPairPrefix(blanked, |cut|, '[', ']');
    NoPairSquash(cut, '[', ']');
    MarkerWords();
    NotContainsSquash(cut, Translations);
  }

  /** Everything up to and including the first "lyrics", in any case, is discarded. */
  lemma ServiceDropsHeader(h: string, y: string)
    requires !ContainsFolded(h + "Lyric", LyricsWord)
    ensures ServiceCleanLyrics(Some(h + "Lyrics" + y)) == ServiceBody(y)
  {
    var s := h + "Lyrics" + y;
    HeaderAt(h, y);
    assert DropHeader(s) == y;
  }

  lemma HeaderAt(h: string, y: string)
    requires !ContainsFolded(h + "Lyric", LyricsWord)
    ensures DropHeader(h + "Lyrics" + y) == y
  {
    var s := h + "Lyrics" + y;
    var w := LyricsWord;
    var p := |h|;
    assert FoldedAt(s, w, p) by {
      forall k | 0 <= k < |w| ensures CaseFoldEq(s[p + k], w[k]) {
        assert s[p + k] == "Lyrics"[k];
      }
    }
    assert h + "Lyric" == s[..p + |w| - 1];
    DropHeaderAt(s, p);
    assert s[p + |w|..] == y;
  }

  /**
   * Text that is already tidy and holds nothing the passes look for comes back
   * unchanged.
   */
  lemma ServiceCleanFixpoint(s: string)
    requires |s| > 0 && Tidy(s)
    requires !ContainsFolded(s, LyricsWord) && !ContainsFolded(s, ReadMoreWord)
    requires '[' !in s && !EndsWith(s, EmbedWord) && !Contains(s, Translations)
    ensures ServiceCleanLyrics(Some(s)) == s
  {
    NotContainsChar(s, '[');
    RemoveWithoutOpening(s, false, "[", ']');
    assert FinalNewline(s) == 0;
    DropEmbedOtherwise(s);
    BlankReadMoreIdentity(s);
    SquashTidy(s);
  }

  /**
   * Text that holds nothing the passes look for is only squashed: the header, tag,
   * trailer, read-more and translation passes leave it alone.
   */
  lemma ServiceCleanPlain(s: string)
    requires |s| > 0
    requires !ContainsFolded(s, LyricsWord) && !ContainsFolded(s, ReadMoreWord)
    requires '[' !in s && !EndsWith(s[..|s| - FinalNewline(s)], EmbedWord) && !Contains(s, Translations)
    ensures ServiceCleanLyrics(Some(s)) == SquashWhitespace(s)
  {
    NotContainsChar(s, '[');
    RemoveWithoutOpening(s, false, "[", ']');
    DropEmbedOtherwise(s);
    BlankReadMoreIdentity(s);
  }

  // ---------------------------------------------------------------------------
  // regex_clean_lyrics and clean_lyrics

  /** `lyrics_raw[lyrics_raw.find("["):]`, or the whole text when there is no "[". */
  function FromFirstBracket(s: string): (r: string)
    ensures |r| <= |s| && r == s[|s| - |r|..]
    ensures '[' !in s ==> r == s
    ensures '[' in s ==> |r| > 0 && r[0] == '[' && '[' !in s[..|s| - |r|]
  {
    match IndexOf(s, '[', 0)
    case None => s
    case Some(k) =>
      assert forall j :: 0 <= j < k ==> s[..k][j] == s[j];
      s[k..]
  }

  /** The whitespace tail after tag removal, shared by the two script cleaners. */
  function TagsAndSquash(t: string): (r: string)
    ensures Tidy(r) && NoPairOnLine(r, '[', ']')
  {
    var tags := Remove(t, SectionTag);
    RemoveLeavesNoPair(t, SectionTag);
    NoPairSquash(tags, '[', ']');
    SquashWhitespace(tags)
  }

  /**
   * `regex_clean_lyrics`: a non-string is treated as ""; text before the first "[" is
   * discarded, lines mentioning "read more" in any case are dropped with their newline,
   * section tags are deleted and whitespace is squashed.
   */
  function RegexCleanLyrics(raw: Option<string>): (r: string)
    ensures raw.None? ==> r == ""
    ensures Tidy(r) && NoPairOnLine(r, '[', ']')
  {
    var s := raw.GetOr("");
    RegexNone(raw);
    TagsAndSquash(DropReadMoreLines(FromFirstBracket(s)))
  }

  lemma RegexNone(raw: Option<string>)
    ensures raw.None? ==> TagsAndSquash(DropReadMoreLines(FromFirstBracket(raw.GetOr("")))) == ""
  {
    if raw.None? {
      assert DropReadMoreLines("") == "" by {
        assert IndexOf("", '\n', 0).None?;
        assert !FoldedAt("", ReadMoreWord, 0);
      }
      RemoveWithoutOpening("", false, "[", ']');
      assert Tidy("");
      SquashTidy("");
    }
  }

  /**
   * `clean_lyrics` of the JSON post-processor: as `RegexCleanLyrics`, but the read-more
   * pass deletes "…", whitespace, "Read More" and the rest of that line, case-sensitively.
   */
  function JsonCleanLyrics(raw: Option<string>): (r: string)
    ensures raw.None? ==> r == ""
    ensures Tidy(r) && NoPairOnLine(r, '[', ']')
  {
    var s := raw.GetOr("");
    JsonNone(raw);
    TagsAndSquash(Remove(FromFirstBracket(s), EllipsisReadMore))
  }

  lemma JsonNone(raw: Option<string>)
    ensures raw.None? ==> TagsAndSquash(Remove(FromFirstBracket(raw.GetOr("")), EllipsisReadMore)) == ""
  {
    if raw.None? {
      RemoveWithoutOpening("", false, "[", ']');
      assert Tidy("");
      SquashTidy("");
    }
  }

  /** The text before the first "[" never reaches the later passes. */
  lemma PreludeDiscarded(x: string, y: string)
    requires '[' !in x && |y| > 0 && y[0] == '['
    ensures FromFirstBracket(x + y) == y
    ensures RegexCleanLyrics(Some(x + y)) == RegexCleanLyrics(Some(y))
    ensures JsonCleanLyrics(Some(x + y)) == JsonCleanLyrics(Some(y))
  {
    var s := x + y;
    assert IndexOf(s, '[', 0) == Some(|x|) by {
      assert s[|x|] == '[';
      assert forall j :: 0 <= j < |x| ==> s[j] == x[j];
    }
    assert s[|x|..] == y;
    assert FromFirstBracket(y) == y by {
      assert IndexOf(y, '[', 0) == Some(0);
    }
  }

  /** On text that never says "read more", in any case, the two script cleaners agree. */
  lemma JsonVersusRegex(raw: Option<string>)
    requires raw.Some? ==> !ContainsFolded(raw.value, ReadMoreWord)
    ensures JsonCleanLyrics(raw) == RegexCleanLyrics(raw)
  {
    var s := raw.GetOr("");
    var t := FromFirstBracket(s);
    if raw.Some? {
      NotContainsFoldedSlice(s, |s| - |t|, |s|, ReadMoreWord);
      assert s[|s| - |t|..|s|] == t;
      DropReadMoreIdentity(t);
      RemoveWithoutReadMore(t);
    }
  }

  /** Tidy text that starts with "[" and never says "read more" survives up to its tags. */
  lemma RegexCleanFixpoint(s: string)
    requires Tidy(s) && '[' !in s && !ContainsFolded(s, ReadMoreWord)
    ensures RegexCleanLyrics(Some(s)) == s
    ensures JsonCleanLyrics(Some(s)) == s
  {
    DropReadMoreIdentity(s);
    RemoveWithoutReadMore(s);
    NotContainsChar(s, '[');
    RemoveWithoutOpening(s, false, "[", ']');
    SquashTidy(s);
  }

  // ---------------------------------------------------------------------------
  // The read-more passes on text that never says "read more"

  lemma {:induction false} DropReadMoreIdentity(s: string)
    requires !ContainsFolded(s, ReadMoreWord)
    ensures DropReadMoreLines(s) == s
    decreases |s|
  {
    match IndexOf(s, '\n', 0)
    case None =>
    case Some(k) =>
      LinesOf(s, k);
      DropReadMoreIdentity(s[k + 1..]);
      NewlineShape(s, k);
  }

  lemma {:induction false} BlankReadMoreIdentity(s: string)
    requires !ContainsFolded(s, ReadMoreWord)
    ensures BlankReadMoreLines(s) == s
    decreases |s|
  {
    match IndexOf(s, '\n', 0)
    case None =>
    case Some(k) =>
      LinesOf(s, k);
      BlankReadMoreIdentity(s[k + 1..]);
      NewlineShape(s, k);
  }

  lemma LinesOf(s: string, k: nat)
    requires k < |s| && !ContainsFolded(s, ReadMoreWord)
    ensures !MentionsReadMore(s[..k]) && !ContainsFolded(s[k + 1..], ReadMoreWord)
  {
    NotContainsFoldedSlice(s, 0, k, ReadMoreWord);
    NotContainsFoldedSlice(s, k + 1, |s|, ReadMoreWord);
    assert s[0..k] == s[..k] && s[k + 1..|s|] == s[k + 1..];
  }

  lemma NewlineShape(s: string, k: nat)
    requires k < |s| && s[k] == '\n'
    ensures s[..k] + "\n" + s[k + 1..] == s
  {
  }

  /** "Read More" is one spelling of "read more". */
  lemma ReadMoreFolded(s: string, q: nat)
    requires ContainsAt(s, ReadMore, q)
    ensures FoldedAt(s, ReadMoreWord, q)
  {
    forall k | 0 <= k < |ReadMoreWord| ensures CaseFoldEq(s[q + k], ReadMoreWord[k]) {
      assert s[q + k] == ReadMore[k];
    }
  }

  lemma {:induction false} RemoveWithoutReadMore(s: string)
    requires !ContainsFolded(s, ReadMoreWord)
    ensures Remove(s, EllipsisReadMore) == s
    decreases |s|
  {
    if |s| > 0 {
      if s[0] == Ellipsis {
        var q := SpaceRunEnd(s, 1);
        if ContainsAt(s, ReadMore, q) {
          ReadMoreFolded(s, q);
        }
      }
      assert MatchEnd(s, EllipsisReadMore).None?;
      NotContainsFoldedSlice(s, 1, |s|, ReadMoreWord);
      assert s[1..|s|] == s[1..];
      RemoveWithoutReadMore(s[1..]);
      assert s == [s[0]] + s[1..];
    }
  }

  // ---------------------------------------------------------------------------
  // clean_genius_lyrics

  /** `splitlines()` in the Firestore script, `split("\n")` in the older script. */
  datatype SplitMode = ByLineBoundaries | ByNewline

  function SplitBy(s: string, mode: SplitMode): seq<string> {
    match mode
    case ByLineBoundaries => SplitLines(s)
    case ByNewline => SplitOn(s, '\n')
  }

  /** A line that opens the "Contributors"/"Translations" block. */
  predicate IsMarker(line: string) {
    Contains(line, Contributors) || Contains(line, Translations)
  }

  /** `re.match(r"^[\W\d_]*$", line)` on a line without newlines: no letter at all. */
  predicate LetterFree(line: string) {
    forall j :: 0 <= j < |line| ==> IsLetterFree(line[j])
  }

  /**
   * The loop of `clean_genius_lyrics` with its `skip` flag: a marker line sets the flag
   * and is dropped, a letter-free line is dropped while the flag is set, and any other
   * line clears the flag and is kept, stripped.
   */
  function FilterFrom(lines: seq<string>, skip: bool): (r: seq<string>)
    ensures |r| <= |lines|
    decreases |lines|
  {
    if |lines| == 0 then []
    else if IsMarker(lines[0]) then FilterFrom(lines[1..], true)
    else if skip && LetterFree(lines[0]) then FilterFrom(lines[1..], true)
    else [Strip(lines[0])] + FilterFrom(lines[1..], false)
  }

  /** Lines none of which holds either marker word. */
  predicate MarkerFree(lines: seq<string>) {
    forall i :: 0 <= i < |lines| ==> !Contains(lines[i], Contributors) && !Contains(lines[i], Translations)
  }

  /** No kept line holds a marker word: marker lines are dropped, and stripping adds nothing. */
  lemma {:induction false} FilterMarkerFree(lines: seq<string>, skip: bool)
    ensures MarkerFree(FilterFrom(lines, skip))
    decreases |lines|
  {
    if |lines| > 0 {
      FilterMarkerFree(lines[1..], IsMarker(lines[0]) || (skip && LetterFree(lines[0])));
      if !IsMarker(lines[0]) && !(skip && LetterFree(lines[0])) {
        NotContainsStrip(lines[0], Contributors);
        NotContainsStrip(lines[0], Translations);
        var t := FilterFrom(lines[1..], false);
        assert FilterFrom(lines, skip) == [Strip(lines[0])] + t;
        assert forall i :: 1 <= i < |t| + 1 ==> ([Strip(lines[0])] + t)[i] == t[i - 1];
      }
    }
  }

  /**
   * `clean_genius_lyrics`: a falsy input gives `None`; otherwise the kept lines joined
   * by newlines, cut at "Translations" and stripped.  The result holds neither word, so
   * the final cut never fires.
   */
  function GeniusClean(raw: Option<string>, mode: SplitMode): (r: Option<string>)
    ensures r.None? <==> !Truthy(raw)
    ensures r.Some? ==> IsStripped(r.value)
    ensures r.Some? ==> !Contains(r.value, Contributors) && !Contains(r.value, Translations)
  {
    if !Truthy(raw) then None
    else
      var joined := Join(FilterFrom(SplitBy(raw.value, mode), false), '\n');
      FilterMarkerFree(SplitBy(raw.value, mode), false);
      JoinedKept(FilterFrom(SplitBy(raw.value, mode), false));
      NotContainsStrip(joined, Contributors);
      NotContainsStrip(joined, Translations);
      Some(Strip(Before(joined, Translations)))
  }

  /** Joining the kept lines creates neither marker word, so the cut at "Translations" is a no-op. */
  lemma JoinedKept(kept: seq<string>)
    requires MarkerFree(kept)
    ensures !Contains(Join(kept, '\n'), Contributors) && !Contains(Join(kept, '\n'), Translations)
    ensures Before(Join(kept, '\n'), Translations) == Join(kept, '\n')
  {
    MarkerWords();
    NotContainsJoin(kept, '\n', Contributors);
    NotContainsJoin(kept, '\n', Translations);
  }

  lemma MarkerWords()
    ensures |Contributors| > 0 && '\n' !in Contributors
    ensures |Translations| > 0 && '\n' !in Translations
    ensures forall j :: 0 <= j < |Translations| ==> Translations[j] != '\n' && Translations[j] != ' ' && Translations[j] != '\t'
  {
  }

  // A reference description of the filter, line by line.

  /**
   * Line `n` follows a marker line with only letter-free lines in between: the state in
   * which the filter is skipping.
   */
  predicate AfterMarker(lines: seq<string>, n: nat)
    requires n <= |lines|
  {
    exists m :: 0 <= m < n && IsMarker(lines[m]) && forall j :: m < j < n ==> LetterFree(lines[j])
  }

  /** Line `i` is dropped: it is a marker, or a letter-free line that follows one. */
  predicate Dropped(lines: seq<string>, i: nat)
    requires i < |lines|
  {
    IsMarker(lines[i]) || (AfterMarker(lines, i) && LetterFree(lines[i]))
  }

  /** The stripped lines among the first `n` that are not dropped, in order. */
  function KeptUpTo(lines: seq<string>, n: nat): seq<string>
    requires n <= |lines|
  {
    if n == 0 then []
    else KeptUpTo(lines, n - 1) + (if Dropped(lines, n - 1) then [] else [Strip(lines[n - 1])])
  }

  /** The `skip` flag of the loop after the first `n` lines. */
  function SkipAt(lines: seq<string>, n: nat): bool
    requires n <= |lines|
  {
    if n == 0 then false
    else IsMarker(lines[n - 1]) || (SkipAt(lines, n - 1) && LetterFree(lines[n - 1]))
  }

  /** The flag is set exactly after a marker line and letter-free lines. */
  lemma {:induction false} SkipAtMeans(lines: seq<string>, n: nat)
    requires n <= |lines|
    ensures SkipAt(lines, n) <==> AfterMarker(lines, n)
    decreases n
  {
    if n > 0 {
      SkipAtMeans(lines, n - 1);
      if IsMarker(lines[n - 1]) {
        assert AfterMarker(lines, n) by {
          assert IsMarker(lines[n - 1]);
        }
      } else if SkipAt(lines, n) {
        var m :| 0 <= m < n - 1 && IsMarker(lines[m]) && forall j :: m < j < n - 1 ==> LetterFree(lines[j]);
        assert forall j :: m < j < n ==> LetterFree(lines[j]);
      }
    }
  }

  /** Running the loop over the first `n` lines keeps `KeptUpTo(lines, n)`. */
  lemma {:induction false} FilterSplit(lines: seq<string>, n: nat)
    requires n <= |lines|
    ensures FilterFrom(lines, false) == KeptUpTo(lines, n) + FilterFrom(lines[n..], SkipAt(lines, n))
    decreases n
  {
    if n > 0 {
      FilterSplit(lines, n - 1);
      FilterStep(lines, n);
    } else {
      assert lines[0..] == lines;
    }
  }

  /** One more line moves from the loop's input to the kept lines. */
  lemma FilterStep(lines: seq<string>, n: nat)
    requires 0 < n <= |lines|
    ensures KeptUpTo(lines, n - 1) + FilterFrom(lines[n - 1..], SkipAt(lines, n - 1))
         == KeptUpTo(lines, n) + FilterFrom(lines[n..], SkipAt(lines, n))
  {
    var rest := lines[n - 1..];
    assert rest[0] == lines[n - 1] && rest[1..] == lines[n..];
    DroppedIsSkip(lines, n);
    FilterOne(rest, SkipAt(lines, n - 1));
    var x: seq<string> := if Dropped(lines, n - 1) then [] else [Strip(lines[n - 1])];
    AppendAssoc(KeptUpTo(lines, n - 1), x, FilterFrom(lines[n..], SkipAt(lines, n)));
  }

  /** A line is dropped exactly when the loop's flag is set after it. */
  lemma DroppedIsSkip(lines: seq<string>, n: nat)
    requires 0 < n <= |lines|
    ensures Dropped(lines, n - 1) == SkipAt(lines, n)
  {
    SkipAtMeans(lines, n - 1);
  }

  /** The loop on its first line. */
  lemma FilterOne(lines: seq<string>, skip: bool)
    requires |lines| > 0
    ensures var drop := IsMarker(lines[0]) || (skip && LetterFree(lines[0]));
            FilterFrom(lines, skip) == (if drop then [] else [Strip(lines[0])]) + FilterFrom(lines[1..], drop)
  {
  }


  /**
   * The filter keeps exactly the stripped lines that are not dropped, in their order:
   * markers go, letter-free lines go while they follow a marker, everything else stays.
   */
  lemma GeniusFilterKeeps(lines: seq<string>)
    ensures FilterFrom(lines, false) == KeptUpTo(lines, |lines|)
  {
    FilterSplit(lines, |lines|);
    assert lines[|lines|..] == [];
  }

  // The two copies of the filter.

  /**
   * On text whose only line breaks are newlines, splitting with `splitlines()` and with
   * `split("\n")` gives the same cleaned lyrics: the extra empty last piece of `split`
   * is either dropped by the filter or removed again by the final `strip()`.
   */
  lemma GeniusModesAgree(s: string)
    requires OnlyNewlineBreaks(s)
    ensures GeniusClean(Some(s), ByLineBoundaries) == GeniusClean(Some(s), ByNewline)
  {
    if |s| > 0 {
      var lines := SplitLines(s);
      SplitLinesVersusSplit(s);
      if s[|s| - 1] == '\n' {
        var k := FilterFrom(lines, false);
        var k' := FilterFrom(lines + [""], false);
        FilterAppendEmpty(lines, false);
        FilterMarkerFree(lines, false);
        FilterMarkerFree(lines + [""], false);
        JoinedKept(k);
        JoinedKept(k');
        JoinAppendEmpty(k);
        if k' != k && |k| > 0 {
          StripTrailingSpace(Join(k, '\n'), '\n');
        }
      } else {
        assert SplitOn(s, '\n') == lines;
      }
    }
  }

  /** An empty last line is either dropped or kept as "" at the end. */
  lemma {:induction false} FilterAppendEmpty(lines: seq<string>, skip: bool)
    ensures var k := FilterFrom(lines, skip);
            FilterFrom(lines + [""], skip) in {k, k + [""]}
    decreases |lines|
  {
    var more := lines + [""];
    if |lines| == 0 {
      assert more == [""];
      FilterEmptyLine(skip);
    } else {
      assert more[0] == lines[0] && more[1..] == lines[1..] + [""];
      var next := IsMarker(lines[0]) || (skip && LetterFree(lines[0]));
      FilterAppendEmpty(lines[1..], next);
      if !next {
        var x := Strip(lines[0]);
        var t := FilterFrom(lines[1..], false);
        AppendAssoc([x], t, [""]);
      }
    }
  }

  /** The empty line is no marker and is letter-free: it is kept only when not skipping. */
  lemma FilterEmptyLine(skip: bool)
    ensures FilterFrom([""], skip) == (if skip then [] else [""])
  {
    assert !IsMarker("") by {
      MarkerWords();
      assert !ContainsAt("", Contributors, 0) && !ContainsAt("", Translations, 0);
    }
    assert Strip("") == "";
    assert [""][1..] == [];
  }

  /** `"\n".join(lines + [""])` adds a newline, or nothing when there are no lines. */
  lemma {:induction false} JoinAppendEmpty(lines: seq<string>)
    ensures Join(lines + [""], '\n') == (if |lines| == 0 then "" else Join(lines, '\n') + "\n")
    decreases |lines|
  {
    var more := lines + [""];
    if |lines| == 1 {
      assert more[1..] == [""];
    } else if |lines| > 1 {
      assert more[1..] == lines[1..] + [""];
      JoinAppendEmpty(lines[1..]);
    }
  }
}

=== FILE: lines.dfy ===
/**
 * Splitting text into lines and joining it back: `str.split(sep)`, `str.splitlines()`
 * and `sep.join(lines)` for a one-character separator.
 */
module Lines {
  import opened Wrappers
  import opened Chars
  import opened Strings

  /** The first index of `c` in `s` at or after `i`. */
  function IndexOf(s: string, c: char, i: nat): (r: Option<nat>)
    requires i <= |s|
    ensures r.Some? ==> i <= r.value < |s| && s[r.value] == c
    ensures r.Some? ==> forall j :: i <= j < r.value ==> s[j] != c
    ensures r.None? ==> forall j :: i <= j < |s| ==> s[j] != c
    decreases |s| - i
  {
    if i == |s| then None
    else if s[i] == c then Some(i)
    else IndexOf(s, c, i + 1)
  }

  /** `sep.join(lines)`. */
  function Join(lines: seq<string>, sep: char): string
    decreases |lines|
  {
    if |lines| == 0 then ""
    else if |lines| == 1 then lines[0]
    else lines[0] + [sep] + Join(lines[1..], sep)
  }

  /** `s.split(sep)`: at least one piece, no piece holds `sep`, and joining the pieces gives `s` back. */
  function SplitOn(s: string, sep: char): (r: seq<string>)
    ensures |r| >= 1
    ensures forall i :: 0 <= i < |r| ==> sep !in r[i]
    ensures Join(r, sep) == s
    decreases |s|
  {
    match IndexOf(s, sep, 0)
    case None => [s]
    case Some(k) =>
      var rest := SplitOn(s[k + 1..], sep);
      assert ([s[..k]] + rest)[1..] == rest;
      assert s == s[..k] + [sep] + s[k + 1..];
      [s[..k]] + rest
  }

  /** The first line break of `s` at or after `i`. */
  function FirstBreak(s: string, i: nat): (r: Option<nat>)
    requires i <= |s|
    ensures r.Some? ==> i <= r.value < |s| && IsLineBreak(s[r.value])
    ensures r.Some? ==> forall j :: i <= j < r.value ==> !IsLineBreak(s[j])
    ensures r.None? ==> forall j :: i <= j < |s| ==> !IsLineBreak(s[j])
    decreases |s| - i
  {
    if i == |s| then None
    else if IsLineBreak(s[i]) then Some(i)
    else FirstBreak(s, i + 1)
  }

  /** Just past the line break at `k`; "\r\n" is a single break. */
  function BreakEnd(s: string, k: nat): (e: nat)
    requires k < |s|
    ensures k < e <= |s|
  {
    if s[k] == '\r' && k + 1 < |s| && s[k + 1] == '\n' then k + 2 else k + 1
  }

  /** A line that holds no line-break character. */
  predicate IsLine(l: string) {
    forall j :: 0 <= j < |l| ==> !IsLineBreak(l[j])
  }

  /**
   * `s.splitlines()`: splits at every `str.splitlines` boundary; unlike `split`, the
   * empty string has no lines and a trailing break does not start an empty last line.
   */
  function SplitLines(s: string): (r: seq<string>)
    ensures forall i :: 0 <= i < |r| ==> IsLine(r[i])
    ensures |s| == 0 <==> |r| == 0
    decreases |s|
  {
    if |s| == 0 then []
    else
      match FirstBreak(s, 0)
      case None => [s]
      case Some(k) => [s[..k]] + SplitLines(s[BreakEnd(s, k)..])
  }

  /** The break that ends each line of `SplitLines(s)`: "" after a last line with none. */
  function LineBreaks(s: string): seq<string>
    decreases |s|
  {
    if |s| == 0 then []
    else
      match FirstBreak(s, 0)
      case None => [""]
      case Some(k) => [s[k..BreakEnd(s, k)]] + LineBreaks(s[BreakEnd(s, k)..])
  }

  /** One `splitlines` boundary: "\r\n", or a single line-break character. */
  predicate IsBreak(b: string) {
    b == "\r\n" || (|b| == 1 && IsLineBreak(b[0]))
  }

  /** Each line followed by its break. */
  function Interleave(ls: seq<string>, bs: seq<string>): string
    requires |ls| == |bs|
    decreases |ls|
  {
    if |ls| == 0 then "" else ls[0] + bs[0] + Interleave(ls[1..], bs[1..])
  }

  /**
   * `splitlines()` loses nothing but the breaks: putting each line's break back after it
   * rebuilds the text.  Every line but the last ends in a real break ("\r\n" counting as
   * one), and the last one may have none.
   */
  lemma {:induction false} SplitLinesRebuild(s: string)
    ensures |LineBreaks(s)| == |SplitLines(s)|
    ensures Interleave(SplitLines(s), LineBreaks(s)) == s
    ensures BreaksOk(LineBreaks(s))
    decreases |s|
  {
    if |s| > 0 {
      match FirstBreak(s, 0)
      case None =>
        assert SplitLines(s) == [s] && LineBreaks(s) == [""];
        assert Interleave([s], [""]) == s + "" + Interleave([], []);
      case Some(k) =>
        var t := s[BreakEnd(s, k)..];
        SplitLinesRebuild(t);
        RebuildStep(s, k);
    }
  }

  /** Breaks well placed: all real ones, except perhaps an empty last one. */
  predicate BreaksOk(bs: seq<string>) {
    forall i :: 0 <= i < |bs| ==> IsBreak(bs[i]) || (i == |bs| - 1 && bs[i] == "")
  }

  /** The inductive step of `SplitLinesRebuild`: one more line and its break in front. */
  lemma RebuildStep(s: string, k: nat)
    requires FirstBreak(s, 0) == Some(k)
    requires var t := s[BreakEnd(s, k)..];
             && |LineBreaks(t)| == |SplitLines(t)|
             && Interleave(SplitLines(t), LineBreaks(t)) == t
             && BreaksOk(LineBreaks(t))
    ensures |LineBreaks(s)| == |SplitLines(s)|
    ensures Interleave(SplitLines(s), LineBreaks(s)) == s
    ensures BreaksOk(LineBreaks(s))
  {
    var e := BreakEnd(s, k);
    var t := s[e..];
    assert SplitLines(s) == [s[..k]] + SplitLines(t);
    assert LineBreaks(s) == [s[k..e]] + LineBreaks(t);
    InterleaveCons(s[..k], s[k..e], SplitLines(t), LineBreaks(t));
    assert s == s[..k] + s[k..e] + t;
    BreakAt(s, k);
    BreaksOkCons(s[k..e], LineBreaks(t));
  }

  lemma InterleaveCons(l: string, b: string, ls: seq<string>, bs: seq<string>)
    requires |ls| == |bs|
    ensures Interleave([l] + ls, [b] + bs) == l + b + Interleave(ls, bs)
  {
    assert ([l] + ls)[1..] == ls && ([b] + bs)[1..] == bs;
  }

  /** The text from a line break to its end is one `splitlines` boundary. */
  lemma BreakAt(s: string, k: nat)
    requires k < |s| && IsLineBreak(s[k])
    ensures IsBreak(s[k..BreakEnd(s, k)])
  {
    if BreakEnd(s, k) == k + 2 {
      assert s[k..k + 2] == [s[k], s[k + 1]];
    }
  }

  lemma BreaksOkCons(b: string, bs: seq<string>)
    requires IsBreak(b) && BreaksOk(bs)
    ensures BreaksOk([b] + bs)
  {
    forall i | 1 <= i < |[b] + bs| ensures IsBreak(([b] + bs)[i]) || (i == |[b] + bs| - 1 && ([b] + bs)[i] == "") {
      assert ([b] + bs)[i] == bs[i - 1];
    }
  }

  /** Text whose only line-break character is the newline. */
  predicate OnlyNewlineBreaks(s: string) {
    forall j :: 0 <= j < |s| ==> IsLineBreak(s[j]) ==> s[j] == '\n'
  }

  /** The empty last piece `split` adds for empty text or text ending in a newline. */
  function LastPiece(s: string): seq<string> {
    if |s| == 0 || s[|s| - 1] == '\n' then [""] else []
  }

  /**
   * On text whose only breaks are newlines, `split('\n')` is `splitlines()` plus one
   * empty last piece exactly when the text is empty or ends with a newline.
   */
  lemma {:induction false} SplitLinesVersusSplit(s: string)
    requires OnlyNewlineBreaks(s)
    ensures SplitOn(s, '\n') == SplitLines(s) + LastPiece(s)
    decreases |s|
  {
    if |s| > 0 {
      var b := FirstBreak(s, 0);
      if b.None? {
        assert IndexOf(s, '\n', 0).None?;
        assert !IsLineBreak(s[|s| - 1]);
      } else {
        var k := b.value;
        OnlyNewlineBreaksSuffix(s, k + 1);
        SplitLinesVersusSplit(s[k + 1..]);
        SplitStep(s, k);
      }
    }
  }

  /** One line more on both sides: the inductive step of `SplitLinesVersusSplit`. */
  lemma SplitStep(s: string, k: nat)
    requires OnlyNewlineBreaks(s) && FirstBreak(s, 0) == Some(k)
    requires SplitOn(s[k + 1..], '\n') == SplitLines(s[k + 1..]) + LastPiece(s[k + 1..])
    ensures SplitOn(s, '\n') == SplitLines(s) + LastPiece(s)
  {
    var t := s[k + 1..];
    SplitAtFirstNewline(s, k);
    LastPieceSuffix(s, k + 1);
    AppendAssoc([s[..k]], SplitLines(t), LastPiece(t));
  }

  /** A non-empty suffix of a text ends like the text. */
  lemma LastPieceSuffix(s: string, e: nat)
    requires e <= |s|
    ensures LastPiece(s[e..]) == LastPiece(s) || |s[e..]| == 0
  {
    if e < |s| {
      assert s[e..][|s| - e - 1] == s[|s| - 1];
    }
  }

  lemma SplitAtFirstNewline(s: string, k: nat)
    requires OnlyNewlineBreaks(s) && FirstBreak(s, 0) == Some(k)
    ensures SplitOn(s, '\n') == [s[..k]] + SplitOn(s[k + 1..], '\n')
    ensures SplitLines(s) == [s[..k]] + SplitLines(s[k + 1..])
  {
    assert s[k] == '\n';
    assert IndexOf(s, '\n', 0) == Some(k);
    assert BreakEnd(s, k) == k + 1;
  }

  lemma OnlyNewlineBreaksSuffix(s: string, e: nat)
    requires e <= |s| && OnlyNewlineBreaks(s)
    ensures OnlyNewlineBreaks(s[e..])
  {
    var t := s[e..];
    forall j | 0 <= j < |t| ensures IsLineBreak(t[j]) ==> t[j] == '\n' {
      assert t[j] == s[e + j];
    }
  }

  /** `a + sep + b` holds no `w` that neither half holds, when `w` has no `sep`. */
  lemma NotContainsSplice(a: string, sep: char, b: string, w: string)
    requires |w| > 0 && sep !in w
    requires !Contains(a, w) && !Contains(b, w)
    ensures !Contains(a + [sep] + b, w)
  {
    var x := a + [sep] + b;
    forall i: nat | i <= |x| ensures !ContainsAt(x, w, i) {
      if i + |w| <= |a| {
        assert x[i..i + |w|] == a[i..i + |w|];
        assert !ContainsAt(a, w, i);
      } else if i > |a| {
        var i' := i - |a| - 1;
        if i + |w| <= |x| {
          assert x[i..i + |w|] == b[i'..i' + |w|];
        }
        assert !ContainsAt(b, w, i');
      } else if i + |w| <= |x| {
        assert x[i..i + |w|][|a| - i] == sep;
      }
    }
  }

  /** Joining lines with a separator that `w` does not hold creates no occurrence of `w`. */
  lemma {:induction false} NotContainsJoin(lines: seq<string>, sep: char, w: string)
    requires |w| > 0 && sep !in w
    requires forall i :: 0 <= i < |lines| ==> !Contains(lines[i], w)
    ensures !Contains(Join(lines, sep), w)
    decreases |lines|
  {
    if |lines| == 0 {
      assert Join(lines, sep) == "";
      assert forall i: nat :: !ContainsAt("", w, i);
    } else if |lines| > 1 {
      NotContainsJoin(lines[1..], sep, w);
      NotContainsSplice(lines[0], sep, Join(lines[1..], sep), w);
    }
  }
}

=== FILE: quiz.dfy ===
/**
 * The quiz controller: the playlist id taken from a Spotify link (`crawl_playlist`),
 * the lookup of one song in a stored playlist (`_get_song_data_from_firestore`), and the
 * quiz built from a stored playlist with lazy lyric analysis (`get_quizdata`).
 *
 * Requests, the store and the lyric analysis are parameters: the request body, the
 * stored document (`None` when it does not exist), the service's answer, and the
 * analysis as a function of the lyrics and title (`None` when it raises).
 */
module Quiz {
  import opened Wrappers
  import opened Chars
  import opened Strings

  // ---------------------------------------------------------------------------
  // crawl_playlist: the playlist id of a link

  const PlaylistMarker := "playlist/"

  /** The run of `[a-zA-Z0-9]` characters that starts at `j`, as long as it goes. */
  function AlnumRun(s: string, j: nat): (r: string)
    requires j <= |s|
    ensures j + |r| <= |s| && r == s[j..j + |r|]
    ensures forall k :: 0 <= k < |r| ==> IsAsciiAlnum(r[k])
    ensures j + |r| == |s| || !IsAsciiAlnum(s[j + |r|])
    decreases |s| - j
  {
    if j < |s| && IsAsciiAlnum(s[j]) then [s[j]] + AlnumRun(s, j + 1) else []
  }

  /** `playlist/([a-zA-Z0-9]+)` matches at `i`: the marker, then at least one letter or digit. */
  predicate MatchesAt(s: string, i: nat) {
    ContainsAt(s, PlaylistMarker, i) && i + |PlaylistMarker| < |s| && IsAsciiAlnum(s[i + |PlaylistMarker|])
  }

  /** The leftmost position at or after `i` where the pattern matches. */
  function MatchFrom(s: string, i: nat): (r: Option<nat>)
    requires i <= |s|
    ensures r.Some? ==> i <= r.value < |s| && MatchesAt(s, r.value)
    ensures r.Some? ==> forall j :: i <= j < r.value ==> !MatchesAt(s, j)
    ensures r.None? ==> forall j :: i <= j ==> !MatchesAt(s, j)
    decreases |s| - i
  {
    if i == |s| then None
    else if MatchesAt(s, i) then Some(i)
    else MatchFrom(s, i + 1)
  }

  /**
   * `re.search(r"playlist/([a-zA-Z0-9]+)", url).group(1)`: at the leftmost match, the
   * whole run of letters and digits after the marker; `None` when nothing matches.
   */
  function PlaylistId(url: string): (r: Option<string>)
    ensures r.None? <==> forall j :: 0 <= j ==> !MatchesAt(url, j)
    ensures r.Some? ==> |r.value| > 0 && forall k :: 0 <= k < |r.value| ==> IsAsciiAlnum(r.value[k])
    ensures r.Some? ==> exists i: nat :: && MatchesAt(url, i)
                                    && (forall j :: 0 <= j < i ==> !MatchesAt(url, j))
                                    && r.value == AlnumRun(url, i + |PlaylistMarker|)
  {
    match MatchFrom(url, 0)
    case None => None
    case Some(i) => Some(AlnumRun(url, i + |PlaylistMarker|))
  }

  /**
   * The id of a link `prefix + "playlist/" + id + rest`: the prefix has no "l", so the
   * pattern cannot match inside it, and `rest` does not continue the id.
   */
  lemma PlaylistIdOfLink(prefix: string, id: string, rest: string)
    requires 'l' !in prefix
    requires |id| > 0 && forall k :: 0 <= k < |id| ==> IsAsciiAlnum(id[k])
    requires |rest| == 0 || !IsAsciiAlnum(rest[0])
    ensures PlaylistId(prefix + PlaylistMarker + id + rest) == Some(id)
  {
    var url := prefix + PlaylistMarker + id + rest;
    LinkShape(prefix, id, rest);
    NoMatchInPrefix(prefix, url);
    assert MatchesAt(url, |prefix|);
    RunIs(url, |prefix| + |PlaylistMarker|, id, rest);
  }

  /** A prefix without "l" holds no match, not even one overlapping its end. */
  lemma NoMatchInPrefix(prefix: string, url: string)
    requires 'l' !in prefix
    requires |prefix| < |url| && url[..|prefix|] == prefix && url[|prefix|] == PlaylistMarker[0]
    ensures forall j :: 0 <= j < |prefix| ==> !MatchesAt(url, j)
  {
    forall j | 0 <= j < |prefix|
      ensures !MatchesAt(url, j)
    {
      assert url[j + 1] != PlaylistMarker[1] by {
        if j + 1 < |prefix| {
          assert url[j + 1] == url[..|prefix|][j + 1] == prefix[j + 1];
        }
      }
      if j + |PlaylistMarker| <= |url| {
        assert url[j..j + |PlaylistMarker|][1] == url[j + 1];
      }
    }
  }

  lemma LinkShape(prefix: string, id: string, rest: string)
    requires |id| > 0
    ensures var url := prefix + PlaylistMarker + id + rest;
            && url[|prefix|..|prefix| + |PlaylistMarker|] == PlaylistMarker
            && url[|prefix| + |PlaylistMarker|..] == id + rest
            && url[..|prefix|] == prefix
            && url[|prefix|] == PlaylistMarker[0]
  {
  }

  /** The run after the marker is exactly the id. */
  lemma {:induction false} RunIs(s: string, j: nat, id: string, rest: string)
    requires j <= |s| && s[j..] == id + rest
    requires forall k :: 0 <= k < |id| ==> IsAsciiAlnum(id[k])
    requires |rest| == 0 || !IsAsciiAlnum(rest[0])
    ensures AlnumRun(s, j) == id
    decreases |id|
  {
    if |id| == 0 {
      if j < |s| {
        assert s[j] == s[j..][0] == rest[0];
      }
    } else {
      assert s[j] == s[j..][0] == id[0];
      assert s[j + 1..] == s[j..][1..] == id[1..] + rest;
      RunIs(s, j + 1, id[1..], rest);
      assert AlnumRun(s, j) == [id[0]] + id[1..];
    }
  }

  /** What `crawl_playlist` gets back from the service: a document id, or an exception. */
  datatype ServiceAnswer = Answer(id: Option<string>) | Raise(msg: string)

  /**
   * The reply of `crawl_playlist`: the status, the `doc_id` of a 200, and the playlist
   * and request ids handed to the service, if it was called.
   */
  datatype CrawlReply = CrawlReply(status: nat, docId: Option<string>, sent: Option<(string, string)>)

  /** A JSON body: `None` when absent, else its string-valued keys. */
  type Body = Option<map<string, string>>

  /** The link in the body, when the body and the link are truthy. */
  function LinkOf(body: Body): Option<string> {
    if body.None? || |body.value| == 0 then None
    else if "playlist_url" !in body.value || |body.value["playlist_url"]| == 0 then None
    else Some(body.value["playlist_url"])
  }

  /**
   * `crawl_playlist`: 400 for a missing or empty body, a missing or empty link, or a link
   * with no playlist id; otherwise the service is asked for `playlist_id` and
   * `playlist_id + "_" + postfix`, and its truthy answer is a 200, anything else a 500.
   */
  function Crawl(body: Body, postfix: string, answer: ServiceAnswer): (r: CrawlReply)
    ensures r.status == 400 <==> LinkOf(body).None? || PlaylistId(LinkOf(body).value).None?
    ensures r.sent.Some? <==> r.status != 400
    ensures r.sent.Some? ==> var id := PlaylistId(LinkOf(body).value).value;
              r.sent.value == (id, id + "_" + postfix)
    ensures r.status == 200 <==> r.sent.Some? && answer.Answer? && answer.id.Some? && |answer.id.value| > 0
    ensures r.status == 200 ==> r.docId == answer.id
    ensures r.status in {200, 400, 500}
  {
    match LinkOf(body)
    case None => CrawlReply(400, None, None)
    case Some(url) =>
      match PlaylistId(url)
      case None => CrawlReply(400, None, None)
      case Some(id) =>
        var sent := Some((id, id + "_" + postfix));
        match answer
        case Raise(_) => CrawlReply(500, None, sent)
        case Answer(result) =>
          if result.Some? && |result.value| > 0 then CrawlReply(200, result, sent)
          else CrawlReply(500, None, sent)
  }

  // ---------------------------------------------------------------------------
  // The stored playlist

  /** A stored song, each key of which may be missing or `None`. */
  datatype TrackDoc = TrackDoc(
    cleanTitle: Field<string>,
    originalTitle: Field<string>,
    artist: Field<string>,
    lyrics: Field<string>,
    summary: Field<string>,
    keywords: Field<seq<string>>)

  /** A stored playlist document and its "tracks" key. */
  datatype PlaylistDoc = PlaylistDoc(tracks: Field<seq<TrackDoc>>)

  /** `playlist_data.get("tracks", [])`; `None` when iterating it raises (a stored `None`). */
  function TracksOf(doc: PlaylistDoc): Option<seq<TrackDoc>> {
    match doc.tracks
    case Absent => Some([])
    case Null => None
    case Value(ts) => Some(ts)
  }

  /** The song answers to `title` by its clean or its original title. */
  predicate Answers(song: TrackDoc, title: string) {
    song.cleanTitle.Get() == Some(title) || song.originalTitle.Get() == Some(title)
  }

  /** The position of the first song that answers to `title`, from position `i` on. */
  function FirstAnswering(tracks: seq<TrackDoc>, title: string, i: nat): (r: Option<nat>)
    requires i <= |tracks|
    ensures r.Some? ==> i <= r.value < |tracks| && Answers(tracks[r.value], title)
    ensures r.Some? ==> forall j :: i <= j < r.value ==> !Answers(tracks[j], title)
    ensures r.None? ==> forall j :: i <= j < |tracks| ==> !Answers(tracks[j], title)
    decreases |tracks| - i
  {
    if i == |tracks| then None
    else if Answers(tracks[i], title) then Some(i)
    else FirstAnswering(tracks, title, i + 1)
  }

  /**
   * `_get_song_data_from_firestore`: the first song, in list order, whose clean or
   * original title is `title`; `None` for a missing document, unreadable tracks or no
   * such song.
   */
  function FindSong(doc: Option<PlaylistDoc>, title: string): (r: Option<TrackDoc>)
    ensures r.Some? ==> doc.Some? && TracksOf(doc.value).Some?
    ensures r.Some? ==> var ts := TracksOf(doc.value).value;
              exists i :: 0 <= i < |ts| && ts[i] == r.value && Answers(ts[i], title)
                          && forall j :: 0 <= j < i ==> !Answers(ts[j], title)
    ensures r.None? && doc.Some? && TracksOf(doc.value).Some? ==>
              var ts := TracksOf(doc.value).value;
              forall j :: 0 <= j < |ts| ==> !Answers(ts[j], title)
  {
    if doc.None? then None
    else match TracksOf(doc.value)
      case None => None
      case Some(ts) =>
        match FirstAnswering(ts, title, 0)
        case None => None
        case Some(i) => Some(ts[i])
  }

  // ---------------------------------------------------------------------------
  // get_quizdata

  /** What the lyric analysis returns: a summary and keywords, either possibly `None`. */
  datatype Analysis = Analysis(summary: Option<string>, keywords: Option<seq<string>>)

  /** The analysis, given lyrics and title; `None` when it raises. */
  type Analyzer = (string, Option<string>) -> Option<Analysis>

  /** One entry of the quiz. */
  datatype QuizEntry = QuizEntry(title: Option<string>, artist: Option<string>, summary: string, keywords: seq<string>, lyrics: string)

  predicate TruthyText(f: Field<string>) { f.Value? && |f.v| > 0 }

  predicate TruthyList(f: Field<seq<string>>) { f.Value? && |f.v| > 0 }

  /** `song.get("clean_title", song.get("original_title"))`: the clean title whenever the key is there. */
  function TitleOf(song: TrackDoc): Option<string> {
    if song.cleanTitle.Absent? then song.originalTitle.Get() else song.cleanTitle.Get()
  }

  /** `song.get("lyrics", "")`: a missing key reads as "", a stored `None` as `None`. */
  function LyricsOf(song: TrackDoc): Option<string> {
    match song.lyrics
    case Absent => Some("")
    case Null => None
    case Value(l) => Some(l)
  }

  /** Text made of whitespace only, so that `not text.strip()`. */
  predicate Blank(s: string) {
    forall i :: 0 <= i < |s| ==> IsSpace(s[i])
  }

  function FieldOf<T>(o: Option<T>): Field<T> {
    match o
    case None => Null
    case Some(x) => Value(x)
  }

  /**
   * What the loop body does to one song: it raises (`None` lyrics have no `strip`, or the
   * analysis raises; the bare `except` then fails on the unbound `e`), skips blank
   * lyrics, or visits the song, analysing it first when its summary is missing or falsy.
   */
  datatype Visit = Crashed | Skipped | Visited(song: TrackDoc, entry: Option<QuizEntry>, asked: bool)

  function VisitSong(song: TrackDoc, analyze: Analyzer): (r: Visit)
    ensures r.Crashed? <==>
              || LyricsOf(song).None?
              || (|Strip(LyricsOf(song).value)| > 0 && !TruthyText(song.summary)
                  && analyze(LyricsOf(song).value, TitleOf(song)).None?)
    ensures r.Skipped? <==> LyricsOf(song).Some? && |Strip(LyricsOf(song).value)| == 0
    ensures r.Visited? ==> LyricsOf(song).Some? && (r.asked <==> !TruthyText(song.summary))
    ensures r.Visited? && !r.asked ==> r.song == song
    ensures r.Visited? && r.asked ==>
              && analyze(LyricsOf(song).value, TitleOf(song)).Some?
              && var a := analyze(LyricsOf(song).value, TitleOf(song)).value;
                 r.song == song.(summary := FieldOf(a.summary), keywords := FieldOf(a.keywords))
    ensures r.Visited? ==> (r.entry.Some? <==> TruthyText(r.song.summary) && TruthyList(r.song.keywords))
    ensures r.Visited? && r.entry.Some? ==>
              var e := r.entry.value;
              && e.title == TitleOf(song) && e.artist == song.artist.Get()
              && e.lyrics == LyricsOf(song).value && e.summary == r.song.summary.v && e.keywords == r.song.keywords.v
  {
    match LyricsOf(song)
    case None => Crashed
    case Some(lyrics) =>
      if |Strip(lyrics)| == 0 then Skipped
      else
        var title := TitleOf(song);
        var analysed :=
          if TruthyText(song.summary) then Some((song, false))
          else match analyze(lyrics, title)
            case None => None
            case Some(a) => Some((song.(summary := FieldOf(a.summary), keywords := FieldOf(a.keywords)), true));
        match analysed
        case None => Crashed
        case Some(p) =>
          var s := p.0;
          var asked := p.1;
          var entry :=
            if TruthyText(s.summary) && TruthyList(s.keywords)
            then Some(QuizEntry(title, song.artist.Get(), s.summary.v, s.keywords.v, lyrics))
            else None;
          Visited(s, entry, asked)
  }

  /** Lyrics that `strip` to nothing are exactly the blank ones. */
  lemma StripEmptyIsBlank(s: string)
    ensures |Strip(s)| == 0 <==> Blank(s)
  {
    if |Strip(s)| > 0 {
      assert Strip(s)[0] == s[StripOffset(s)];
    }
  }

  /** An entry the quiz can use: a non-empty summary and at least one keyword. */
  predicate Quizzable(e: QuizEntry) {
    |e.summary| > 0 && |e.keywords| > 0
  }

  /** The songs after the loop, the quiz entries, and the lyrics sent to the analysis. */
  datatype Walk = Walk(tracks: seq<TrackDoc>, entries: seq<QuizEntry>, asked: seq<string>)

  /**
   * The loop of `get_quizdata` over the songs; `None` when some song raises, which
   * escapes to the handler around the whole request.
   */
  function WalkSongs(tracks: seq<TrackDoc>, analyze: Analyzer): (r: Option<Walk>)
    ensures r.None? <==> exists i :: 0 <= i < |tracks| && VisitSong(tracks[i], analyze).Crashed?
    ensures r.Some? ==> |r.value.tracks| == |tracks| && |r.value.entries| <= |tracks| && |r.value.asked| <= |tracks|
    ensures r.Some? ==> forall a :: a in r.value.asked ==> !Blank(a)
    ensures r.Some? ==> forall e :: e in r.value.entries ==> Quizzable(e)
    ensures r.Some? ==> forall i :: 0 <= i < |tracks| ==> r.value.tracks[i] == AfterVisit(tracks[i], analyze)
    decreases |tracks|
  {
    if |tracks| == 0 then Some(Walk([], [], []))
    else
      var v := VisitSong(tracks[0], analyze);
      var rest := WalkSongs(tracks[1..], analyze);
      assert forall i :: 1 <= i < |tracks| ==> tracks[i] == tracks[1..][i - 1];
      if v.Crashed? || rest.None? then None
      else
        var w := rest.value;
        assert forall i :: 1 <= i < |tracks| ==> w.tracks[i - 1] == AfterVisit(tracks[i], analyze);
        match v
        case Skipped =>
          assert AfterVisit(tracks[0], analyze) == tracks[0];
          Some(Walk([tracks[0]] + w.tracks, w.entries, w.asked))
        case Visited(s, entry, asked) =>
          assert AfterVisit(tracks[0], analyze) == s;
          var lyrics := LyricsOf(tracks[0]).value;
          StripEmptyIsBlank(lyrics);
          Some(Walk([s] + w.tracks,
                    (if entry.Some? then [entry.value] else []) + w.entries,
                    (if asked then [lyrics] else []) + w.asked))
  }

  /** The song as the loop leaves it in `tracks`: with its analysis when it was visited. */
  function AfterVisit(song: TrackDoc, analyze: Analyzer): TrackDoc {
    match VisitSong(song, analyze)
    case Visited(s, _, _) => s
    case _ => song
  }

  /** What one song adds to the walk: nothing when it raises, else its song, entry and lyrics sent. */
  function VisitWalk(song: TrackDoc, analyze: Analyzer): Option<Walk> {
    match VisitSong(song, analyze)
    case Crashed => None
    case Skipped => Some(Walk([song], [], []))
    case Visited(s, entry, asked) =>
      Some(Walk([s], if entry.Some? then [entry.value] else [], if asked then [LyricsOf(song).value] else []))
  }

  /** The walk of one part followed by the walk of the next; `None` when either raises. */
  function Then(x: Option<Walk>, y: Option<Walk>): Option<Walk> {
    if x.Some? && y.Some? then
      Some(Walk(x.value.tracks + y.value.tracks, x.value.entries + y.value.entries, x.value.asked + y.value.asked))
    else None
  }

  lemma ThenAssoc(x: Option<Walk>, y: Option<Walk>, z: Option<Walk>)
    ensures Then(x, Then(y, z)) == Then(Then(x, y), z)
  {
    if x.Some? && y.Some? && z.Some? {
      AppendAssoc(x.value.tracks, y.value.tracks, z.value.tracks);
      AppendAssoc(x.value.entries, y.value.entries, z.value.entries);
      AppendAssoc(x.value.asked, y.value.asked, z.value.asked);
    }
  }

  /** One loop iteration: the first song's visit, then the rest of the walk. */
  lemma WalkCons(tracks: seq<TrackDoc>, analyze: Analyzer)
    requires |tracks| > 0
    ensures WalkSongs(tracks, analyze) == Then(VisitWalk(tracks[0], analyze), WalkSongs(tracks[1..], analyze))
  {
    var rest := WalkSongs(tracks[1..], analyze);
    if rest.Some? && VisitSong(tracks[0], analyze).Skipped? {
      var w := rest.value;
      assert [] + w.entries == w.entries && [] + w.asked == w.asked;
    }
  }

  /** Walking one song is visiting it. */
  lemma WalkOne(song: TrackDoc, analyze: Analyzer)
    ensures WalkSongs([song], analyze) == VisitWalk(song, analyze)
  {
    WalkCons([song], analyze);
    assert [song][1..] == [];
    var v := VisitWalk(song, analyze);
    if v.Some? {
      var x := v.value;
      assert x.tracks + [] == x.tracks && x.entries + [] == x.entries && x.asked + [] == x.asked;
    }
  }

  /**
   * The walk is a loop in list order: walking a concatenation succeeds exactly when both
   * parts do, and then its songs, entries and analysed lyrics are those of the parts, in
   * order.  With `WalkOne` this says the i-th entry is that of the i-th song that yields one.
   */
  lemma {:induction false} WalkAppend(a: seq<TrackDoc>, b: seq<TrackDoc>, analyze: Analyzer)
    ensures WalkSongs(a + b, analyze) == Then(WalkSongs(a, analyze), WalkSongs(b, analyze))
    decreases |a|
  {
    if |a| == 0 {
      assert a + b == b;
      var w := WalkSongs(b, analyze);
      if w.Some? {
        assert [] + w.value.tracks == w.value.tracks;
        assert [] + w.value.entries == w.value.entries && [] + w.value.asked == w.value.asked;
      }
    } else {
      var ab := a + b;
      assert ab[0] == a[0];
      assert ab[1..] == a[1..] + b;
      WalkAppend(a[1..], b, analyze);
      WalkCons(ab, analyze);
      WalkCons(a, analyze);
      ThenAssoc(VisitWalk(a[0], analyze), WalkSongs(a[1..], analyze), WalkSongs(b, analyze));
    }
  }

  /** The reply of `get_quizdata`: the status, the entries of a 200 and the songs written back. */
  datatype QuizReply = QuizReply(status: nat, entries: seq<QuizEntry>, written: Option<seq<TrackDoc>>)

  /**
   * `get_quizdata`: 500 when reading the document raises (`readOk` is false); 404 for a
   * missing document; 500 when the songs cannot be read, a song raises, or writing back
   * fails; otherwise 200 with the entries, the songs written back exactly when some song
   * was analysed during this request.
   */
  function GetQuizData(readOk: bool, doc: Option<PlaylistDoc>, analyze: Analyzer, updateOk: bool): (r: QuizReply)
    ensures !readOk ==> r.status == 500 && r.written.None?
    ensures r.status == 404 <==> readOk && doc.None?
    ensures r.status == 200 ==> readOk && doc.Some? && TracksOf(doc.value).Some? && WalkSongs(TracksOf(doc.value).value, analyze).Some?
    ensures r.status == 200 ==>
              var w := WalkSongs(TracksOf(doc.value).value, analyze).value;
              r.entries == w.entries && (r.written.Some? <==> |w.asked| > 0)
    ensures r.written.Some? ==> r.status == 200
    ensures r.status == 200 <==>
              && readOk && doc.Some? && TracksOf(doc.value).Some?
              && var w := WalkSongs(TracksOf(doc.value).value, analyze);
                 w.Some? && (|w.value.asked| == 0 || updateOk)
    ensures r.written.Some? ==> r.written.value == WalkSongs(TracksOf(doc.value).value, analyze).value.tracks
    ensures r.status != 200 ==> r.entries == []
    ensures r.status in {200, 404, 500}
  {
    if !readOk then QuizReply(500, [], None)
    else if doc.None? then QuizReply(404, [], None)
    else match TracksOf(doc.value)
      case None => QuizReply(500, [], None)
      case Some(ts) =>
        match WalkSongs(ts, analyze)
        case None => QuizReply(500, [], None)
        case Some(w) =>
          if |w.asked| == 0 then QuizReply(200, w.entries, None)
          else if updateOk then QuizReply(200, w.entries, Some(w.tracks))
          else QuizReply(500, [], None)
  }

  /**
   * The bare `except` hazard: one song stored with `None` lyrics turns the whole request
   * into a 500, however good the other songs are.
   */
  lemma NoneLyricsFailRequest(doc: PlaylistDoc, analyze: Analyzer, updateOk: bool, i: nat)
    requires TracksOf(doc).Some? && i < |TracksOf(doc).value| && TracksOf(doc).value[i].lyrics.Null?
    ensures GetQuizData(true, Some(doc), analyze, updateOk).status == 500
  {
    assert VisitSong(TracksOf(doc).value[i], analyze).Crashed?;
  }

  /** A playlist analysed before is answered from the store: nothing is asked or written. */
  lemma AnalysedPlaylistNotRewritten(doc: PlaylistDoc, analyze: Analyzer, updateOk: bool)
    requires TracksOf(doc).Some?
    requires forall i :: 0 <= i < |TracksOf(doc).value| ==>
               TruthyText(TracksOf(doc).value[i].summary) && !TracksOf(doc).value[i].lyrics.Null?
    ensures GetQuizData(true, Some(doc), analyze, updateOk).status == 200
    ensures GetQuizData(true, Some(doc), analyze, updateOk).written.None?
  {
    AnalysedWalk(TracksOf(doc).value, analyze);
  }

  lemma {:induction false} AnalysedWalk(tracks: seq<TrackDoc>, analyze: Analyzer)
    requires forall i :: 0 <= i < |tracks| ==> TruthyText(tracks[i].summary) && !tracks[i].lyrics.Null?
    ensures WalkSongs(tracks, analyze).Some? && WalkSongs(tracks, analyze).value.asked == []
    decreases |tracks|
  {
    if |tracks| > 0 {
      AnalysedWalk(tracks[1..], analyze);
    }
  }
}

=== FILE: scanners.dfy ===
/**
 * The regular-expression passes of the lyric and title cleaners, each written out as the
 * scan Python's `re.sub` performs for that one pattern: leftmost match first, `.` never
 * crossing a newline unless DOTALL is given, `$` matching at the end or before a final
 * newline, and scanning resuming right after each match.
 */
module Scanners {
  import opened Wrappers
  import opened Chars
  import opened Strings
  import opened Lines

  // ---------------------------------------------------------------------------
  // Line structure

  /** The text of `t` up to its first newline holds no `c`. */
  predicate LineLacks(t: string, c: char)
    decreases |t|
  {
    |t| == 0 || t[0] == '\n' || (t[0] != c && LineLacks(t[1..], c))
  }

  /** No `a` in `s` is followed later on its own line by a `b`. */
  predicate NoPairOnLine(s: string, a: char, b: char)
    decreases |s|
  {
    |s| == 0 || ((s[0] == a ==> LineLacks(s[1..], b)) && NoPairOnLine(s[1..], a, b))
  }

  lemma {:induction false} LineLacksAbsent(t: string, c: char)
    requires c !in t
    ensures LineLacks(t, c)
    decreases |t|
  {
    if |t| > 0 {
      LineLacksAbsent(t[1..], c);
    }
  }

  /** Without newlines, "not on the first line" is "not at all". */
  lemma {:induction false} LineLacksWithoutNewline(t: string, c: char)
    requires '\n' !in t && LineLacks(t, c)
    ensures c !in t
    decreases |t|
  {
    if |t| > 0 {
      LineLacksWithoutNewline(t[1..], c);
      assert t == [t[0]] + t[1..];
    }
  }

  lemma {:induction false} LineLacksPrefix(t: string, j: nat, c: char)
    requires j <= |t| && LineLacks(t, c)
    ensures LineLacks(t[..j], c)
    decreases j
  {
    if j > 0 && t[0] != '\n' {
      LineLacksPrefix(t[1..], j - 1, c);
      assert t[..j][1..] == t[1..][..j - 1];
    }
  }

  /** Whatever follows a newline is on another line. */
  lemma {:induction false} LineLacksJoin(t: string, u: string, c: char)
    requires LineLacks(t, c)
    ensures LineLacks(t + "\n" + u, c)
    decreases |t|
  {
    if |t| > 0 && t[0] != '\n' {
      LineLacksJoin(t[1..], u, c);
      assert (t + "\n" + u)[1..] == t[1..] + "\n" + u;
    }
  }

  lemma {:induction false} NoPairSuffix(s: string, i: nat, a: char, b: char)
    requires i <= |s| && NoPairOnLine(s, a, b)
    ensures NoPairOnLine(s[i..], a, b)
    decreases i
  {
    if i > 0 {
      NoPairSuffix(s[1..], i - 1, a, b);
      assert s[1..][i - 1..] == s[i..];
    }
  }

  lemma {:induction false} NoPairPrefix(s: string, j: nat, a: char, b: char)
    requires j <= |s| && NoPairOnLine(s, a, b)
    ensures NoPairOnLine(s[..j], a, b)
    decreases j
  {
    if j > 0 {
      NoPairPrefix(s[1..], j - 1, a, b);
      assert s[..j][1..] == s[1..][..j - 1];
      if s[0] == a {
        LineLacksPrefix(s[1..], j - 1, b);
      }
    }
  }

  lemma NoPairSlice(s: string, i: nat, j: nat, a: char, b: char)
    requires i <= j <= |s| && NoPairOnLine(s, a, b)
    ensures NoPairOnLine(s[i..j], a, b)
  {
    NoPairPrefix(s, j, a, b);
    NoPairSuffix(s[..j], i, a, b);
    assert s[..j][i..] == s[i..j];
  }

  /** Joining two texts with a newline puts them on different lines. */
  lemma {:induction false} NoPairJoin(x: string, y: string, a: char, b: char)
    requires a != '\n' && NoPairOnLine(x, a, b) && NoPairOnLine(y, a, b)
    ensures NoPairOnLine(x + "\n" + y, a, b)
    decreases |x|
  {
    var s := x + "\n" + y;
    if |x| == 0 {
      assert s[1..] == y;
    } else {
      NoPairJoin(x[1..], y, a, b);
      assert s[1..] == x[1..] + "\n" + y;
      if x[0] == a {
        LineLacksJoin(x[1..], y, b);
      }
    }
  }

  lemma NoPairAppendNewline(x: string, a: char, b: char)
    requires a != '\n' && NoPairOnLine(x, a, b)
    ensures NoPairOnLine(x + "\n", a, b)
  {
    NoPairJoin(x, "", a, b);
    assert x + "\n" + "" == x + "\n";
  }

  /** Collapsing a run class that holds neither character keeps every line free of `c`. */
  lemma {:induction false} LineLacksCollapse(s: string, k: RunClass, c: char)
    requires !InRun(k, c) && LineLacks(s, c)
    ensures LineLacks(CollapseRuns(s, k), c)
    decreases |s|
  {
    var r := CollapseRuns(s, k);
    if |s| > 0 && s[0] != '\n' {
      if InRun(k, s[0]) {
        var e := RunEnd(s, 0, k);
        LineLacksSkip(s, e, c);
        LineLacksCollapse(s[e..], k, c);
        assert r[1..] == CollapseRuns(s[e..], k);
      } else {
        LineLacksCollapse(s[1..], k, c);
        assert r[1..] == CollapseRuns(s[1..], k);
      }
    }
  }

  /** Skipping characters that are not newlines stays on the first line. */
  lemma {:induction false} LineLacksSkip(t: string, e: nat, c: char)
    requires e <= |t| && LineLacks(t, c)
    requires forall j :: 0 <= j < e ==> t[j] != '\n'
    ensures LineLacks(t[e..], c)
    decreases e
  {
    if e > 0 {
      LineLacksSkip(t[1..], e - 1, c);
      assert t[1..][e - 1..] == t[e..];
    }
  }

  lemma {:induction false} NoPairCollapse(s: string, k: RunClass, a: char, b: char)
    requires !InRun(k, a) && !InRun(k, b) && NoPairOnLine(s, a, b)
    ensures NoPairOnLine(CollapseRuns(s, k), a, b)
    decreases |s|
  {
    var r := CollapseRuns(s, k);
    if |s| > 0 {
      if InRun(k, s[0]) {
        var e := RunEnd(s, 0, k);
        NoPairSuffix(s, e, a, b);
        NoPairCollapse(s[e..], k, a, b);
        assert r[1..] == CollapseRuns(s[e..], k);
      } else {
        NoPairCollapse(s[1..], k, a, b);
        assert r[1..] == CollapseRuns(s[1..], k);
        if s[0] == a {
          LineLacksCollapse(s[1..], k, b);
        }
      }
    }
  }

  /** The whitespace tail of the cleaners never puts a pair of non-blank characters on one line. */
  lemma NoPairSquash(s: string, a: char, b: char)
    requires a != '\n' && a != ' ' && a != '\t' && b != '\n' && b != ' ' && b != '\t'
    requires NoPairOnLine(s, a, b)
    ensures NoPairOnLine(SquashWhitespace(s), a, b)
  {
    var x := CollapseRuns(s, Newlines);
    NoPairCollapse(s, Newlines, a, b);
    var y := CollapseRuns(x, Blanks);
    NoPairCollapse(x, Blanks, a, b);
    var o := StripOffset(y);
    NoPairSlice(y, o, o + |Strip(y)|, a, b);
  }

  // ---------------------------------------------------------------------------
  // Cutting the tail of a text

  /** 1 when `s` ends with a newline, else 0. */
  function FinalNewline(s: string): nat {
    if |s| > 0 && s[|s| - 1] == '\n' then 1 else 0
  }

  /** `r` is a prefix of `s` followed by the final newline of `s`, if `s` has one. */
  predicate CutTail(s: string, r: string) {
    var n := FinalNewline(s);
    n <= |r| <= |s| && r[..|r| - n] == s[..|r| - n] && r[|r| - n..] == s[|s| - n..]
  }

  lemma NoPairCutTail(s: string, r: string, a: char, b: char)
    requires a != '\n' && CutTail(s, r) && NoPairOnLine(s, a, b)
    ensures NoPairOnLine(r, a, b)
  {
    var n := FinalNewline(s);
    NoPairPrefix(s, |r| - n, a, b);
    if n == 1 {
      NoPairAppendNewline(s[..|r| - 1], a, b);
      assert r == s[..|r| - 1] + "\n";
    } else {
      assert r == s[..|r|];
    }
  }

  lemma CutTailWithoutNewline(s: string, r: string)
    requires CutTail(s, r) && '\n' !in s
    ensures r == s[..|r|]
  {
    assert FinalNewline(s) == 0;
  }

  // ---------------------------------------------------------------------------
  // Deleting delimited groups: re.sub(pattern, "", s) for the tag, parenthesis,
  // "[From …]" and "… Read More" patterns.

  /**
   * A pattern that never matches the empty string.  `Delimited(ws, open, close)` is
   * `\s*` (when `ws`) + the literal `open` + `.*?` + `close`; `EllipsisReadMore` is
   * `…\s*Read More.*?(?:\n|$)` under DOTALL.
   */
  datatype Pattern =
    | Delimited(leadingSpace: bool, open: string, close: char)
    | EllipsisReadMore

  /** `r"\s*\(.*?\)"` */
  const Parens := Delimited(true, "(", ')')
  /** `r"\s*\[From .*?\]"` */
  const FromBracket := Delimited(true, "[From ", ']')
  /** `r"\[.*?\]"`: a section tag such as `[Verse 1]`. */
  const SectionTag := Delimited(false, "[", ']')

  const Ellipsis: char := '\U{2026}'
  const ReadMore := "Read More"

  /** The first `c` at or after `i` that comes before any newline: where `.*?c` stops. */
  function CloseOnLine(s: string, i: nat, c: char): (r: Option<nat>)
    requires i <= |s|
    ensures r.Some? ==> i <= r.value < |s| && s[r.value] == c
    ensures r.Some? ==> forall j :: i <= j < r.value ==> s[j] != '\n' && s[j] != c
    ensures r.None? <==> LineLacks(s[i..], c)
    decreases |s| - i
  {
    if i == |s| then None
    else if s[i] == '\n' then None
    else if s[i] == c then Some(i)
    else
      assert s[i..][1..] == s[i + 1..];
      CloseOnLine(s, i + 1, c)
  }

  /** Where a match of `p` that starts at the beginning of `s` ends, if there is one. */
  function MatchEnd(s: string, p: Pattern): (e: Option<nat>)
    ensures e.Some? ==> 0 < e.value <= |s|
  {
    match p
    case Delimited(ws, open, close) =>
      var q := if ws then SpaceRunEnd(s, 0) else 0;
      if ContainsAt(s, open, q) then
        match CloseOnLine(s, q + |open|, close)
        case Some(k) => Some(k + 1)
        case None => None
      else None
    case EllipsisReadMore =>
      if |s| > 0 && s[0] == Ellipsis then
        var q := SpaceRunEnd(s, 1);
        if ContainsAt(s, ReadMore, q) then
          match IndexOf(s, '\n', q + |ReadMore|)
          case Some(m) => Some(m + 1)
          case None => Some(|s|)
        else None
      else None
  }

  /** `re.sub(p, "", s)`: every match, scanning left to right, is deleted. */
  function Remove(s: string, p: Pattern): (r: string)
    ensures |r| <= |s|
    decreases |s|
  {
    if |s| == 0 then ""
    else match MatchEnd(s, p)
      case Some(e) => Remove(s[e..], p)
      case None => [s[0]] + Remove(s[1..], p)
  }

  lemma NotInSuffix(s: string, e: nat, c: char)
    requires e <= |s| && c !in s
    ensures c !in s[e..]
  {
    assert forall j :: 0 <= j < |s| - e ==> s[e..][j] == s[e + j];
  }

  /** Deleting matches only ever removes characters. */
  lemma {:induction false} RemoveSubMultiset(s: string, p: Pattern)
    ensures multiset(Remove(s, p)) <= multiset(s)
    decreases |s|
  {
    if |s| > 0 {
      match MatchEnd(s, p)
      case Some(e) =>
        RemoveSubMultiset(s[e..], p);
        assert Remove(s, p) == Remove(s[e..], p);
        SplitMultiset(s, e);
      case None =>
        RemoveSubMultiset(s[1..], p);
        var r := Remove(s[1..], p);
        assert Remove(s, p) == [s[0]] + r;
        assert multiset([s[0]] + r) == multiset{s[0]} + multiset(r);
        SplitMultiset(s, 1);
        assert s[..1] == [s[0]];
    }
  }

  lemma SplitMultiset(s: string, e: nat)
    requires e <= |s|
    ensures multiset(s) == multiset(s[..e]) + multiset(s[e..])
  {
    assert s == s[..e] + s[e..];
  }

  lemma RemoveAddsNothing(s: string, p: Pattern, c: char)
    requires c !in s
    ensures c !in Remove(s, p)
  {
    RemoveSubMultiset(s, p);
    assert multiset(s)[c] == 0;
  }

  /** A text without the pattern's opening literal is left alone. */
  lemma {:induction false} RemoveWithoutOpening(s: string, ws: bool, open: string, close: char)
    requires !Contains(s, open)
    ensures Remove(s, Delimited(ws, open, close)) == s
    decreases |s|
  {
    var p := Delimited(ws, open, close);
    if |s| > 0 {
      var q := if ws then SpaceRunEnd(s, 0) else 0;
      assert !ContainsAt(s, open, q);
      assert MatchEnd(s, p).None?;
      NotContainsSlice(s, 1, |s|, open);
      assert s[1..|s|] == s[1..];
      RemoveWithoutOpening(s[1..], ws, open, close);
      assert s == [s[0]] + s[1..];
    }
  }

  /** A text without an ellipsis is left alone by the read-more pattern. */
  lemma {:induction false} RemoveWithoutEllipsis(s: string)
    requires Ellipsis !in s
    ensures Remove(s, EllipsisReadMore) == s
    decreases |s|
  {
    if |s| > 0 {
      assert s[0] != Ellipsis;
      assert Ellipsis !in s[1..];
      RemoveWithoutEllipsis(s[1..]);
      assert s == [s[0]] + s[1..];
    }
  }

  /**
   * A lead-in without the opening character of an unanchored pattern passes through
   * untouched, and the scan carries on after it.
   */
  lemma {:induction false} RemoveSkips(x: string, y: string, p: Pattern)
    requires p == SectionTag || p == EllipsisReadMore
    requires (if p == SectionTag then '[' else Ellipsis) !in x
    ensures Remove(x + y, p) == x + Remove(y, p)
    decreases |x|
  {
    if |x| > 0 {
      var s := x + y;
      assert s[0] == x[0];
      assert MatchEnd(s, p).None?;
      assert s[1..] == x[1..] + y;
      assert Remove(s, p) == [s[0]] + Remove(s[1..], p);
      RemoveSkips(x[1..], y, p);
      assert x == [x[0]] + x[1..];
    } else {
      assert x + y == y;
    }
  }

  /** A read-more line introduced by an ellipsis disappears together with its newline. */
  lemma ReadMoreLineRemoved(blank: string, tail: string, y: string)
    requires forall j :: 0 <= j < |blank| ==> IsSpace(blank[j])
    requires '\n' !in tail
    ensures Remove([Ellipsis] + blank + ReadMore + tail + "\n" + y, EllipsisReadMore)
         == Remove(y, EllipsisReadMore)
  {
    var s := [Ellipsis] + blank + ReadMore + tail + "\n" + y;
    var q := 1 + |blank|;
    assert forall j :: 1 <= j < q ==> s[j] == blank[j - 1];
    assert s[q] == 'R';
    assert SpaceRunEnd(s, 1) == q by {
      SpaceRunFrom(s, 1, q);
    }
    assert s[q..q + |ReadMore|] == ReadMore;
    var m := q + |ReadMore| + |tail|;
    assert forall j :: q + |ReadMore| <= j < m ==> s[j] == tail[j - q - |ReadMore|];
    assert s[m] == '\n';
    assert MatchEnd(s, EllipsisReadMore) == Some(m + 1);
    assert s[m + 1..] == y;
  }

  lemma {:induction false} SpaceRunFrom(s: string, i: nat, q: nat)
    requires i <= q < |s| && !IsSpace(s[q])
    requires forall j :: i <= j < q ==> IsSpace(s[j])
    ensures SpaceRunEnd(s, i) == q
    decreases q - i
  {
    if i < q {
      SpaceRunFrom(s, i + 1, q);
    }
  }

  /**
   * After deleting every same-line group of a one-character opener, no opener is left with
   * a closer after it on its line.  For a pattern that may begin with whitespace this holds
   * only on newline-free text: `\s*` can swallow a newline and join two lines.
   */
  lemma {:induction false} RemoveLeavesNoPair(s: string, p: Pattern)
    requires p.Delimited? && |p.open| == 1 && p.open[0] != '\n' && !IsSpace(p.open[0])
    requires !p.leadingSpace || '\n' !in s
    ensures NoPairOnLine(Remove(s, p), p.open[0], p.close)
    decreases |s|
  {
    if |s| > 0 {
      match MatchEnd(s, p)
      case Some(e) =>
        if p.leadingSpace {
          NotInSuffix(s, e, '\n');
        }
        RemoveLeavesNoPair(s[e..], p);
      case None =>
        if p.leadingSpace {
          NotInSuffix(s, 1, '\n');
        }
        RemoveLeavesNoPair(s[1..], p);
        assert Remove(s, p)[1..] == Remove(s[1..], p);
        if s[0] == p.open[0] {
          UnmatchedOpener(s, p);
          RemoveKeepsLineLacks(s[1..], p);
        }
    }
  }

  /** An opener that starts no match has no closer after it on its line. */
  lemma UnmatchedOpener(s: string, p: Pattern)
    requires p.Delimited? && |p.open| == 1 && !IsSpace(p.open[0])
    requires |s| > 0 && s[0] == p.open[0] && MatchEnd(s, p).None?
    ensures LineLacks(s[1..], p.close)
  {
    assert SpaceRunEnd(s, 0) == 0;
    assert ContainsAt(s, p.open, 0);
  }

  /** Deleting groups never brings a closer onto a line that had none. */
  lemma {:induction false} RemoveKeepsLineLacks(t: string, p: Pattern)
    requires p.Delimited? && |p.open| == 1 && p.open[0] != '\n'
    requires !p.leadingSpace || '\n' !in t
    requires LineLacks(t, p.close)
    ensures LineLacks(Remove(t, p), p.close)
    decreases |t|
  {
    if p.leadingSpace {
      LineLacksWithoutNewline(t, p.close);
      RemoveAddsNothing(t, p, p.close);
      LineLacksAbsent(Remove(t, p), p.close);
    } else if |t| > 0 && t[0] != '\n' {
      assert t[1..] == t[1..];
      assert CloseOnLine(t, 1, p.close).None?;
      assert MatchEnd(t, p).None?;
      RemoveKeepsLineLacks(t[1..], p);
      assert Remove(t, p)[1..] == Remove(t[1..], p);
    }
  }

  /** On newline-free text, deleting groups keeps any "no pair" property. */
  lemma {:induction false} RemoveKeepsNoPair(s: string, p: Pattern, a: char, b: char)
    requires '\n' !in s && NoPairOnLine(s, a, b)
    ensures NoPairOnLine(Remove(s, p), a, b)
    decreases |s|
  {
    if |s| > 0 {
      var r := Remove(s, p);
      match MatchEnd(s, p)
      case Some(e) =>
        NotInSuffix(s, e, '\n');
        NoPairSuffix(s, e, a, b);
        RemoveKeepsNoPair(s[e..], p, a, b);
      case None =>
        NotInSuffix(s, 1, '\n');
        RemoveKeepsNoPair(s[1..], p, a, b);
        assert r[1..] == Remove(s[1..], p);
        if s[0] == a {
          LineLacksWithoutNewline(s[1..], b);
          RemoveAddsNothing(s[1..], p, b);
          LineLacksAbsent(Remove(s[1..], p), b);
        }
    }
  }

  // ---------------------------------------------------------------------------
  // re.sub(r"\s*- From .*?$", "", title)

  const FromDash := "- From "

  /** Where a match of `\s*- From .*?$` that starts at `p` ends, if there is one. */
  function FromMatchEnd(s: string, p: nat): (e: Option<nat>)
    requires p <= |s|
    ensures e.Some? ==> p < e.value <= |s| && |s| - e.value == FinalNewline(s)
  {
    var q := SpaceRunEnd(s, p);
    if ContainsAt(s, FromDash, q) then
      match IndexOf(s, '\n', q + |FromDash|)
      case None =>
        DashHasNoNewline(s, q);
        Some(|s|)
      case Some(m) => if m == |s| - 1 then Some(m) else None
    else None
  }

  lemma DashHasNoNewline(s: string, q: nat)
    requires ContainsAt(s, FromDash, q)
    ensures forall j :: q <= j < q + |FromDash| ==> s[j] != '\n'
  {
    forall j | q <= j < q + |FromDash| ensures s[j] != '\n' {
      assert s[j] == FromDash[j - q];
    }
  }

  /** The leftmost position at or after `p` where the pattern matches. */
  function FirstFromMatch(s: string, p: nat): (r: Option<nat>)
    requires p <= |s|
    ensures r.Some? ==> p <= r.value <= |s| && FromMatchEnd(s, r.value).Some?
    ensures r.Some? ==> forall j :: p <= j < r.value ==> FromMatchEnd(s, j).None?
    ensures r.None? ==> forall j :: p <= j <= |s| ==> FromMatchEnd(s, j).None?
    decreases |s| - p
  {
    if FromMatchEnd(s, p).Some? then Some(p)
    else if p == |s| then None
    else FirstFromMatch(s, p + 1)
  }

  /** The match can only happen once: it runs to the end, so at most one is deleted. */
  function FromCut(s: string): (r: string)
    ensures CutTail(s, r)
    ensures FirstFromMatch(s, 0).None? <==> r == s
  {
    match FirstFromMatch(s, 0)
    case None => s
    case Some(p) =>
      var e := FromMatchEnd(s, p).value;
      SpliceCutsTail(s, p, e);
      s[..p] + s[e..]
  }

  /** Deleting `s[p..e]`, where at most the final newline follows `e`, cuts the tail. */
  lemma SpliceCutsTail(s: string, p: nat, e: nat)
    requires p < e <= |s| && |s| - e == FinalNewline(s)
    ensures CutTail(s, s[..p] + s[e..]) && |s[..p] + s[e..]| < |s|
  {
  }

  lemma FromCutWithoutDash(s: string)
    requires !Contains(s, FromDash)
    ensures FromCut(s) == s
  {
    forall j | 0 <= j <= |s| ensures FromMatchEnd(s, j).None? {
      assert !ContainsAt(s, FromDash, SpaceRunEnd(s, j));
    }
  }

  // ---------------------------------------------------------------------------
  // re.sub(r"^.*?Lyrics", "", s, flags=re.DOTALL | re.IGNORECASE)

  const LyricsWord := "lyrics"

  /** Everything up to and including the first "lyrics", in any case, is cut off. */
  function DropHeader(s: string): (r: string)
    ensures !ContainsFolded(s, LyricsWord) ==> r == s
    ensures ContainsFolded(s, LyricsWord) ==>
      && |r| + |LyricsWord| <= |s| && r == s[|s| - |r|..]
      && FoldedAt(s, LyricsWord, |s| - |r| - |LyricsWord|)
      && !ContainsFolded(s[..|s| - |r| - 1], LyricsWord)
  {
    match FindFoldedFrom(s, LyricsWord, 0)
    case None => s
    case Some(k) =>
      NoFoldedBefore(s, LyricsWord, k);
      s[k + |LyricsWord|..]
  }

  /** The header cut ends after the first case-insensitive "lyrics". */
  lemma DropHeaderAt(s: string, p: nat)
    requires FoldedAt(s, LyricsWord, p)
    requires !ContainsFolded(s[..p + |LyricsWord| - 1], LyricsWord)
    ensures DropHeader(s) == s[p + |LyricsWord|..]
  {
    var w := LyricsWord;
    var r := DropHeader(s);
    var q := |s| - |r| - |w|;
    FoldedAtUnslice(s, 0, p + |w| - 1, w, q);
    FoldedAtUnslice(s, 0, q + |w| - 1, w, p);
  }

  lemma NoFoldedBefore(s: string, w: string, k: nat)
    requires |w| > 0 && k + |w| <= |s|
    requires forall j: nat :: j < k ==> !FoldedAt(s, w, j)
    ensures !ContainsFolded(s[..k + |w| - 1], w)
  {
    var t := s[..k + |w| - 1];
    forall j: nat | j <= |t| ensures !FoldedAt(t, w, j) {
      FoldedAtSlice(s, 0, k + |w| - 1, w, j);
    }
  }

  // ---------------------------------------------------------------------------
  // re.sub(r"\d*Embed$", "", s)

  const EmbedWord := "Embed"

  /** `s.endswith(w)`. */
  predicate EndsWith(s: string, w: string) {
    |w| <= |s| && s[|s| - |w|..] == w
  }

  /** The start of the run of decimal digits that ends at `e`. */
  function DigitRunStart(s: string, e: nat): (b: nat)
    requires e <= |s|
    ensures b <= e
    ensures forall k :: b <= k < e ==> IsDecimal(s[k])
    ensures b > 0 ==> !IsDecimal(s[b - 1])
    decreases e
  {
    if e > 0 && IsDecimal(s[e - 1]) then DigitRunStart(s, e - 1) else e
  }

  /** Deletes a trailing "<digits>Embed", which may stand before a final newline. */
  function DropEmbed(s: string): (r: string)
    ensures CutTail(s, r)
  {
    var n := FinalNewline(s);
    var t := s[..|s| - n];
    if EndsWith(t, EmbedWord) then CutAt(s, DigitRunStart(t, |t| - |EmbedWord|))
    else CutAt(s, |s| - n)
  }

  /** `s` cut at `b`, keeping its final newline. */
  function CutAt(s: string, b: nat): (r: string)
    requires b <= |s| - FinalNewline(s)
    ensures CutTail(s, r)
    ensures b == |s| - FinalNewline(s) ==> r == s
  {
    CutTailOf(s, b);
    s[..b] + s[|s| - FinalNewline(s)..]
  }

  lemma CutTailOf(s: string, b: nat)
    requires b <= |s| - FinalNewline(s)
    ensures CutTail(s, s[..b] + s[|s| - FinalNewline(s)..])
    ensures s[..|s| - FinalNewline(s)][..b] == s[..b]
    ensures b == |s| - FinalNewline(s) ==> s[..b] + s[|s| - FinalNewline(s)..] == s
  {
    var n := FinalNewline(s);
    var r := s[..b] + s[|s| - n..];
    assert r[..|r| - n] == s[..b];
  }

  /** A digit count and "Embed" after the last line are removed; the final newline stays. */
  lemma DropEmbedTrailer(x: string, digits: string, nl: string)
    requires |x| == 0 || !IsDecimal(x[|x| - 1])
    requires forall j :: 0 <= j < |digits| ==> IsDecimal(digits[j])
    requires nl == "" || nl == "\n"
    ensures DropEmbed(x + digits + EmbedWord + nl) == x + nl
  {
    var s := x + digits + EmbedWord + nl;
    TrailerShape(x, digits, nl);
    var t := s[..|s| - |nl|];
    DigitRunFrom(t, |x|, |x| + |digits|);
    assert DropEmbed(s) == CutAt(s, |x|);
  }

  lemma TrailerShape(x: string, digits: string, nl: string)
    requires |x| == 0 || !IsDecimal(x[|x| - 1])
    requires forall j :: 0 <= j < |digits| ==> IsDecimal(digits[j])
    requires nl == "" || nl == "\n"
    ensures var s := x + digits + EmbedWord + nl;
            var t := s[..|s| - |nl|];
            && FinalNewline(s) == |nl|
            && t == x + digits + EmbedWord
            && EndsWith(t, EmbedWord)
            && |t| - |EmbedWord| == |x| + |digits|
            && (forall j :: |x| <= j < |x| + |digits| ==> IsDecimal(t[j]))
            && (|x| == 0 || !IsDecimal(t[|x| - 1]))
            && s[..|x|] == x
            && s[|s| - |nl|..] == nl
  {
    var s := x + digits + EmbedWord + nl;
    var t := s[..|s| - |nl|];
    assert t == x + digits + EmbedWord;
    assert forall j :: |x| <= j < |x| + |digits| ==> t[j] == digits[j - |x|];
  }

  lemma {:induction false} DigitRunFrom(t: string, b: nat, e: nat)
    requires b <= e <= |t|
    requires forall j :: b <= j < e ==> IsDecimal(t[j])
    requires b == 0 || !IsDecimal(t[b - 1])
    ensures DigitRunStart(t, e) == b
    decreases e - b
  {
    if b < e {
      DigitRunFrom(t, b, e - 1);
    }
  }

  /** Text that does not end in "Embed" (before an optional final newline) is left alone. */
  lemma DropEmbedOtherwise(s: string)
    requires !EndsWith(s[..|s| - FinalNewline(s)], EmbedWord)
    ensures DropEmbed(s) == s
  {
  }

  // ---------------------------------------------------------------------------
  // Lines mentioning "read more"

  const ReadMoreWord := "read more"

  /** A line the `.*Read More.*` patterns match, ignoring case. */
  predicate MentionsReadMore(line: string) {
    ContainsFolded(line, ReadMoreWord)
  }

  /** `re.sub(r".*Read More.*", "", s, flags=re.IGNORECASE)`: such lines become empty. */
  function BlankReadMoreLines(s: string): (r: string)
    decreases |s|
  {
    match IndexOf(s, '\n', 0)
    case None => if MentionsReadMore(s) then "" else s
    case Some(k) =>
      (if MentionsReadMore(s[..k]) then "" else s[..k]) + "\n" + BlankReadMoreLines(s[k + 1..])
  }

  /** `re.sub(r".*Read More.*\n?", "", s, flags=re.IGNORECASE)`: such lines go, with their newline. */
  function DropReadMoreLines(s: string): (r: string)
    decreases |s|
  {
    match IndexOf(s, '\n', 0)
    case None => if MentionsReadMore(s) then "" else s
    case Some(k) =>
      (if MentionsReadMore(s[..k]) then "" else s[..k] + "\n") + DropReadMoreLines(s[k + 1..])
  }

  /** Each line is kept or, when it mentions "read more", emptied; the count is unchanged. */
  function BlankLines(lines: seq<string>): (r: seq<string>)
    ensures |r| == |lines|
    ensures forall i :: 0 <= i < |r| ==> !MentionsReadMore(r[i])
    ensures forall i :: 0 <= i < |r| ==> r[i] == lines[i] || (r[i] == "" && MentionsReadMore(lines[i]))
    decreases |lines|
  {
    if |lines| == 0 then []
    else
      var head := if MentionsReadMore(lines[0]) then "" else lines[0];
      assert !MentionsReadMore("") by {
        assert forall j: nat | j <= 0 :: !FoldedAt("", ReadMoreWord, j);
      }
      [head] + BlankLines(lines[1..])
  }

  /** The lines that do not mention "read more", in order. */
  function KeptLines(lines: seq<string>): (r: seq<string>)
    ensures |r| <= |lines|
    ensures forall i :: 0 <= i < |r| ==> !MentionsReadMore(r[i]) && r[i] in lines
    ensures forall i :: 0 <= i < |lines| && !MentionsReadMore(lines[i]) ==> lines[i] in r
    decreases |lines|
  {
    if |lines| == 0 then []
    else
      var rest := KeptLines(lines[1..]);
      assert forall i :: 1 <= i < |lines| ==> lines[i] == lines[1..][i - 1];
      if MentionsReadMore(lines[0]) then rest else [lines[0]] + rest
  }

  /** One line is kept exactly when it does not mention "read more". */
  lemma KeptLinesOne(line: string)
    ensures KeptLines([line]) == if MentionsReadMore(line) then [] else [line]
  {
    assert [line][1..] == [];
  }

  /**
   * Filtering is order-preserving: the kept lines of a concatenation are the kept lines
   * of each part, concatenated.  With `KeptLinesOne` this pins `KeptLines` down as the
   * filter of the lines, duplicates included.
   */
  lemma {:induction false} KeptLinesAppend(a: seq<string>, b: seq<string>)
    ensures KeptLines(a + b) == KeptLines(a) + KeptLines(b)
    decreases |a|
  {
    if |a| == 0 {
      assert a + b == b;
    } else {
      var ab := a + b;
      assert ab[0] == a[0];
      assert ab[1..] == a[1..] + b;
      KeptLinesAppend(a[1..], b);
      if !MentionsReadMore(a[0]) {
        AppendAssoc([a[0]], KeptLines(a[1..]), KeptLines(b));
      }
    }
  }

  /** Each line followed by its newline. */
  function Unlines(lines: seq<string>): string
    decreases |lines|
  {
    if |lines| == 0 then "" else lines[0] + "\n" + Unlines(lines[1..])
  }

  /** The blanking pass is a map over the lines of `s`. */
  lemma {:induction false} BlankReadMoreByLines(s: string)
    ensures BlankReadMoreLines(s) == Join(BlankLines(SplitOn(s, '\n')), '\n')
    decreases |s|
  {
    match IndexOf(s, '\n', 0)
    case None =>
    case Some(k) =>
      var rest := SplitOn(s[k + 1..], '\n');
      assert SplitOn(s, '\n') == [s[..k]] + rest;
      BlankReadMoreByLines(s[k + 1..]);
      var bl := BlankLines([s[..k]] + rest);
      assert bl[1..] == BlankLines(rest);
      assert |bl| >= 2;
  }

  /**
   * The dropping pass keeps exactly the lines that do not mention "read more": every
   * line that had a newline keeps it, and the last line has none.
   */
  lemma {:induction false} DropReadMoreByLines(s: string)
    ensures DropReadMoreLines(s) == DroppedByLines(SplitOn(s, '\n'))
    decreases |s|
  {
    match IndexOf(s, '\n', 0)
    case None =>
    case Some(k) =>
      var h := s[..k];
      var rest := SplitOn(s[k + 1..], '\n');
      SplitOnFirst(s, k);
      DropReadMoreByLines(s[k + 1..]);
      DroppedByLinesCons(h, rest);
  }

  /** The dropping pass described line by line. */
  function DroppedByLines(lines: seq<string>): string
    requires |lines| > 0
  {
    var last := lines[|lines| - 1];
    Unlines(KeptLines(lines[..|lines| - 1])) + (if MentionsReadMore(last) then "" else last)
  }

  lemma DroppedByLinesCons(h: string, rest: seq<string>)
    requires |rest| > 0
    ensures DroppedByLines([h] + rest)
         == (if MentionsReadMore(h) then "" else h + "\n") + DroppedByLines(rest)
  {
    var lines := [h] + rest;
    var init := rest[..|rest| - 1];
    var last := rest[|rest| - 1];
    assert lines[..|lines| - 1] == [h] + init;
    assert lines[|lines| - 1] == last;
    KeptLinesCons(h, init);
    var p := if MentionsReadMore(h) then "" else h + "\n";
    var u := Unlines(KeptLines(init));
    var l := if MentionsReadMore(last) then "" else last;
    assert DroppedByLines(lines) == (p + u) + l;
    assert DroppedByLines(rest) == u + l;
    AppendAssoc(p, u, l);
  }

  lemma SplitOnFirst(s: string, k: nat)
    requires IndexOf(s, '\n', 0) == Some(k)
    ensures SplitOn(s, '\n') == [s[..k]] + SplitOn(s[k + 1..], '\n')
  {
  }

  lemma KeptLinesCons(h: string, init: seq<string>)
    ensures Unlines(KeptLines([h] + init))
         == (if MentionsReadMore(h) then "" else h + "\n") + Unlines(KeptLines(init))
  {
    assert ([h] + init)[1..] == init;
    if !MentionsReadMore(h) {
      assert ([h] + KeptLines(init))[1..] == KeptLines(init);
    }
  }

  lemma {:induction false} BlankReadMoreKeepsNoPair(s: string, a: char, b: char)
    requires a != '\n' && NoPairOnLine(s, a, b)
    ensures NoPairOnLine(BlankReadMoreLines(s), a, b)
    decreases |s|
  {
    match IndexOf(s, '\n', 0)
    case None =>
    case Some(k) =>
      NoPairPrefix(s, k, a, b);
      NoPairSuffix(s, k + 1, a, b);
      BlankReadMoreKeepsNoPair(s[k + 1..], a, b);
      var head := if MentionsReadMore(s[..k]) then "" else s[..k];
      NoPairJoin(head, BlankReadMoreLines(s[k + 1..]), a, b);
  }
}

=== FILE: scripts.dfy ===
/**
 * The two batch scripts: `get_lyrics_save_firestore.py` and the older
 * `lyrixmatch_clean.py`.  Both read the playlist's tracks into rows, search the
 * provider for each row without retries, and clean what they find; the first also
 * post-processes every song and stores the result.
 *
 * The provider is one stream of outcomes for the whole run, since both scripts share
 * a single client across tracks: a track's calls start where the previous track's
 * calls ended.
 */
module Scripts {
  import opened Wrappers
  import opened Strings
  import opened Titles
  import opened Cleaners
  import opened Search
  import opened Catalog

  /** Which script: they differ in the title cleaner, the line split and exception handling. */
  datatype Script = FirestoreScript | LegacyScript

  /** A row of `get_playlist_tracks`. */
  datatype TrackRow = TrackRow(originalTitle: string, cleanTitle: string, artist: string)

  /** `clean_track_title` of each script. */
  function ScriptCleanTitle(script: Script, title: string): string {
    match script
    case FirestoreScript => CleanTitle(title)
    case LegacyScript => CleanTitleParensOnly(title)
  }

  /** The row of a track: its name, its cleaned name and its first artist. */
  function RowOf(script: Script, t: Track): TrackRow
    requires |t.artists| > 0
  {
    TrackRow(t.name, ScriptCleanTitle(script, t.name), t.artists[0])
  }

  /**
   * The list comprehension of `get_playlist_tracks` over the fetched items, `None` when
   * it raises: a track without artists raises in both scripts, and a missing "track"
   * key raises in the older script, which reads it with `item['track']`.  Items whose
   * track is `None` (or missing, in the Firestore script) are passed over.
   */
  function Rows(script: Script, items: seq<Item>): (r: Option<seq<TrackRow>>)
    ensures r.Some? ==> |r.value| <= |items|
    ensures r.Some? ==> forall i :: 0 <= i < |items| && items[i].track.Value? ==> |items[i].track.v.artists| > 0
    ensures script == LegacyScript && r.Some? ==> forall i :: 0 <= i < |items| ==> !items[i].track.Absent?
    decreases |items|
  {
    if |items| == 0 then Some([])
    else
      assert forall i :: 1 <= i < |items| ==> items[i] == items[1..][i - 1];
      Step(script, items[0], Rows(script, items[1..]))
  }

  /** One item in front of the rows of the items after it. */
  function Step(script: Script, item: Item, rest: Option<seq<TrackRow>>): (r: Option<seq<TrackRow>>)
    ensures r.Some? ==> rest.Some? && |r.value| <= |rest.value| + 1
    ensures r.Some? && item.track.Value? ==> |item.track.v.artists| > 0
    ensures script == LegacyScript && r.Some? ==> !item.track.Absent?
  {
    match item.track
    case Absent => if script == LegacyScript then None else rest
    case Null => rest
    case Value(t) =>
      if |t.artists| == 0 || rest.None? then None
      else Some([RowOf(script, t)] + rest.value)
  }

  /** Both runs' rows in order, or `None` when either raises. */
  function Combine(a: Option<seq<TrackRow>>, b: Option<seq<TrackRow>>): Option<seq<TrackRow>> {
    if a.Some? && b.Some? then Some(a.value + b.value) else None
  }

  lemma StepCombine(script: Script, item: Item, a: Option<seq<TrackRow>>, b: Option<seq<TrackRow>>)
    ensures Step(script, item, Combine(a, b)) == Combine(Step(script, item, a), b)
  {
    match item.track
    case Absent =>
    case Null =>
    case Value(t) =>
      if |t.artists| > 0 && a.Some? && b.Some? {
        AppendAssoc([RowOf(script, t)], a.value, b.value);
      }
  }


  /** One item alone: skipped, turned into its row, or raising. */
  lemma RowsOne(script: Script, item: Item)
    ensures Rows(script, [item]) ==
              match item.track
              case Absent => if script == LegacyScript then None else Some([])
              case Null => Some([])
              case Value(t) => if |t.artists| == 0 then None else Some([RowOf(script, t)])
  {
    assert [item][1..] == [];
    assert Rows(script, []) == Some([]);
    if item.track.Value? && |item.track.v.artists| > 0 {
      var row := RowOf(script, item.track.v);
      assert [row] + [] == [row];
    }
  }

  /** The rows of two runs of items are the rows of each, in order; either raising raises. */
  lemma {:induction false} RowsAppend(script: Script, a: seq<Item>, b: seq<Item>)
    ensures Rows(script, a + b) == Combine(Rows(script, a), Rows(script, b))
    decreases |a|
  {
    if |a| == 0 {
      assert a + b == b;
      assert Rows(script, a) == Some([]);
      if Rows(script, b).Some? {
        assert [] + Rows(script, b).value == Rows(script, b).value;
      }
    } else {
      assert (a + b)[0] == a[0] && (a + b)[1..] == a[1..] + b;
      RowsAppend(script, a[1..], b);
      StepCombine(script, a[0], Rows(script, a[1..]), Rows(script, b));
    }
  }

  /**
   * `get_playlist_tracks` of the Firestore script: the rows of all pages' items.  An
   * exception is not caught there, so `None` means the script stops with an error.
   */
  function FirestorePlaylistTracks(pages: Option<seq<seq<Item>>>): (r: Option<seq<TrackRow>>)
    ensures pages.None? ==> r.None?
    ensures pages.Some? ==> r == Rows(FirestoreScript, Concat(pages.value))
  {
    match pages
    case None => None
    case Some(ps) => Rows(FirestoreScript, Concat(ps))
  }

  /** `get_playlist_tracks` of the older script: any exception gives the empty list. */
  function LegacyPlaylistTracks(pages: Option<seq<seq<Item>>>): (r: seq<TrackRow>)
    ensures pages.None? ==> r == []
    ensures pages.Some? && Rows(LegacyScript, Concat(pages.value)).Some? ==> r == Rows(LegacyScript, Concat(pages.value)).value
    ensures pages.Some? && (exists i :: 0 <= i < |Concat(pages.value)| && Concat(pages.value)[i].track.Absent?) ==> r == []
  {
    match pages
    case None => []
    case Some(ps) =>
      match Rows(LegacyScript, Concat(ps))
      case None => []
      case Some(rows) => rows
  }

  // ---------------------------------------------------------------------------
  // get_lyrics

  /** One song of `get_lyrics`; `lyrics` is `None` when nothing was found. */
  datatype LyricsRow = LyricsRow(originalTitle: string, cleanTitle: string, artist: string, lyrics: Option<string>)

  /** A line of the failed-search log: the original artist and title (the time is not modelled). */
  datatype LogEntry = LogEntry(artist: string, title: string)

  /** What `get_lyrics` does for one track: its song, its log lines and its calls. */
  datatype TrackLyrics = TrackLyrics(row: LyricsRow, log: seq<LogEntry>, calls: nat)

  function SplitModeOf(script: Script): SplitMode {
    match script
    case FirestoreScript => ByLineBoundaries
    case LegacyScript => ByNewline
  }

  /** The four queries of a row, built from the row's own titles and its expanded artist. */
  function RowCandidates(t: TrackRow): seq<Query> {
    Pairs(t.cleanTitle, t.originalTitle, t.artist, ExpandArtists(t.artist, t.originalTitle))
  }

  /**
   * One iteration of `get_lyrics`: the queries are sent in order from call `start` on
   * until the first hit.  Neither empty fields nor errors stop the search.  On a hit the
   * lyrics are cleaned by `clean_genius_lyrics`; otherwise they are `None` and one log
   * line is written.  The row keeps the original, unexpanded artist.
   */
  function LyricsFor(script: Script, t: TrackRow, stream: seq<Outcome>, start: nat): (r: TrackLyrics)
    ensures r.row.originalTitle == t.originalTitle && r.row.cleanTitle == t.cleanTitle && r.row.artist == t.artist
    ensures 1 <= r.calls <= 4
    ensures r.log == [] || (r.log == [LogEntry(t.artist, t.originalTitle)] && r.row.lyrics.None?)
  {
    var found := ScriptSearch(RowCandidates(t), stream, start);
    match found.0
    case Some(l) =>
      TrackLyrics(LyricsRow(t.originalTitle, t.cleanTitle, t.artist, GeniusClean(Some(l), SplitModeOf(script))), [], found.1)
    case None =>
      TrackLyrics(LyricsRow(t.originalTitle, t.cleanTitle, t.artist, None), [LogEntry(t.artist, t.originalTitle)], found.1)
  }

  /**
   * The log line is written exactly when none of the calls hit, and then all four
   * queries were sent and there are no lyrics; otherwise the lyrics are those of the
   * last call, the first hit, cleaned.
   */
  lemma LyricsForMeans(script: Script, t: TrackRow, stream: seq<Outcome>, start: nat, r: TrackLyrics)
    requires r == LyricsFor(script, t, stream, start)
    ensures r.log == [] <==> exists k :: start <= k < start + r.calls && OutcomeAt(stream, k).Hit?
    ensures r.log != [] ==> r.row.lyrics.None? && r.calls == 4
    ensures r.log == [] ==>
              var hit := OutcomeAt(stream, start + r.calls - 1);
              hit.Hit? && r.row.lyrics == GeniusClean(Some(hit.lyrics), SplitModeOf(script))
  {
    var found := ScriptSearch(RowCandidates(t), stream, start);
    if found.0.Some? {
      var l := found.0.value;
      var hit := OutcomeAt(stream, start + r.calls - 1);
      assert r.calls == found.1;
      assert hit == Hit(l);
      assert hit.lyrics == l;
      assert r.row.lyrics == GeniusClean(Some(l), SplitModeOf(script));
    }
  }

  /** Unlike the service, the scripts query a candidate whose title is empty. */
  lemma EmptyTitleStillSent(script: Script, t: TrackRow, stream: seq<Outcome>, start: nat)
    requires t.cleanTitle == "" && OutcomeAt(stream, start).Hit?
    ensures LyricsFor(script, t, stream, start).calls == 1
    ensures LyricsFor(script, t, stream, start).log == []
    ensures Skipped(RowCandidates(t)[0])
  {
  }

  /** An error on every call: four calls, no lyrics, one log line. */
  lemma AllErrorsLogged(script: Script, t: TrackRow, stream: seq<Outcome>, start: nat)
    requires forall k :: start <= k < start + 4 ==> OutcomeAt(stream, k).Err?
    ensures var r := LyricsFor(script, t, stream, start);
            r.calls == 4 && r.row.lyrics.None? && r.log == [LogEntry(t.artist, t.originalTitle)]
  {
  }

  /** The songs, log lines and calls of a whole `get_lyrics` run. */
  datatype Harvest = Harvest(rows: seq<LyricsRow>, log: seq<LogEntry>, calls: nat)

  /**
   * `get_lyrics`: one row per track, in order, with the track's titles and original
   * artist; between one and four calls per track, each track's calls following the
   * previous track's; at most one log line per track, and only for a track left
   * without lyrics.
   */
  function GetLyrics(script: Script, tracks: seq<TrackRow>, stream: seq<Outcome>, start: nat): (r: Harvest)
    ensures RowsFollow(tracks, r.rows)
    ensures |tracks| <= r.calls <= 4 * |tracks|
    ensures |r.log| <= |tracks|
    ensures LogNamesLyricless(tracks, r.rows, r.log)
  {
    var step := ScriptStep(script, stream);
    ScriptStepOk(script, stream);
    HarvestedFacts(step, tracks, start);
    Harvested(step, tracks, start)
  }

  /** What one track may cost and yield: its own titles and artist, one to four calls, and a log line only without lyrics. */
  ghost predicate StepOk(step: TrackStep) {
    forall t: TrackRow, o: nat ::
      var x := step(t, o);
      && x.row.originalTitle == t.originalTitle && x.row.cleanTitle == t.cleanTitle && x.row.artist == t.artist
      && 1 <= x.calls <= 4
      && (x.log == [] || (x.log == [LogEntry(t.artist, t.originalTitle)] && x.row.lyrics.None?))
  }

  lemma ScriptStepOk(script: Script, stream: seq<Outcome>)
    ensures StepOk(ScriptStep(script, stream))
  {
    var step := ScriptStep(script, stream);
    forall t: TrackRow, o: nat ensures step(t, o) == LyricsFor(script, t, stream, o) {
    }
  }

  /** The harvest of a well-behaved step keeps the promises of `GetLyrics`. */
  lemma {:induction false} HarvestedFacts(step: TrackStep, tracks: seq<TrackRow>, start: nat)
    requires StepOk(step)
    ensures var r := Harvested(step, tracks, start);
            && RowsFollow(tracks, r.rows)
            && |tracks| <= r.calls <= 4 * |tracks|
            && |r.log| <= |tracks|
            && LogNamesLyricless(tracks, r.rows, r.log)
    decreases |tracks|
  {
    if |tracks| > 0 {
      var first := step(tracks[0], start);
      var rest := Harvested(step, tracks[1..], start + first.calls);
      HarvestedFacts(step, tracks[1..], start + first.calls);
      LogCons(tracks, first.row, first.log, rest.rows, rest.log);
      FollowCons(tracks, first.row, rest.rows);
    }
  }

  /** One song per track, in order, with the track's titles and artist. */
  predicate RowsFollow(tracks: seq<TrackRow>, rows: seq<LyricsRow>) {
    && |rows| == |tracks|
    && forall k :: 0 <= k < |tracks| ==>
         && rows[k].originalTitle == tracks[k].originalTitle
         && rows[k].cleanTitle == tracks[k].cleanTitle
         && rows[k].artist == tracks[k].artist
  }

  lemma FollowCons(tracks: seq<TrackRow>, row: LyricsRow, rows: seq<LyricsRow>)
    requires |tracks| > 0 && RowsFollow(tracks[1..], rows)
    requires row.originalTitle == tracks[0].originalTitle && row.cleanTitle == tracks[0].cleanTitle
    requires row.artist == tracks[0].artist
    ensures RowsFollow(tracks, [row] + rows)
  {
    var all := [row] + rows;
    forall k | 1 <= k < |tracks|
      ensures all[k] == rows[k - 1] && tracks[k] == tracks[1..][k - 1]
    {
    }
  }

  /** Every line of `log` names a track, by original artist and title, whose row has no lyrics. */
  predicate LogNamesLyricless(tracks: seq<TrackRow>, rows: seq<LyricsRow>, log: seq<LogEntry>)
    requires |rows| == |tracks|
  {
    forall e :: e in log ==>
      exists k :: 0 <= k < |tracks| && e == LogEntry(tracks[k].artist, tracks[k].originalTitle) && rows[k].lyrics.None?
  }

  lemma LogCons(tracks: seq<TrackRow>, row: LyricsRow, log: seq<LogEntry>, rows: seq<LyricsRow>, later: seq<LogEntry>)
    requires |tracks| > 0 && |rows| == |tracks| - 1
    requires log == [] || (log == [LogEntry(tracks[0].artist, tracks[0].originalTitle)] && row.lyrics.None?)
    requires LogNamesLyricless(tracks[1..], rows, later)
    ensures LogNamesLyricless(tracks, [row] + rows, log + later)
  {
    var all := [row] + rows;
    forall e | e in log + later
      ensures exists k :: 0 <= k < |tracks| && e == LogEntry(tracks[k].artist, tracks[k].originalTitle) && all[k].lyrics.None?
    {
      if e in log {
        assert all[0] == row;
      } else {
        var k :| 0 <= k < |tracks| - 1 && e == LogEntry(tracks[1..][k].artist, tracks[1..][k].originalTitle) && rows[k].lyrics.None?;
        assert all[k + 1] == rows[k];
      }
    }
  }

  /** What one track costs and yields, given where its calls start. */
  type TrackStep = (TrackRow, nat) -> TrackLyrics

  /** The step of `get_lyrics` for a script and a provider. */
  function ScriptStep(script: Script, stream: seq<Outcome>): TrackStep {
    (t: TrackRow, o: nat) => LyricsFor(script, t, stream, o)
  }

  /** The harvest loop over any step: each track from where the previous one's calls end. */
  function Harvested(step: TrackStep, tracks: seq<TrackRow>, start: nat): Harvest
    decreases |tracks|
  {
    if |tracks| == 0 then Harvest([], [], 0)
    else
      var first := step(tracks[0], start);
      var rest := Harvested(step, tracks[1..], start + first.calls);
      Harvest([first.row] + rest.rows, first.log + rest.log, first.calls + rest.calls)
  }

  /**
   * Where the calls for track `i` start: the first track's start at `start`, and each
   * track's calls follow the previous track's.
   */
  function CallsBefore(step: TrackStep, tracks: seq<TrackRow>, start: nat, i: nat): nat
    requires i <= |tracks|
    decreases i
  {
    if i == 0 then start
    else CallsBefore(step, tracks[1..], start + step(tracks[0], start).calls, i - 1)
  }

  /** Track by track: row `i` is the step's row for track `i` at its start. */
  lemma {:induction false} HarvestedRows(step: TrackStep, tracks: seq<TrackRow>, start: nat)
    ensures |Harvested(step, tracks, start).rows| == |tracks|
    ensures forall i :: 0 <= i < |tracks| ==>
              Harvested(step, tracks, start).rows[i] == step(tracks[i], CallsBefore(step, tracks, start, i)).row
    ensures start + Harvested(step, tracks, start).calls == CallsBefore(step, tracks, start, |tracks|)
    decreases |tracks|
  {
    if |tracks| > 0 {
      var first := step(tracks[0], start);
      var s1 := start + first.calls;
      HarvestedRows(step, tracks[1..], s1);
      var rows := Harvested(step, tracks, start).rows;
      var rest := Harvested(step, tracks[1..], s1).rows;
      assert rows == [first.row] + rest;
      forall i | 1 <= i < |tracks|
        ensures rows[i] == step(tracks[i], CallsBefore(step, tracks, start, i)).row
      {
        assert rows[i] == rest[i - 1] && tracks[1..][i - 1] == tracks[i];
        assert CallsBefore(step, tracks, start, i) == CallsBefore(step, tracks[1..], s1, i - 1);
      }
    }
  }

  /** The first iteration of the harvest loop. */
  lemma HarvestedCons(step: TrackStep, tracks: seq<TrackRow>, start: nat)
    requires |tracks| > 0
    ensures var first := step(tracks[0], start);
            Harvested(step, tracks, start)
            == Then(Harvest([first.row], first.log, first.calls), Harvested(step, tracks[1..], start + first.calls))
  {
  }

  /**
   * The harvest loop cut after `n` tracks: the rest is harvested from where the first
   * `n` tracks' calls end, and the songs, log lines and calls of the two parts are put
   * one after the other.
   */
  predicate SplitsAt(step: TrackStep, tracks: seq<TrackRow>, start: nat, n: nat)
    requires n <= |tracks|
  {
    var ra := Harvested(step, tracks[..n], start);
    Harvested(step, tracks, start) == Then(ra, Harvested(step, tracks[n..], start + ra.calls))
  }

  lemma {:induction false} HarvestedSplit(step: TrackStep, tracks: seq<TrackRow>, start: nat, n: nat)
    requires n <= |tracks|
    ensures SplitsAt(step, tracks, start, n)
    decreases n
  {
    if n == 0 {
      HarvestedSplitNil(step, tracks, start);
    } else {
      HarvestedSplit(step, tracks[1..], start + step(tracks[0], start).calls, n - 1);
      HarvestedSplitStep(step, tracks, start, n);
    }
  }

  lemma HarvestedSplitNil(step: TrackStep, tracks: seq<TrackRow>, start: nat)
    ensures SplitsAt(step, tracks, start, 0)
  {
    assert tracks[..0] == [] && tracks[0..] == tracks;
    var r := Harvested(step, tracks, start);
    assert [] + r.rows == r.rows && [] + r.log == r.log;
  }

  lemma HarvestedSplitStep(step: TrackStep, tracks: seq<TrackRow>, start: nat, n: nat)
    requires 0 < n <= |tracks|
    requires SplitsAt(step, tracks[1..], start + step(tracks[0], start).calls, n - 1)
    ensures SplitsAt(step, tracks, start, n)
  {
    var first := step(tracks[0], start);
    var h := Harvest([first.row], first.log, first.calls);
    var s1 := start + first.calls;
    SplitTail(tracks, n);
    var ra1 := Harvested(step, tracks[1..][..n - 1], s1);
    var rb := Harvested(step, tracks[n..], s1 + ra1.calls);
    HarvestedCons(step, tracks, start);
    HarvestedCons(step, tracks[..n], start);
    ThenShift(h, ra1, rb, Harvested(step, tracks, start), Harvested(step, tracks[..n], start));
  }

  lemma SplitTail<T>(s: seq<T>, n: nat)
    requires 0 < n <= |s|
    ensures s[..n][0] == s[0] && s[1..][..n - 1] == s[..n][1..] && s[1..][n - 1..] == s[n..]
  {
  }

  lemma ThenShift(h: Harvest, y: Harvest, z: Harvest, whole: Harvest, hy: Harvest)
    requires whole == Then(h, Then(y, z)) && hy == Then(h, y)
    ensures whole == Then(hy, z) && hy.calls == h.calls + y.calls
  {
    ThenAssoc(h, y, z);
  }

  /**
   * The harvest loop runs in list order: on a concatenation, the second part is
   * harvested from where the first part's calls end, and the songs, log lines and calls
   * of the two parts are put one after the other.  `GetLyrics` is this loop over
   * `ScriptStep`; with `GetLyricsOne` this says its log holds, in track order, the line
   * of each track whose search found nothing.
   */
  lemma HarvestedAppend(step: TrackStep, a: seq<TrackRow>, b: seq<TrackRow>, start: nat)
    ensures Harvested(step, a + b, start) == Then(Harvested(step, a, start), Harvested(step, b, start + Harvested(step, a, start).calls))
  {
    HarvestedSplit(step, a + b, start, |a|);
    assert (a + b)[..|a|] == a && (a + b)[|a|..] == b;
  }

  /** One harvest after another: songs, log lines and calls put one after the other. */
  function Then(x: Harvest, y: Harvest): Harvest {
    Harvest(x.rows + y.rows, x.log + y.log, x.calls + y.calls)
  }

  lemma ThenAssoc(x: Harvest, y: Harvest, z: Harvest)
    ensures Then(x, Then(y, z)) == Then(Then(x, y), z)
  {
    AppendAssoc(x.rows, y.rows, z.rows);
    AppendAssoc(x.log, y.log, z.log);
  }

  /**
   * Track by track: song `i` of `get_lyrics` is what the search and clean-up give track
   * `i` from where its calls start, right after the previous track's calls; the calls
   * of the whole run end where the last track's end.
   */
  lemma GetLyricsRows(script: Script, tracks: seq<TrackRow>, stream: seq<Outcome>, start: nat)
    ensures var r := GetLyrics(script, tracks, stream, start);
            var step := ScriptStep(script, stream);
            && (forall i :: 0 <= i < |tracks| ==>
                  r.rows[i] == LyricsFor(script, tracks[i], stream, CallsBefore(step, tracks, start, i)).row)
            && start + r.calls == CallsBefore(step, tracks, start, |tracks|)
  {
    HarvestedRows(ScriptStep(script, stream), tracks, start);
  }

  /** One track: its own song, log lines and calls. */
  lemma GetLyricsOne(script: Script, t: TrackRow, stream: seq<Outcome>, start: nat)
    ensures var one := LyricsFor(script, t, stream, start);
            GetLyrics(script, [t], stream, start) == Harvest([one.row], one.log, one.calls)
  {
    var one := LyricsFor(script, t, stream, start);
    var step := ScriptStep(script, stream);
    HarvestedCons(step, [t], start);
    assert [t][1..] == [];
    assert Harvested(step, [], start + one.calls) == Harvest([], [], 0);
    assert step(t, start) == one;
    assert [one.row] + [] == [one.row] && one.log + [] == one.log;
  }

  // ---------------------------------------------------------------------------
  // main of the Firestore script

  /** A stored song: the row of `get_lyrics` and its `lyrics_processed`. */
  datatype StoredSong = StoredSong(row: LyricsRow, lyricsProcessed: string)

  /** How `main` ends: with an uncaught exception, or returning a document id or `None`. */
  datatype MainResult = Raised | Returned(id: Option<string>)

  datatype FirestoreRun = FirestoreRun(result: MainResult, songs: seq<StoredSong>, log: seq<LogEntry>)

  /** The post-processing loop of `main`: `lyrics_processed = regex_clean_lyrics(lyrics)`. */
  function PostProcess(rows: seq<LyricsRow>): (r: seq<StoredSong>)
    ensures |r| == |rows|
    ensures forall k :: 0 <= k < |rows| ==> r[k].row == rows[k]
    ensures forall k :: 0 <= k < |rows| ==> rows[k].lyrics.None? ==> r[k].lyricsProcessed == ""
    ensures forall k :: 0 <= k < |rows| ==> Tidy(r[k].lyricsProcessed)
  {
    seq(|rows|, k requires 0 <= k < |rows| => StoredSong(rows[k], RegexCleanLyrics(rows[k].lyrics)))
  }

  /**
   * `main(playlist_id)` of the Firestore script: no tracks (or a fetch that yields
   * none) returns `None` before any search; otherwise every song is searched, cleaned
   * twice and stored, and the new id is returned when the write succeeds.
   */
  function FirestoreMain(pages: Option<seq<seq<Item>>>, stream: seq<Outcome>, saveOk: bool, requestId: string): (r: FirestoreRun)
    ensures r.result == Raised <==> FirestorePlaylistTracks(pages).None?
    ensures r.result == Returned(Some(requestId)) <==>
              FirestorePlaylistTracks(pages).Some? && |FirestorePlaylistTracks(pages).value| > 0 && saveOk
    ensures FirestorePlaylistTracks(pages) == Some([]) ==> r == FirestoreRun(Returned(None), [], [])
    ensures FirestorePlaylistTracks(pages).Some? ==> |r.songs| == |FirestorePlaylistTracks(pages).value|
    ensures FirestorePlaylistTracks(pages).Some? ==>
              var ts := FirestorePlaylistTracks(pages).value;
              forall k :: 0 <= k < |ts| ==>
                && r.songs[k].row
                   == LyricsFor(FirestoreScript, ts[k], stream, CallsBefore(ScriptStep(FirestoreScript, stream), ts, 0, k)).row
                && r.songs[k].lyricsProcessed == RegexCleanLyrics(r.songs[k].row.lyrics)
    ensures FirestorePlaylistTracks(pages).Some? ==>
              r.log == GetLyrics(FirestoreScript, FirestorePlaylistTracks(pages).value, stream, 0).log
  {
    match FirestorePlaylistTracks(pages)
    case None => FirestoreRun(Raised, [], [])
    case Some(tracks) =>
      if |tracks| == 0 then FirestoreRun(Returned(None), [], [])
      else
        var h := GetLyrics(FirestoreScript, tracks, stream, 0);
        GetLyricsRows(FirestoreScript, tracks, stream, 0);
        FirestoreRun(Returned(if saveOk then Some(requestId) else None), PostProcess(h.rows), h.log)
  }
}

=== FILE: search.dfy ===
/**
 * The lyric search: which (title, artist) pairs are sent to the lyrics provider, in what
 * order, how often, and which answer is kept.
 *
 * The provider is a stream of outcomes: the k-th call, counted from the start of one
 * search, gets the k-th outcome, and a call past the end of the stream finds nothing.
 * Sleeping is not performed: the service's search returns the seconds it would sleep.
 */
module Search {
  import opened Wrappers
  import opened Strings
  import opened Titles

  /** What one call of `search_song` does: return a song, return `None`, or raise. */
  datatype Outcome = Hit(lyrics: string) | Miss | Err(msg: string)

  /** The outcome of the k-th call. */
  function OutcomeAt(stream: seq<Outcome>, k: nat): Outcome {
    if k < |stream| then stream[k] else Miss
  }

  /** A (title, artist) query. */
  datatype Query = Query(title: string, artist: string)

  /**
   * The four queries of every search, best first: clean title with the original artist,
   * clean title with the expanded artist, then the original title with each artist.
   */
  function Candidates(title: string, artist: string): (r: seq<Query>)
    ensures |r| == 4
    ensures r[0].title == r[1].title == CleanTitle(title) && r[2].title == r[3].title == title
    ensures r[0].artist == r[2].artist == artist
    ensures r[1].artist == r[3].artist == ExpandArtists(artist, title)
  {
    Pairs(CleanTitle(title), title, artist, ExpandArtists(artist, title))
  }

  /** The four pairings of two titles with two artists. */
  function Pairs(clean: string, title: string, artist: string, expanded: string): (r: seq<Query>)
    ensures |r| == 4
    ensures r[0].title == r[1].title == clean && r[2].title == r[3].title == title
    ensures r[0].artist == r[2].artist == artist && r[1].artist == r[3].artist == expanded
  {
    [Query(clean, artist), Query(clean, expanded), Query(title, artist), Query(title, expanded)]
  }

  // ---------------------------------------------------------------------------
  // The service search with retries (MusicDataService._process_single_track)

  const MaxRetries: nat := 3
  const BaseBackoff: nat := 5

  function Pow2(n: nat): (r: nat)
    ensures r >= 1
  {
    if n == 0 then 1 else 2 * Pow2(n - 1)
  }

  /** The sleep before retry number `attempt + 1`: 5, 10 and 20 seconds. */
  function Backoff(attempt: nat): nat {
    BaseBackoff * Pow2(attempt)
  }

  /** An error the service waits out: its message mentions status 429 or 403. */
  predicate Retryable(msg: string) {
    Contains(msg, "429") || Contains(msg, "403")
  }

  /** An outcome after which the service stops retrying the current query. */
  predicate Stops(o: Outcome) {
    o.Hit? || (o.Err? && !Retryable(o.msg))
  }

  /** A query the service never sends: an empty title or an empty artist. */
  predicate Skipped(q: Query) {
    |q.title| == 0 || |q.artist| == 0
  }

  /** One call: the query, which attempt at it this was (from 0), and what came back. */
  datatype Call = Call(query: Query, attempt: nat, outcome: Outcome)

  /**
   * The calls made for query `q` from attempt `i` on, the first of them being call
   * number `start`: a call is made for each attempt up to the third, and the first
   * hit or non-retryable error ends the run.
   */
  function Attempts(q: Query, stream: seq<Outcome>, start: nat, i: nat): (r: seq<Call>)
    requires i <= MaxRetries
    ensures |r| <= MaxRetries - i
    ensures i < MaxRetries ==> |r| >= 1
    ensures forall k :: 0 <= k < |r| ==> r[k] == Call(q, i + k, OutcomeAt(stream, start + k))
    ensures forall k :: 0 <= k < |r| - 1 ==> !Stops(r[k].outcome)
    ensures 0 < |r| < MaxRetries - i ==> Stops(r[|r| - 1].outcome)
    decreases MaxRetries - i
  {
    if i == MaxRetries then []
    else
      var call := Call(q, i, OutcomeAt(stream, start));
      if Stops(call.outcome) then [call]
      else [call] + Attempts(q, stream, start + 1, i + 1)
  }

  /** The calls for one query of the outer loop, which may skip it. */
  function QueryCalls(q: Query, stream: seq<Outcome>, start: nat): (r: seq<Call>)
    ensures Skipped(q) <==> |r| == 0
    ensures |r| <= MaxRetries
    ensures forall k :: 0 <= k < |r| ==> r[k].query == q && r[k].attempt < MaxRetries
    ensures forall k :: 0 <= k < |r| ==> r[k].outcome == OutcomeAt(stream, start + k)
  {
    if Skipped(q) then [] else Attempts(q, stream, start, 0)
  }

  /**
   * All the calls of a search, query after query; the outer loop has no `break`, so
   * every query that is not skipped is sent, whatever the earlier ones returned.
   */
  function Trace(queries: seq<Query>, stream: seq<Outcome>): (r: seq<Call>)
    ensures |r| <= 3 * |queries|
    ensures forall k :: 0 <= k < |r| ==> r[k].outcome == OutcomeAt(stream, k)
    ensures forall k :: 0 <= k < |r| ==> !Skipped(r[k].query) && r[k].attempt < MaxRetries
    decreases |queries|
  {
    if |queries| == 0 then []
    else
      var prev := Trace(queries[..|queries| - 1], stream);
      var last := QueryCalls(queries[|queries| - 1], stream, |prev|);
      AppendCalls(prev, last, stream);
      prev + last
  }

  lemma AppendCalls(prev: seq<Call>, last: seq<Call>, stream: seq<Outcome>)
    requires forall k :: 0 <= k < |prev| ==> prev[k].outcome == OutcomeAt(stream, k)
    requires forall k :: 0 <= k < |last| ==> last[k].outcome == OutcomeAt(stream, |prev| + k)
    requires forall k :: 0 <= k < |prev| ==> !Skipped(prev[k].query) && prev[k].attempt < MaxRetries
    requires forall k :: 0 <= k < |last| ==> !Skipped(last[k].query) && last[k].attempt < MaxRetries
    ensures forall k :: 0 <= k < |prev| + |last| ==> (prev + last)[k].outcome == OutcomeAt(stream, k)
    ensures forall k :: 0 <= k < |prev| + |last| ==>
              !Skipped((prev + last)[k].query) && (prev + last)[k].attempt < MaxRetries
  {
    forall k | 0 <= k < |prev| + |last|
      ensures (prev + last)[k].outcome == OutcomeAt(stream, k)
      ensures !Skipped((prev + last)[k].query) && (prev + last)[k].attempt < MaxRetries
    {
      if k >= |prev| {
        assert (prev + last)[k] == last[k - |prev|];
      }
    }
  }

  /**
   * The song the service ends up with: the value of the last call that returned
   * normally.  A later empty answer erases an earlier hit; an error changes nothing.
   */
  function LastReturned(calls: seq<Call>): (r: Option<string>)
    ensures r.Some? ==> exists k :: 0 <= k < |calls| && calls[k].outcome == Hit(r.value)
    decreases |calls|
  {
    if |calls| == 0 then None
    else match calls[|calls| - 1].outcome
      case Hit(l) => Some(l)
      case Miss => None
      case Err(_) => LastReturned(calls[..|calls| - 1])
  }

  /** Call `k` returned normally (a hit or an empty answer), and every later call raised. */
  predicate LastNormal(calls: seq<Call>, k: int) {
    && 0 <= k < |calls|
    && !calls[k].outcome.Err?
    && forall j :: k < j < |calls| ==> calls[j].outcome.Err?
  }

  /**
   * The reference reading of `LastReturned`: the song is the lyrics of the last call that
   * returned normally, `None` when that call found nothing, and `None` when every call raised.
   */
  lemma {:induction false} LastReturnedMeans(calls: seq<Call>)
    ensures LastReturned(calls).Some? ==>
              exists k :: LastNormal(calls, k) && calls[k].outcome == Hit(LastReturned(calls).value)
    ensures LastReturned(calls).None? ==> forall k :: LastNormal(calls, k) ==> calls[k].outcome == Miss
    decreases |calls|
  {
    if |calls| > 0 {
      var n := |calls| - 1;
      var prev := calls[..n];
      match calls[n].outcome
      case Hit(l) =>
        assert LastNormal(calls, n);
      case Miss =>
        forall k | LastNormal(calls, k) ensures calls[k].outcome == Miss {
          assert k == n;
        }
      case Err(_) =>
        LastReturnedMeans(prev);
        LastNormalPrefix(calls);
    }
  }

  /** When the last call raised, the last normal return is the same with or without it. */
  lemma LastNormalPrefix(calls: seq<Call>)
    requires |calls| > 0 && calls[|calls| - 1].outcome.Err?
    ensures forall k :: LastNormal(calls, k) <==> LastNormal(calls[..|calls| - 1], k)
  {
  }

  /** Against a provider with nothing at all, the search ends without a song. */
  lemma EmptyStreamNoSong(queries: seq<Query>)
    ensures LastReturned(Trace(queries, [])).None?
  {
    var calls := Trace(queries, []);
    if |calls| > 0 {
      assert calls[|calls| - 1].outcome == Miss;
    }
  }

  /** The seconds slept: the backoff of each retryable error's attempt, added up. */
  function TotalBackoff(calls: seq<Call>): nat
    decreases |calls|
  {
    if |calls| == 0 then 0
    else
      var c := calls[|calls| - 1];
      TotalBackoff(calls[..|calls| - 1]) + (if c.outcome.Err? && Retryable(c.outcome.msg) then Backoff(c.attempt) else 0)
  }

  /**
   * The candidate loop of `_process_single_track`.  Returns the song's lyrics (if the
   * final `song` is a hit), every call made, and the seconds slept.
   */
  method ServiceSearch(queries: seq<Query>, stream: seq<Outcome>)
    returns (song: Option<string>, calls: seq<Call>, slept: nat)
    ensures calls == Trace(queries, stream)
    ensures song == LastReturned(calls)
    ensures slept == TotalBackoff(calls)
  {
    song, calls, slept := None, [], 0;
    var n := 0;
    while n < |queries|
      invariant n <= |queries|
      invariant calls == Trace(queries[..n], stream)
      invariant song == LastReturned(calls)
      invariant slept == TotalBackoff(calls)
    {
      var q := queries[n];
      assert queries[..n + 1][..n] == queries[..n];
      if Skipped(q) {
        assert calls + QueryCalls(q, stream, |calls|) == calls;
      } else {
        song, calls, slept := Retry(q, stream, song, calls, slept);
      }
      n := n + 1;
    }
    assert queries[..n] == queries;
  }

  /**
   * The retry loop for one query: up to three calls; a hit or an error other than 429
   * or 403 ends it, an empty answer is retried, and a 429 or 403 is slept off first.
   */
  method Retry(q: Query, stream: seq<Outcome>, song0: Option<string>, calls0: seq<Call>, slept0: nat)
    returns (song: Option<string>, calls: seq<Call>, slept: nat)
    requires !Skipped(q)
    requires song0 == LastReturned(calls0) && slept0 == TotalBackoff(calls0)
    ensures calls == calls0 + Attempts(q, stream, |calls0|, 0)
    ensures song == LastReturned(calls)
    ensures slept == TotalBackoff(calls)
  {
    song, calls, slept := song0, calls0, slept0;
    ghost var full := Attempts(q, stream, |calls0|, 0);
    var i := 0;
    var done := false;
    while i < MaxRetries && !done
      invariant i <= |full|
      invariant calls == calls0 + full[..i]
      invariant done ==> i == |full|
      invariant !done && i > 0 ==> !Stops(full[i - 1].outcome)
      invariant song == LastReturned(calls)
      invariant slept == TotalBackoff(calls)
    {
      song, calls, slept, done := Attempt(q, stream, calls0, full, i, song, calls, slept);
      i := i + 1;
    }
    assert full[..i] == full;
  }

  /**
   * Attempt number `i` of the retry loop: one call, whose outcome sets the song (a hit or
   * an empty answer) or adds the backoff (a 429 or 403); `done` says the loop ends.
   */
  method Attempt(q: Query, stream: seq<Outcome>, calls0: seq<Call>, ghost full: seq<Call>, i: nat,
                 song0: Option<string>, calls1: seq<Call>, slept0: nat)
    returns (song: Option<string>, calls: seq<Call>, slept: nat, done: bool)
    requires full == Attempts(q, stream, |calls0|, 0)
    requires i < MaxRetries && i <= |full| && (i > 0 ==> !Stops(full[i - 1].outcome))
    requires calls1 == calls0 + full[..i]
    requires song0 == LastReturned(calls1) && slept0 == TotalBackoff(calls1)
    ensures i < |full| && calls == calls0 + full[..i + 1]
    ensures done <==> Stops(full[i].outcome)
    ensures song == LastReturned(calls) && slept == TotalBackoff(calls)
  {
    var c := Call(q, i, OutcomeAt(stream, |calls1|));
    NextAttempt(q, stream, |calls0|, full, i);
    assert c == full[i];
    ExtendPrefix(calls0, full, i, calls1);
    song, slept := Record(calls1, c, song0, slept0);
    calls := calls1 + [c];
    done := Stops(c.outcome);
  }

  /** The song and the sleep after one more call. */
  method Record(calls: seq<Call>, c: Call, song0: Option<string>, slept0: nat)
    returns (song: Option<string>, slept: nat)
    requires song0 == LastReturned(calls) && slept0 == TotalBackoff(calls)
    ensures song == LastReturned(calls + [c]) && slept == TotalBackoff(calls + [c])
  {
    AddCall(calls, c);
    song, slept := song0, slept0;
    match c.outcome {
      case Hit(l) => song := Some(l);
      case Miss => song := None;
      case Err(msg) => if Retryable(msg) { slept := slept + Backoff(c.attempt); }
    }
  }

  /** While the run has not stopped, the next attempt belongs to it. */
  lemma NextAttempt(q: Query, stream: seq<Outcome>, start: nat, full: seq<Call>, i: nat)
    requires full == Attempts(q, stream, start, 0)
    requires i < MaxRetries && i <= |full| && (i > 0 ==> !Stops(full[i - 1].outcome))
    ensures i < |full| && full[i] == Call(q, i, OutcomeAt(stream, start + i))
  {
  }

  lemma ExtendPrefix(calls0: seq<Call>, full: seq<Call>, i: nat, calls: seq<Call>)
    requires i < |full| && calls == calls0 + full[..i]
    ensures calls + [full[i]] == calls0 + full[..i + 1]
  {
    assert full[..i + 1] == full[..i] + [full[i]];
  }

  /** What one more call does to the song and to the time slept. */
  lemma AddCall(calls: seq<Call>, c: Call)
    ensures LastReturned(calls + [c])
         == match c.outcome { case Hit(l) => Some(l) case Miss => None case Err(_) => LastReturned(calls) }
    ensures TotalBackoff(calls + [c])
         == TotalBackoff(calls) + (if c.outcome.Err? && Retryable(c.outcome.msg) then Backoff(c.attempt) else 0)
  {
    assert (calls + [c])[..|calls|] == calls;
  }

  /** Each query that is not skipped is sent, at least once, starting with attempt 0. */
  lemma {:induction false} EveryQuerySent(queries: seq<Query>, stream: seq<Outcome>, j: nat)
    requires j < |queries| && !Skipped(queries[j])
    ensures var p := |Trace(queries[..j], stream)|;
            p < |Trace(queries, stream)| && Trace(queries, stream)[p] == Call(queries[j], 0, OutcomeAt(stream, p))
    decreases |queries|
  {
    var init := queries[..|queries| - 1];
    if j == |queries| - 1 {
      assert queries[..j] == init;
    } else {
      assert init[..j] == queries[..j];
      EveryQuerySent(init, stream, j);
    }
  }

  /** At most three calls per query: twelve for the four candidates of a track. */
  lemma CallBound(title: string, artist: string, stream: seq<Outcome>)
    ensures |Trace(Candidates(title, artist), stream)| <= 12
  {
  }

  /** A search of two queries is the calls of the first followed by those of the second. */
  lemma TraceOfTwo(q1: Query, q2: Query, stream: seq<Outcome>)
    ensures var first := QueryCalls(q1, stream, 0);
            Trace([q1, q2], stream) == first + QueryCalls(q2, stream, |first|)
  {
    TraceSnoc([], q1, stream);
    assert [] + [q1] == [q1];
    assert Trace([q1], stream) == QueryCalls(q1, stream, 0);
  }

  lemma TraceSnoc(queries: seq<Query>, q: Query, stream: seq<Outcome>)
    ensures Trace(queries + [q], stream) == Trace(queries, stream) + QueryCalls(q, stream, |Trace(queries, stream)|)
  {
    assert (queries + [q])[..|queries|] == queries;
  }

  /** Past the end of the stream every attempt finds nothing, so all three are made. */
  lemma MissesPastEnd(q: Query, stream: seq<Outcome>, start: nat)
    requires !Skipped(q) && start >= |stream|
    ensures QueryCalls(q, stream, start) == [Call(q, 0, Miss), Call(q, 1, Miss), Call(q, 2, Miss)]
  {
    var r := Attempts(q, stream, start, 0);
    assert r[0].outcome == Miss;
  }

  /**
   * The hazard of the missing `break`: a hit for the first query is lost when the
   * second query then finds nothing three times.
   */
  lemma HitErasedByLaterMiss(q1: Query, q2: Query, l: string)
    requires !Skipped(q1) && !Skipped(q2)
    ensures var calls := Trace([q1, q2], [Hit(l)]);
            |calls| == 4 && calls[0].outcome == Hit(l) && LastReturned(calls) == None
  {
    var stream := [Hit(l)];
    TraceOfTwo(q1, q2, stream);
    var first := QueryCalls(q1, stream, 0);
    assert first[0] == Call(q1, 0, Hit(l));
    assert |first| == 1;
    MissesPastEnd(q2, stream, 1);
    var calls := first + QueryCalls(q2, stream, 1);
    assert calls[3].outcome == Miss;
  }

  /** A 429 or 403 on every attempt means sleeping 5 + 10 + 20 seconds and finding nothing. */
  lemma ThreeRateLimits(q: Query, stream: seq<Outcome>)
    requires !Skipped(q)
    requires forall k :: 0 <= k < MaxRetries ==> OutcomeAt(stream, k).Err? && Retryable(OutcomeAt(stream, k).msg)
    ensures var calls := Trace([q], stream);
            |calls| == 3 && TotalBackoff(calls) == 35 && LastReturned(calls) == None
  {
    TraceSnoc([], q, stream);
    assert [] + [q] == [q];
    var calls := Attempts(q, stream, 0, 0);
    assert Trace([q], stream) == calls;
    assert !Stops(OutcomeAt(stream, 0)) && !Stops(OutcomeAt(stream, 1));
    assert calls[0].outcome == OutcomeAt(stream, 0);
    assert |calls| >= 2;
    assert calls[1].outcome == OutcomeAt(stream, 1);
    assert |calls| == 3;
    assert calls == [calls[0], calls[1], calls[2]];
    SleepThree(calls[0], calls[1], calls[2]);
  }

  lemma SleepThree(c0: Call, c1: Call, c2: Call)
    requires c0.outcome.Err? && c1.outcome.Err? && c2.outcome.Err?
    requires Retryable(c0.outcome.msg) && Retryable(c1.outcome.msg) && Retryable(c2.outcome.msg)
    requires c0.attempt == 0 && c1.attempt == 1 && c2.attempt == 2
    ensures TotalBackoff([c0, c1, c2]) == 35 && LastReturned([c0, c1, c2]) == None
  {
    AddCall([], c0);
    AddCall([c0], c1);
    AddCall([c0, c1], c2);
    assert [] + [c0] == [c0];
    assert [c0] + [c1] == [c0, c1];
    assert [c0, c1] + [c2] == [c0, c1, c2];
    assert Backoff(0) == 5 && Backoff(1) == 10 && Backoff(2) == 20;
  }

  // ---------------------------------------------------------------------------
  // The script search without retries (get_lyrics of both scripts)

  /**
   * One call per query, in order, from call number `start` on, until the first hit; an
   * error moves on to the next query.  Returns the hit's lyrics and the calls made.
   */
  function ScriptSearch(queries: seq<Query>, stream: seq<Outcome>, start: nat): (r: (Option<string>, nat))
    ensures r.1 <= |queries|
    ensures r.0.Some? ==> r.1 >= 1 && OutcomeAt(stream, start + r.1 - 1) == Hit(r.0.value)
    ensures forall k :: start <= k < start + r.1 - 1 ==> !OutcomeAt(stream, k).Hit?
    ensures r.0.None? ==> r.1 == |queries| && forall k :: start <= k < start + |queries| ==> !OutcomeAt(stream, k).Hit?
    decreases |queries|
  {
    if |queries| == 0 then (None, 0)
    else match OutcomeAt(stream, start)
      case Hit(l) => (Some(l), 1)
      case _ =>
        var rest := ScriptSearch(queries[1..], stream, start + 1);
        (rest.0, rest.1 + 1)
  }
}

=== FILE: service.dfy ===
/**
 * `MusicDataService`: one track turned into a stored record (`_process_single_track`)
 * and a whole playlist fetched, capped, processed and saved (`fetch_and_save_playlist`).
 *
 * The tracks are processed by a thread pool; here they are processed one after the
 * other, and the order of the stored records is left open: the contracts speak of which
 * records are stored, not where.
 */
module Service {
  import opened Wrappers
  import opened Strings
  import opened Scanners
  import opened Titles
  import opened Cleaners
  import opened Search
  import opened Catalog

  /** The record stored for a track whose lyrics were found. */
  datatype SongRecord = SongRecord(
    originalTitle: string,
    cleanTitle: string,
    artist: string,
    lyrics: string,
    albumArt: Option<string>)

  /** The calls the service makes for track `t`, the first artist's name being `artist`. */
  function TrackCalls(t: Track, artist: string, stream: seq<Outcome>): seq<Call> {
    Trace(Candidates(t.name, artist), stream)
  }

  /**
   * `_process_single_track`.  A missing or `None` track, a track without artists, a
   * track whose album has no image list, and a search that ends without a song all
   * give `None` (the first three through the `except`).  Otherwise the record holds the
   * original title (the loop rebinds `title`, but to the last candidate's title, which
   * is the original one), the cleaned title, the expanded artist, the cleaned lyrics of
   * the final song, and the first album image, if any.
   */
  function ProcessSingleTrack(item: Item, stream: seq<Outcome>): Option<SongRecord>
  {
    match item.track
    case Absent => None
    case Null => None
    case Value(t) =>
      if |t.artists| == 0 then None
      else
        var artist := t.artists[0];
        var song := LastReturned(TrackCalls(t, artist, stream));
        if song.None? then None
        else if t.albumImages.None? then None
        else
          var images := t.albumImages.value;
          Some(SongRecord(
            t.name, CleanTitle(t.name), ExpandArtists(artist, t.name),
            ServiceCleanLyrics(Some(song.value)),
            if |images| > 0 then Some(images[0]) else None))
  }

  /**
   * When a track yields a record, and what the record holds: the titles, the expanded
   * artist, lyrics cleaned from the last call that returned normally (which must have
   * hit), and the first album image when the album has one.
   */
  lemma ProcessSingleTrackMeans(item: Item, stream: seq<Outcome>, r: Option<SongRecord>)
    requires r == ProcessSingleTrack(item, stream)
    ensures r.Some? <==>
              && item.track.Value?
              && |item.track.v.artists| > 0
              && item.track.v.albumImages.Some?
              && var calls := TrackCalls(item.track.v, item.track.v.artists[0], stream);
                 exists k :: LastNormal(calls, k) && calls[k].outcome.Hit?
    ensures r.Some? ==>
              var t := item.track.v;
              var calls := TrackCalls(t, t.artists[0], stream);
              && r.value.originalTitle == t.name
              && r.value.cleanTitle == CleanTitle(t.name)
              && r.value.artist == ExpandArtists(t.artists[0], t.name)
              && (exists k :: LastNormal(calls, k) && calls[k].outcome.Hit?
                             && r.value.lyrics == ServiceCleanLyrics(Some(calls[k].outcome.lyrics)))
    ensures r.Some? ==> Tidy(r.value.lyrics) && !Contains(r.value.lyrics, Translations)
    ensures r.Some? ==> var images := item.track.v.albumImages.value;
              && (|images| > 0 ==> r.value.albumArt == Some(images[0]))
              && (|images| == 0 ==> r.value.albumArt.None?)
  {
    if item.track.Value? && |item.track.v.artists| > 0 {
      var t := item.track.v;
      var calls := TrackCalls(t, t.artists[0], stream);
      LastReturnedMeans(calls);
      if r.Some? {
        var song := LastReturned(calls);
        var k :| LastNormal(calls, k) && calls[k].outcome == Hit(song.value);
        assert r.value.lyrics == ServiceCleanLyrics(Some(calls[k].outcome.lyrics));
      }
    }
  }

  /**
   * A track is dropped whenever the provider has nothing for it: every call past the
   * end of the stream finds nothing, so the last call's `None` is the final song.
   */
  lemma NoLyricsNoRecord(item: Item)
    ensures ProcessSingleTrack(item, []).None?
  {
    if item.track.Value? && |item.track.v.artists| > 0 {
      EmptyStreamNoSong(Candidates(item.track.v.name, item.track.v.artists[0]));
    }
  }

  // ---------------------------------------------------------------------------
  // fetch_and_save_playlist

  const MaxTracksLimit: nat := 30

  /** The positions `random.sample(tracks, 30)` picks: thirty distinct positions of `n`. */
  predicate IsSample(pick: seq<nat>, n: nat) {
    && |pick| == MaxTracksLimit
    && (forall k :: 0 <= k < |pick| ==> pick[k] < n)
    && (forall j, k :: 0 <= j < k < |pick| ==> pick[j] != pick[k])
  }

  function Min(a: nat, b: nat): nat { if a <= b then a else b }

  /** The 30-track cap: all tracks when there are at most 30, else the sampled ones. */
  function Cap(tracks: seq<Item>, pick: seq<nat>): (r: seq<Item>)
    requires |tracks| > MaxTracksLimit ==> IsSample(pick, |tracks|)
    ensures |r| == Min(|tracks|, MaxTracksLimit)
    ensures |tracks| <= MaxTracksLimit ==> r == tracks
    ensures |tracks| > MaxTracksLimit ==> forall k :: 0 <= k < |r| ==> r[k] == tracks[pick[k]]
  {
    if |tracks| <= MaxTracksLimit then tracks
    else seq(MaxTracksLimit, k requires 0 <= k < MaxTracksLimit => tracks[pick[k]])
  }

  /** The stream of outcomes the provider gives the track at position `i`. */
  function StreamAt(streams: seq<seq<Outcome>>, i: nat): seq<Outcome> {
    if i < |streams| then streams[i] else []
  }

  /**
   * The values of the results that are not `None`, in order: each value as often as it
   * occurs, and one result dropped for each `None`.
   */
  function Somes<T(!new)>(rs: seq<Option<T>>): (r: seq<T>)
    ensures |r| <= |rs|
    ensures |r| + multiset(rs)[None] == |rs|
    ensures forall x :: multiset(r)[x] == multiset(rs)[Some(x)]
    ensures forall x :: x in r <==> Some(x) in rs
    decreases |rs|
  {
    if |rs| == 0 then []
    else
      assert rs == [rs[0]] + rs[1..];
      match rs[0]
      case Some(x) => [x] + Somes(rs[1..])
      case None => Somes(rs[1..])
  }

  /** Collecting is order-preserving: the values of a concatenation are concatenated. */
  lemma {:induction false} SomesAppend<T(!new)>(a: seq<Option<T>>, b: seq<Option<T>>)
    ensures Somes(a + b) == Somes(a) + Somes(b)
    decreases |a|
  {
    if |a| == 0 {
      assert a + b == b;
    } else {
      var ab := a + b;
      assert ab[0] == a[0];
      assert ab[1..] == a[1..] + b;
      SomesAppend(a[1..], b);
      if a[0].Some? {
        assert Somes(ab) == [a[0].value] + Somes(ab[1..]);
        assert Somes(a) == [a[0].value] + Somes(a[1..]);
        AppendAssoc([a[0].value], Somes(a[1..]), Somes(b));
      } else {
        assert Somes(ab) == Somes(ab[1..]);
        assert Somes(a) == Somes(a[1..]);
      }
    }
  }

  /** One result contributes its value, or nothing when it is `None`. */
  lemma SomesOne<T(!new)>(o: Option<T>)
    ensures Somes([o]) == if o.Some? then [o.value] else []
  {
    assert [o][1..] == [];
  }

  /**
   * The thread pool with its `if result:` filter: the record of each track that yields
   * one.  Every stored record comes from one of the tracks, and every track's record is
   * stored.
   */
  function Processed(tracks: seq<Item>, streams: seq<seq<Outcome>>): (r: seq<SongRecord>)
    ensures |r| <= |tracks|
    ensures |r| + multiset(Results(tracks, streams))[None] == |tracks|
    ensures forall x :: multiset(r)[x] == multiset(Results(tracks, streams))[Some(x)]
    ensures forall x :: x in r <==>
              exists i :: 0 <= i < |tracks| && ProcessSingleTrack(tracks[i], StreamAt(streams, i)) == Some(x)
  {
    var results := Results(tracks, streams);
    forall x
      ensures Some(x) in results <==>
              exists i :: 0 <= i < |tracks| && ProcessSingleTrack(tracks[i], StreamAt(streams, i)) == Some(x)
    {
      ResultsHold(tracks, streams, x);
    }
    Somes(results)
  }

  /** A record is among the results exactly when some track yields it. */
  lemma ResultsHold(tracks: seq<Item>, streams: seq<seq<Outcome>>, x: SongRecord)
    ensures Some(x) in Results(tracks, streams) <==>
            exists i :: 0 <= i < |tracks| && ProcessSingleTrack(tracks[i], StreamAt(streams, i)) == Some(x)
  {
    var results := Results(tracks, streams);
    if Some(x) in results {
      var j :| 0 <= j < |results| && results[j] == Some(x);
      assert ProcessSingleTrack(tracks[j], StreamAt(streams, j)) == Some(x);
    }
    if exists i :: 0 <= i < |tracks| && ProcessSingleTrack(tracks[i], StreamAt(streams, i)) == Some(x) {
      var i :| 0 <= i < |tracks| && ProcessSingleTrack(tracks[i], StreamAt(streams, i)) == Some(x);
      assert results[i] == Some(x);
    }
  }

  /** The result of each track, position by position. */
  function Results(tracks: seq<Item>, streams: seq<seq<Outcome>>): (rs: seq<Option<SongRecord>>)
    ensures |rs| == |tracks|
    ensures forall i :: 0 <= i < |rs| ==> rs[i] == ProcessSingleTrack(tracks[i], StreamAt(streams, i))
  {
    seq(|tracks|, i requires 0 <= i < |tracks| => ProcessSingleTrack(tracks[i], StreamAt(streams, i)))
  }

  /** The document written to `user_playlists/<request_id>`; the timestamp is not modelled. */
  datatype Document = Document(
    playlistId: string,
    tracks: seq<SongRecord>,
    originalTrackCount: nat,
    processedTrackCount: nat,
    requestIp: string)

  /** What `fetch_and_save_playlist` leaves behind: the stored document and its result. */
  datatype Saved = Saved(stored: Option<Document>, result: Option<string>)

  /**
   * `fetch_and_save_playlist`.  `ready` says both clients exist; `pages` is the catalog's
   * result pages (`None` when fetching raised); `pick` is the sample drawn when there are
   * more than 30 items; `saveOk` says whether the write succeeded.
   */
  function FetchAndSave(ready: bool, playlistId: string, requestId: string, clientIp: string,
                        pages: Option<seq<seq<Item>>>, pick: seq<nat>,
                        streams: seq<seq<Outcome>>, saveOk: bool): (r: Saved)
    requires pages.Some? && |Concat(pages.value)| > MaxTracksLimit ==> IsSample(pick, |Concat(pages.value)|)
    ensures r.result.Some? <==> ready && pages.Some? && saveOk
    ensures r.result.Some? ==> r.result.value == requestId
    ensures r.stored.Some? <==> r.result.Some?
    ensures r.stored.Some? ==>
              var doc := r.stored.value;
              var original := |Concat(pages.value)|;
              && doc.playlistId == playlistId && doc.requestIp == clientIp
              && doc.originalTrackCount == original
              && doc.processedTrackCount == |doc.tracks| <= Min(original, MaxTracksLimit)
    ensures r.stored.Some? ==>
              var doc := r.stored.value;
              var results := Results(Cap(Concat(pages.value), pick), streams);
              && (forall x :: multiset(doc.tracks)[x] == multiset(results)[Some(x)])
              && doc.processedTrackCount + multiset(results)[None] == |results|
  {
    if !ready then Saved(None, None)
    else match pages
      case None => Saved(None, None)
      case Some(ps) =>
        var tracks := Concat(ps);
        var capped := Cap(tracks, pick);
        var songs := Processed(capped, streams);
        if !saveOk then Saved(None, None)
        else Saved(Some(Document(playlistId, songs, |tracks|, |songs|, clientIp)), Some(requestId))
  }

  /** Each stored record is the record of one of the kept tracks. */
  lemma StoredRecordsFromTracks(ready: bool, playlistId: string, requestId: string, clientIp: string,
                                pages: seq<seq<Item>>, pick: seq<nat>, streams: seq<seq<Outcome>>, x: SongRecord)
    requires |Concat(pages)| > MaxTracksLimit ==> IsSample(pick, |Concat(pages)|)
    requires ready
    ensures var r := FetchAndSave(ready, playlistId, requestId, clientIp, Some(pages), pick, streams, true);
            var capped := Cap(Concat(pages), pick);
            x in r.stored.value.tracks <==>
              exists i :: 0 <= i < |capped| && ProcessSingleTrack(capped[i], StreamAt(streams, i)) == Some(x)
  {
  }

  /** An empty playlist is not a failure: an empty document is stored and the id returned. */
  lemma EmptyPlaylistSaved(playlistId: string, requestId: string, clientIp: string,
                           pages: seq<seq<Item>>, pick: seq<nat>, streams: seq<seq<Outcome>>)
    requires Concat(pages) == []
    ensures var r := FetchAndSave(true, playlistId, requestId, clientIp, Some(pages), pick, streams, true);
            && r.result == Some(requestId)
            && r.stored == Some(Document(playlistId, [], 0, 0, clientIp))
  {
    assert Somes<SongRecord>([]) == [];
  }
}

=== FILE: strings.dfy ===
/**
 * Python `str` operations used by the pipeline: substring search (`in`, `find`,
 * `split(w)[0]`), case-insensitive search as `re.IGNORECASE` performs it,
 * `strip()`, and the whitespace-collapsing substitutions every lyric cleaner ends with.
 */
module Strings {
  import opened Wrappers
  import opened Chars

  /** `w` occurs in `s` starting at index `i`. */
  predicate ContainsAt(s: string, w: string, i: nat) {
    i + |w| <= |s| && s[i..i + |w|] == w
  }

  /** Python's `w in s`. */
  predicate Contains(s: string, w: string) {
    exists i: nat | i <= |s| :: ContainsAt(s, w, i)
  }

  /** The first occurrence of `w` in `s` at or after `i`. */
  function FindFrom(s: string, w: string, i: nat): (r: Option<nat>)
    requires i <= |s|
    ensures r.Some? ==> i <= r.value <= |s| && ContainsAt(s, w, r.value)
    ensures r.Some? ==> forall j: nat :: i <= j < r.value ==> !ContainsAt(s, w, j)
    ensures r.None? ==> forall j: nat :: i <= j <= |s| ==> !ContainsAt(s, w, j)
    decreases |s| - i
  {
    if ContainsAt(s, w, i) then Some(i)
    else if i == |s| then None
    else FindFrom(s, w, i + 1)
  }

  /** `s.find(w)`, with `None` for -1. */
  function Find(s: string, w: string): (r: Option<nat>)
    ensures r.None? <==> !Contains(s, w)
    ensures r.Some? ==> ContainsAt(s, w, r.value)
    ensures r.Some? ==> forall j: nat :: j < r.value ==> !ContainsAt(s, w, j)
  {
    FindFrom(s, w, 0)
  }

  /** An occurrence inside a slice is an occurrence in the whole string. */
  lemma ContainsAtSlice(s: string, a: nat, b: nat, w: string, j: nat)
    requires a <= b <= |s|
    ensures ContainsAt(s[a..b], w, j) ==> ContainsAt(s, w, a + j)
  {
    if ContainsAt(s[a..b], w, j) {
      forall t | 0 <= t < |w| ensures s[a + j..a + j + |w|][t] == w[t] {
        assert w[t] == s[a..b][j..j + |w|][t];
      }
    }
  }

  /** A slice of a string that does not contain `w` does not contain it either. */
  lemma NotContainsSlice(s: string, a: nat, b: nat, w: string)
    requires a <= b <= |s| && !Contains(s, w)
    ensures !Contains(s[a..b], w)
  {
    forall j: nat | j <= |s[a..b]| ensures !ContainsAt(s[a..b], w, j) {
      ContainsAtSlice(s, a, b, w, j);
      assert !ContainsAt(s, w, a + j);
    }
  }

  /** An occurrence in a suffix is an occurrence in the whole string. */
  lemma ContainsSuffix(s: string, e: nat, w: string)
    requires e <= |s| && Contains(s[e..], w)
    ensures Contains(s, w)
  {
    var j: nat :| j <= |s[e..]| && ContainsAt(s[e..], w, j);
    ContainsAtSlice(s, e, |s|, w, j);
    assert ContainsAt(s, w, e + j);
  }

  /** A string without the character `c` does not contain the one-character string `[c]`. */
  lemma {:induction false} NotContainsChar(s: string, c: char)
    requires c !in s
    ensures !Contains(s, [c])
  {
    forall i: nat | i <= |s| ensures !ContainsAt(s, [c], i) {
      if i < |s| {
        assert s[i..i + 1][0] == s[i];
      }
    }
  }

  /** `s.split(w)[0]`: the text before the first occurrence of `w`, or all of `s` when there is none. */
  function Before(s: string, w: string): (r: string)
    requires |w| > 0
    ensures !Contains(r, w)
    ensures |r| <= |s| && r == s[..|r|]
    ensures !Contains(s, w) <==> r == s
    ensures Contains(s, w) ==> ContainsAt(s, w, |r|)
  {
    match Find(s, w)
    case Some(i) =>
      NoOccurrenceBefore(s, w, i);
      s[..i]
    case None => s
  }

  lemma NoOccurrenceBefore(s: string, w: string, i: nat)
    requires |w| > 0 && i <= |s|
    requires forall j: nat :: j < i ==> !ContainsAt(s, w, j)
    ensures !Contains(s[..i], w)
  {
    forall j: nat | j <= i ensures !ContainsAt(s[..i], w, j) {
      ContainsAtSlice(s, 0, i, w, j);
    }
  }

  // ---------------------------------------------------------------------------
  // Case-insensitive matching (re.IGNORECASE) against a lower-case literal.

  /** The lower-case literal `w` matches `s` at `i` ignoring case. */
  predicate FoldedAt(s: string, w: string, i: nat) {
    i + |w| <= |s| && forall k :: 0 <= k < |w| ==> CaseFoldEq(s[i + k], w[k])
  }

  /** `re.search(w, s, re.IGNORECASE)` for a literal pattern `w`. */
  predicate ContainsFolded(s: string, w: string) {
    exists i: nat | i <= |s| :: FoldedAt(s, w, i)
  }

  /** The first case-insensitive occurrence of `w` in `s` at or after `i`. */
  function FindFoldedFrom(s: string, w: string, i: nat): (r: Option<nat>)
    requires i <= |s|
    ensures r.Some? ==> i <= r.value <= |s| && FoldedAt(s, w, r.value)
    ensures r.Some? ==> forall j: nat :: i <= j < r.value ==> !FoldedAt(s, w, j)
    ensures r.None? ==> forall j: nat :: i <= j <= |s| ==> !FoldedAt(s, w, j)
    decreases |s| - i
  {
    if FoldedAt(s, w, i) then Some(i)
    else if i == |s| then None
    else FindFoldedFrom(s, w, i + 1)
  }

  /** An exact occurrence is also a case-insensitive one. */
  lemma ExactIsFolded(s: string, w: string, i: nat)
    requires ContainsAt(s, w, i)
    ensures FoldedAt(s, w, i)
  {
    forall k | 0 <= k < |w| ensures CaseFoldEq(s[i + k], w[k]) {
      assert s[i + k] == s[i..i + |w|][k];
    }
  }

  /** A case-insensitive occurrence inside a slice is one in the whole string. */
  lemma FoldedAtSlice(s: string, a: nat, b: nat, w: string, j: nat)
    requires a <= b <= |s|
    ensures FoldedAt(s[a..b], w, j) ==> FoldedAt(s, w, a + j)
  {
    if FoldedAt(s[a..b], w, j) {
      forall k | 0 <= k < |w| ensures CaseFoldEq(s[a + j + k], w[k]) {
        assert s[a..b][j + k] == s[a + j + k];
      }
    }
  }

  /** A case-insensitive occurrence that lies inside a slice is one in the slice. */
  lemma FoldedAtUnslice(s: string, a: nat, b: nat, w: string, j: nat)
    requires a <= b <= |s|
    ensures a + j + |w| <= b && FoldedAt(s, w, a + j) ==> FoldedAt(s[a..b], w, j)
  {
    if a + j + |w| <= b && FoldedAt(s, w, a + j) {
      forall k | 0 <= k < |w| ensures CaseFoldEq(s[a..b][j + k], w[k]) {
        assert s[a..b][j + k] == s[a + j + k];
      }
    }
  }

  lemma NotContainsFoldedSlice(s: string, a: nat, b: nat, w: string)
    requires a <= b <= |s| && !ContainsFolded(s, w)
    ensures !ContainsFolded(s[a..b], w)
  {
    forall j: nat | j <= |s[a..b]| ensures !FoldedAt(s[a..b], w, j) {
      FoldedAtSlice(s, a, b, w, j);
      assert !FoldedAt(s, w, a + j);
    }
  }

  // ---------------------------------------------------------------------------
  // Whitespace runs and str.strip()

  /** The end of the run of `str.isspace()` characters that starts at `i`. */
  function SpaceRunEnd(s: string, i: nat): (e: nat)
    requires i <= |s|
    ensures i <= e <= |s|
    ensures forall k :: i <= k < e ==> IsSpace(s[k])
    ensures e < |s| ==> !IsSpace(s[e])
    decreases |s| - i
  {
    if i < |s| && IsSpace(s[i]) then SpaceRunEnd(s, i + 1) else i
  }

  /** The start of the run of whitespace that ends at `e`, not going below `lo`. */
  function SpaceRunStart(s: string, lo: nat, e: nat): (b: nat)
    requires lo <= e <= |s|
    ensures lo <= b <= e
    ensures forall k :: b <= k < e ==> IsSpace(s[k])
    ensures b > lo ==> !IsSpace(s[b - 1])
    decreases e - lo
  {
    if e > lo && IsSpace(s[e - 1]) then SpaceRunStart(s, lo, e - 1) else e
  }

  /** Neither the first nor the last character is whitespace. */
  predicate IsStripped(s: string) {
    |s| == 0 || (!IsSpace(s[0]) && !IsSpace(s[|s| - 1]))
  }

  /** Where `str.strip()` starts keeping characters. */
  function StripOffset(s: string): nat
    ensures StripOffset(s) <= |s|
  {
    SpaceRunEnd(s, 0)
  }

  /** `str.strip()`: drop leading and trailing whitespace, and nothing else. */
  function Strip(s: string): (r: string)
    ensures IsStripped(r)
    ensures StripOffset(s) + |r| <= |s| && r == s[StripOffset(s)..StripOffset(s) + |r|]
    ensures forall i :: 0 <= i < |s| && !IsSpace(s[i]) ==> StripOffset(s) <= i < StripOffset(s) + |r|
  {
    var a := SpaceRunEnd(s, 0);
    var b := SpaceRunStart(s, a, |s|);
    s[a..b]
  }

  /** Stripping a stripped string changes nothing. */
  lemma StripStripped(s: string)
    requires IsStripped(s)
    ensures Strip(s) == s
  {
    if |s| > 0 {
      assert !IsSpace(s[|s| - 1]);
    }
  }

  /**
   * `strip()` is determined by what it keeps: a stripped slice outside which there is
   * only whitespace.
   */
  lemma StripUnique(s: string, o: nat, r: string)
    requires o + |r| <= |s| && r == s[o..o + |r|] && IsStripped(r)
    requires forall i :: 0 <= i < |s| && !(o <= i < o + |r|) ==> IsSpace(s[i])
    ensures Strip(s) == r
  {
    var t := Strip(s);
    var a := StripOffset(s);
    if |r| > 0 {
      assert r[0] == s[o] && r[|r| - 1] == s[o + |r| - 1];
      assert t[0] == s[a] && t[|t| - 1] == s[a + |t| - 1];
    }
  }

  /** A whitespace character after the text does not change what `strip()` keeps. */
  lemma StripTrailingSpace(s: string, c: char)
    requires IsSpace(c)
    ensures Strip(s + [c]) == Strip(s)
  {
    var r := Strip(s);
    var o := StripOffset(s);
    var u := s + [c];
    assert u[o..o + |r|] == s[o..o + |r|];
    StripUnique(u, o, r);
  }

  /** `strip()` never introduces a substring. */
  lemma NotContainsStrip(s: string, w: string)
    requires !Contains(s, w)
    ensures !Contains(Strip(s), w)
  {
    var a := StripOffset(s);
    NotContainsSlice(s, a, a + |Strip(s)|, w);
  }

  // ---------------------------------------------------------------------------
  // Collapsing runs: re.sub(r"\n{2,}", "\n", s) and re.sub(r"[ \t]+", " ", s)

  datatype RunClass = Newlines | Blanks

  predicate InRun(k: RunClass, c: char) {
    match k
    case Newlines => c == '\n'
    case Blanks => c == ' ' || c == '\t'
  }

  /** The single character a run is replaced with. */
  function RunMark(k: RunClass): char {
    match k
    case Newlines => '\n'
    case Blanks => ' '
  }

  function RunEnd(s: string, i: nat, k: RunClass): (e: nat)
    requires i <= |s|
    ensures i <= e <= |s|
    ensures forall j :: i <= j < e ==> InRun(k, s[j])
    ensures e < |s| ==> !InRun(k, s[e])
    decreases |s| - i
  {
    if i < |s| && InRun(k, s[i]) then RunEnd(s, i + 1, k) else i
  }

  /**
   * Replace every maximal run of class-`k` characters by one `RunMark(k)`.  A run of a
   * single newline is left as it is by `\n{2,}`, which is the same result.
   */
  function CollapseRuns(s: string, k: RunClass): (r: string)
    ensures |r| <= |s|
    ensures |s| > 0 ==> |r| > 0 && r[0] == (if InRun(k, s[0]) then RunMark(k) else s[0])
    ensures forall i :: 0 <= i < |r| && InRun(k, r[i]) ==> r[i] == RunMark(k)
    ensures forall i :: 0 <= i && i + 1 < |r| ==> !(InRun(k, r[i]) && InRun(k, r[i + 1]))
    decreases |s|
  {
    if |s| == 0 then ""
    else if InRun(k, s[0]) then [RunMark(k)] + CollapseRuns(s[RunEnd(s, 0, k)..], k)
    else [s[0]] + CollapseRuns(s[1..], k)
  }

  /**
   * The reference reading of run collapsing, one character at a time: a class character
   * right after another class character is dropped, any other class character becomes
   * the mark, and every other character is kept.  `prev` says whether the character
   * before `s` was a class character.
   */
  function CollapseFrom(s: string, k: RunClass, prev: bool): string
    decreases |s|
  {
    if |s| == 0 then ""
    else
      (if !InRun(k, s[0]) then [s[0]] else if prev then "" else [RunMark(k)])
      + CollapseFrom(s[1..], k, InRun(k, s[0]))
  }

  /** After a class character, a run contributes nothing. */
  lemma {:induction false} CollapseFromSkipsRun(s: string, k: RunClass, e: nat)
    requires e <= |s| && forall j :: 0 <= j < e ==> InRun(k, s[j])
    ensures CollapseFrom(s, k, true) == CollapseFrom(s[e..], k, true)
    decreases e
  {
    if e > 0 {
      CollapseFromSkipsRun(s[1..], k, e - 1);
      assert s[1..][e - 1..] == s[e..];
      assert CollapseFrom(s, k, true) == "" + CollapseFrom(s[1..], k, true);
    }
  }

  /** What came before does not matter when the text starts outside the class. */
  lemma CollapseFromFresh(s: string, k: RunClass)
    requires |s| == 0 || !InRun(k, s[0])
    ensures CollapseFrom(s, k, true) == CollapseFrom(s, k, false)
  {
  }

  /** Run by run and character by character, collapsing gives the same text. */
  lemma {:induction false} CollapseRunsIsReference(s: string, k: RunClass)
    ensures CollapseRuns(s, k) == CollapseFrom(s, k, false)
    decreases |s|
  {
    if |s| > 0 {
      if InRun(k, s[0]) {
        var e := RunEnd(s, 0, k);
        CollapseRunsIsReference(s[e..], k);
        CollapseFromSkipsRun(s[1..], k, e - 1);
        assert s[1..][e - 1..] == s[e..];
        CollapseFromFresh(s[e..], k);
      } else {
        CollapseRunsIsReference(s[1..], k);
      }
    }
  }

  /** The characters of `s` outside class `k`, in order. */
  function Outside(s: string, k: RunClass): string {
    if |s| == 0 then ""
    else (if InRun(k, s[0]) then "" else [s[0]]) + Outside(s[1..], k)
  }

  lemma OutsideOfRun(s: string, k: RunClass, e: nat)
    requires e <= |s| && forall j :: 0 <= j < e ==> InRun(k, s[j])
    ensures Outside(s, k) == Outside(s[e..], k)
    decreases e
  {
    if e > 0 {
      OutsideOfRun(s[1..], k, e - 1);
      assert s[1..][e - 1..] == s[e..];
    }
  }

  /** Collapsing keeps every character outside the class, in order, and adds none. */
  lemma {:induction false} CollapseKeepsOthers(s: string, k: RunClass)
    ensures Outside(CollapseRuns(s, k), k) == Outside(s, k)
    decreases |s|
  {
    if |s| > 0 {
      var r := CollapseRuns(s, k);
      if InRun(k, s[0]) {
        var e := RunEnd(s, 0, k);
        CollapseKeepsOthers(s[e..], k);
        OutsideOfRun(s, k, e);
        assert r[1..] == CollapseRuns(s[e..], k);
      } else {
        CollapseKeepsOthers(s[1..], k);
        assert r[1..] == CollapseRuns(s[1..], k);
      }
    }
  }

  /** If the collapsed text starts with a class-free `w`, so does the original. */
  lemma {:induction false} CollapsePrefix(s: string, k: RunClass, w: string)
    requires forall j :: 0 <= j < |w| ==> !InRun(k, w[j])
    requires ContainsAt(CollapseRuns(s, k), w, 0)
    ensures ContainsAt(s, w, 0)
    decreases |w|
  {
    if |w| > 0 {
      var r := CollapseRuns(s, k);
      PrefixCons(r, w);
      CollapseHead(s, k, w[0]);
      assert r[1..] == CollapseRuns(s[1..], k);
      CollapsePrefix(s[1..], k, w[1..]);
      PrefixCons(s, w);
    }
  }

  /** A non-empty `w` starts `x` when its first character does and its rest starts the rest. */
  lemma PrefixCons(x: string, w: string)
    requires |w| > 0
    ensures ContainsAt(x, w, 0) <==> |x| > 0 && x[0] == w[0] && ContainsAt(x[1..], w[1..], 0)
  {
    if |x| > 0 && |w| <= |x| {
      assert x[..|w|] == [x[0]] + x[1..][..|w| - 1];
      assert w == [w[0]] + w[1..];
    }
  }

  /** A collapsed text that starts outside the class starts with the original's first character. */
  lemma CollapseHead(s: string, k: RunClass, c: char)
    requires !InRun(k, c) && |CollapseRuns(s, k)| > 0 && CollapseRuns(s, k)[0] == c
    ensures |s| > 0 && s[0] == c && !InRun(k, s[0])
    ensures CollapseRuns(s, k) == [s[0]] + CollapseRuns(s[1..], k)
  {
  }

  /** Collapsing never creates an occurrence of a class-free string. */
  lemma {:induction false} CollapseNoNewOccurrence(s: string, k: RunClass, w: string, i: nat)
    requires |w| > 0 && forall j :: 0 <= j < |w| ==> !InRun(k, w[j])
    requires ContainsAt(CollapseRuns(s, k), w, i)
    ensures Contains(s, w)
    decreases |s|
  {
    var r := CollapseRuns(s, k);
    if i == 0 {
      CollapsePrefix(s, k, w);
      assert ContainsAt(s, w, 0);
    } else {
      var e := if InRun(k, s[0]) then RunEnd(s, 0, k) else 1;
      assert r[1..] == CollapseRuns(s[e..], k);
      assert r[1..][i - 1..i - 1 + |w|] == r[i..i + |w|];
      CollapseNoNewOccurrence(s[e..], k, w, i - 1);
      ContainsSuffix(s, e, w);
    }
  }

  lemma NotContainsCollapse(s: string, k: RunClass, w: string)
    requires |w| > 0 && forall j :: 0 <= j < |w| ==> !InRun(k, w[j])
    requires !Contains(s, w)
    ensures !Contains(CollapseRuns(s, k), w)
  {
    var r := CollapseRuns(s, k);
    forall i: nat | i <= |r| ensures !ContainsAt(r, w, i) {
      if ContainsAt(r, w, i) {
        CollapseNoNewOccurrence(s, k, w, i);
      }
    }
  }

  // ---------------------------------------------------------------------------
  // The common whitespace tail of every lyric cleaner

  /** No two consecutive occurrences of `c`. */
  predicate NoDouble(s: string, c: char) {
    forall i :: 0 <= i && i + 1 < |s| ==> !(s[i] == c && s[i + 1] == c)
  }

  /** No tab, no two consecutive spaces, no empty line, no surrounding whitespace. */
  predicate Tidy(s: string) {
    && (forall i :: 0 <= i < |s| ==> s[i] != '\t')
    && NoDouble(s, ' ')
    && NoDouble(s, '\n')
    && IsStripped(s)
  }

  /** Collapsing blanks never joins two newlines: a run becomes a space, never nothing. */
  lemma {:induction false} BlanksKeepNoDoubleNewline(s: string)
    requires NoDouble(s, '\n')
    ensures NoDouble(CollapseRuns(s, Blanks), '\n')
    decreases |s|
  {
    if |s| > 0 {
      var r := CollapseRuns(s, Blanks);
      if InRun(Blanks, s[0]) {
        var e := RunEnd(s, 0, Blanks);
        BlanksKeepNoDoubleNewline(s[e..]);
        assert r[1..] == CollapseRuns(s[e..], Blanks);
      } else {
        BlanksKeepNoDoubleNewline(s[1..]);
        assert r[1..] == CollapseRuns(s[1..], Blanks);
      }
    }
  }

  /**
   * `re.sub(r"\n{2,}", "\n", t)`, then `re.sub(r"[ \t]+", " ", t)`, then `t.strip()`:
   * the last three steps of every lyric cleaner.
   */
  function SquashWhitespace(s: string): (r: string)
    ensures Tidy(r)
  {
    var a := CollapseRuns(s, Newlines);
    var b := CollapseRuns(a, Blanks);
    BlanksKeepNoDoubleNewline(a);
    StripKeepsTidy(b);
    Strip(b)
  }

  /** Stripping keeps a text free of tabs and doubled spaces or newlines, and tidies its ends. */
  lemma StripKeepsTidy(b: string)
    requires forall i :: 0 <= i < |b| ==> b[i] != '\t'
    requires NoDouble(b, ' ') && NoDouble(b, '\n')
    ensures Tidy(Strip(b))
  {
    var r := Strip(b);
    var o := StripOffset(b);
    assert forall i :: 0 <= i < |r| ==> r[i] == b[o + i];
  }

  /** The whitespace tail never creates an occurrence of a word without blanks or newlines. */
  lemma NotContainsSquash(s: string, w: string)
    requires |w| > 0 && forall j :: 0 <= j < |w| ==> w[j] != '\n' && w[j] != ' ' && w[j] != '\t'
    requires !Contains(s, w)
    ensures !Contains(SquashWhitespace(s), w)
  {
    var a := CollapseRuns(s, Newlines);
    NotContainsCollapse(s, Newlines, w);
    NotContainsCollapse(a, Blanks, w);
    NotContainsStrip(CollapseRuns(a, Blanks), w);
  }

  /** Collapsing changes nothing when every run is already a single mark. */
  lemma {:induction false} CollapseSingleRuns(s: string, k: RunClass)
    requires forall i :: 0 <= i < |s| && InRun(k, s[i]) ==> s[i] == RunMark(k)
    requires forall i :: 0 <= i && i + 1 < |s| ==> !(InRun(k, s[i]) && InRun(k, s[i + 1]))
    ensures CollapseRuns(s, k) == s
    decreases |s|
  {
    if |s| > 0 {
      if InRun(k, s[0]) {
        assert RunEnd(s, 0, k) == 1 by {
          if |s| > 1 {
            assert !InRun(k, s[1]);
          }
        }
      }
      CollapseSingleRuns(s[1..], k);
      assert s == [s[0]] + s[1..];
    }
  }

  /** Tidy text is a fixed point of the whitespace tail. */
  lemma SquashTidy(s: string)
    requires Tidy(s)
    ensures SquashWhitespace(s) == s
  {
    CollapseSingleRuns(s, Newlines);
    CollapseSingleRuns(s, Blanks);
    StripStripped(s);
  }
}

=== FILE: titles.dfy ===
/**
 * Track-title clean-up for the lyric search, and the featured-artist expansion that
 * reads `(with X)` / `(feat X)` / `(feat. X)` groups out of a title.
 */
module Titles {
  import opened Wrappers
  import opened Chars
  import opened Strings
  import opened Lines
  import opened Scanners

  /**
   * `_clean_title` (and the identical `clean_track_title` of the Firestore script):
   * drop every parenthesised group with the whitespace before it, then a trailing
   * "- From …", then every "[From …]" group, then strip.
   */
  function CleanTitle(title: string): (r: string)
    ensures IsStripped(r)
    ensures |r| <= |title|
  {
    Strip(Remove(FromCut(Remove(title, Parens)), FromBracket))
  }

  /** `clean_track_title` of the older script: parenthesised groups only, then strip. */
  function CleanTitleParensOnly(title: string): (r: string)
    ensures IsStripped(r)
    ensures |r| <= |title|
  {
    Strip(Remove(title, Parens))
  }

  lemma {:induction false} NotInPrefix(s: string, j: nat, c: char)
    requires j <= |s| && c !in s
    ensures c !in s[..j]
  {
    assert forall k :: 0 <= k < j ==> s[..j][k] == s[k];
  }

  /** On a one-line title, no "(" is left with a ")" after it, and the result is stripped. */
  lemma {:induction false} CleanTitleNoParenPair(title: string)
    requires '\n' !in title
    ensures NoPairOnLine(CleanTitle(title), '(', ')')
  {
    var a := Remove(title, Parens);
    RemoveLeavesNoPair(title, Parens);
    RemoveAddsNothing(title, Parens, '\n');
    var b := FromCut(a);
    CutTailWithoutNewline(a, b);
    NoPairPrefix(a, |b|, '(', ')');
    NotInPrefix(a, |b|, '\n');
    var c := Remove(b, FromBracket);
    RemoveKeepsNoPair(b, FromBracket, '(', ')');
    var o := StripOffset(c);
    var d := Strip(c);
    NoPairSlice(c, o, o + |d|, '(', ')');
    assert d == c[o..o + |d|];
    assert CleanTitle(title) == d;
  }

  /** A stripped title without "(", "- From " and "[From " is returned as it is. */
  lemma {:induction false} CleanTitleUnchanged(title: string)
    requires IsStripped(title) && '(' !in title
    requires !Contains(title, FromDash) && !Contains(title, "[From ")
    ensures CleanTitle(title) == title
  {
    NotContainsChar(title, '(');
    RemoveWithoutOpening(title, true, "(", ')');
    FromCutWithoutDash(title);
    RemoveWithoutOpening(title, true, "[From ", ']');
    StripStripped(title);
  }

  /** The older clean-up keeps "- From …" and "[From …]" suffixes. */
  lemma {:induction false} ParensOnlyUnchanged(title: string)
    requires IsStripped(title) && '(' !in title
    ensures CleanTitleParensOnly(title) == title
  {
    NotContainsChar(title, '(');
    RemoveWithoutOpening(title, true, "(", ')');
    StripStripped(title);
  }

  /** The two clean-ups differ only in the "From" passes. */
  lemma {:induction false} CleanTitleVersusParensOnly(title: string)
    requires !Contains(Remove(title, Parens), FromDash) && !Contains(Remove(title, Parens), "[From ")
    ensures CleanTitle(title) == CleanTitleParensOnly(title)
  {
    var a := Remove(title, Parens);
    FromCutWithoutDash(a);
    RemoveWithoutOpening(a, true, "[From ", ']');
  }

  /**
   * A lead-in that holds no opener and does not end in whitespace passes through a
   * pattern with leading `\s*` untouched.
   */
  lemma {:induction false} RemoveSpacedSkips(x: string, y: string, p: Pattern)
    requires p.Delimited? && |p.open| > 0 && p.open[0] !in x
    requires |x| == 0 || !IsSpace(x[|x| - 1])
    ensures Remove(x + y, p) == x + Remove(y, p)
    decreases |x|
  {
    if |x| > 0 {
      var s := x + y;
      var q := if p.leadingSpace then SpaceRunEnd(s, 0) else 0;
      assert s[|x| - 1] == x[|x| - 1];
      assert q < |x|;
      assert s[q] == x[q];
      assert !ContainsAt(s, p.open, q);
      assert MatchEnd(s, p).None?;
      assert s[1..] == x[1..] + y;
      assert Remove(s, p) == [s[0]] + Remove(s[1..], p);
      RemoveSpacedSkips(x[1..], y, p);
      assert x == [x[0]] + x[1..];
    } else {
      assert x + y == y;
    }
  }

  /** `.*?c` from `i` stops at the first `c`, when no newline comes first. */
  lemma {:induction false} CloseOnLineAt(s: string, i: nat, m: nat, c: char)
    requires i <= m < |s| && s[m] == c && c != '\n'
    requires forall j :: i <= j < m ==> s[j] != '\n' && s[j] != c
    ensures CloseOnLine(s, i, c) == Some(m)
    decreases m - i
  {
    if i < m {
      CloseOnLineAt(s, i + 1, m, c);
    }
  }

  /** The spellings of a feature group the pattern accepts, up to the space. */
  predicate IsFeatTag(tag: string) {
    tag == "(with" || tag == "(feat" || tag == "(feat."
  }

  /** A trailing " (...)" group on one line is dropped by the parenthesis pass. */
  lemma {:induction false} RemoveTrailingGroup(base: string, inner: string)
    requires ')' !in inner && '\n' !in inner
    requires '(' !in base && (|base| == 0 || !IsSpace(base[|base| - 1]))
    ensures Remove(base + (" (" + inner + ")"), Parens) == base
  {
    var g := " (" + inner + ")";
    GroupMatchesWhole(inner);
    RemoveSpacedSkips(base, g, Parens);
    assert Remove(g[|g|..], Parens) == "";
  }

  lemma {:induction false} GroupMatchesWhole(inner: string)
    requires ')' !in inner && '\n' !in inner
    ensures MatchEnd(" (" + inner + ")", Parens) == Some(|inner| + 3)
  {
    var g := " (" + inner + ")";
    var m := |g| - 1;
    assert forall j :: 2 <= j < m ==> g[j] == inner[j - 2];
    CloseOnLineAt(g, 2, m, ')');
    assert SpaceRunEnd(g, 0) == 1 by {
      assert IsSpace(g[0]) && !IsSpace(g[1]);
    }
    assert ContainsAt(g, "(", 1);
  }

  /** A title with one trailing parenthesised group, e.g. "(feat. X)", cleans to the title before it. */
  lemma {:induction false} CleanTitleTrailingGroup(base: string, inner: string)
    requires ')' !in inner && '\n' !in inner
    requires IsStripped(base) && '(' !in base
    requires !Contains(base, FromDash) && !Contains(base, "[From ")
    ensures CleanTitle(base + (" (" + inner + ")")) == base
  {
    RemoveTrailingGroup(base, inner);
    FromCutWithoutDash(base);
    RemoveWithoutOpening(base, true, "[From ", ']');
    StripStripped(base);
  }

  // ---------------------------------------------------------------------------
  // re.findall(r"\((?:with|feat\.?)\s([^)]+)\)", title): case-sensitive

  /** Where the name captured by a feature group at the start of `s` begins. */
  function FeatCaptureStart(s: string): (c: Option<nat>)
    ensures c.Some? ==> 6 <= c.value <= |s|
  {
    var j: Option<nat> :=
      if ContainsAt(s, "(with", 0) then Some(5)
      else if ContainsAt(s, "(feat", 0) then Some(if 5 < |s| && s[5] == '.' then 6 else 5)
      else None;
    match j
    case None => None
    case Some(j) => if j < |s| && IsSpace(s[j]) then Some(j + 1) else None
  }

  /** A feature group at the start of `s`: the name is `s[c..m]` and `s[m]` closes it. */
  function FeatGroup(s: string): (g: Option<(nat, nat)>)
    ensures g.Some? ==> 0 < g.value.0 < g.value.1 < |s| && s[g.value.1] == ')'
    ensures g.Some? ==> forall j :: g.value.0 <= j < g.value.1 ==> s[j] != ')'
  {
    match FeatCaptureStart(s)
    case None => None
    case Some(c) =>
      match IndexOf(s, ')', c)
      case None => None
      case Some(m) => if m > c then Some((c, m)) else None
  }

  /** The captured names of all feature groups, left to right. */
  function Featured(s: string): (r: seq<string>)
    ensures forall k :: 0 <= k < |r| ==> |r[k]| > 0 && ')' !in r[k]
    decreases |s|
  {
    if |s| == 0 then []
    else match FeatGroup(s)
      case Some((c, m)) =>
        assert forall j :: 0 <= j < m - c ==> s[c..m][j] == s[c + j];
        [s[c..m]] + Featured(s[m + 1..])
      case None => Featured(s[1..])
  }

  /**
   * `_expand_artists` (and the script copies): the artist, then a space and the
   * featured names joined by single spaces when there are any.
   */
  function ExpandArtists(artist: string, title: string): (r: string)
    ensures |Featured(title)| == 0 <==> r == artist
    ensures |r| >= |artist| && r[..|artist|] == artist
    ensures |Featured(title)| > 0 ==> r == artist + " " + Join(Featured(title), ' ')
  {
    var names := Featured(title);
    if |names| == 0 then artist else artist + " " + Join(names, ' ')
  }

  /** Text before the first "(" contributes no names. */
  lemma {:induction false} FeaturedSkips(x: string, y: string)
    requires '(' !in x
    ensures Featured(x + y) == Featured(y)
    decreases |x|
  {
    if |x| > 0 {
      var s := x + y;
      assert s[0] == x[0];
      assert FeatGroup(s).None?;
      assert s[1..] == x[1..] + y;
      FeaturedSkips(x[1..], y);
    } else {
      assert x + y == y;
    }
  }

  /** A feature group at the front yields its name, and the scan continues after it. */
  lemma {:induction false} FeaturedGroup(tag: string, x: string, y: string)
    requires IsFeatTag(tag) && |x| > 0 && ')' !in x
    ensures Featured(tag + " " + x + ")" + y) == [x] + Featured(y)
  {
    var s := tag + " " + x + ")" + y;
    var c := |tag| + 1;
    assert s[..|tag|] == tag;
    assert s[|tag|] == ' ';
    if tag == "(with" {
      assert ContainsAt(s, "(with", 0);
    } else {
      assert s[1] == 'f';
      assert !ContainsAt(s, "(with", 0);
      assert s[..5] == "(feat";
      assert ContainsAt(s, "(feat", 0);
    }
    assert FeatCaptureStart(s) == Some(c);
    var m := c + |x|;
    assert forall j :: c <= j < m ==> s[j] == x[j - c];
    assert s[m] == ')';
    assert IndexOf(s, ')', c) == Some(m);
    assert s[c..m] == x;
    assert s[m + 1..] == y;
  }

  lemma {:induction false} FeaturedNone(s: string)
    requires '(' !in s
    ensures Featured(s) == []
  {
    FeaturedSkips(s, "");
    assert s + "" == s;
  }

  lemma {:induction false} ExpandByNames(artist: string, title: string, names: seq<string>)
    requires Featured(title) == names
    ensures ExpandArtists(artist, title)
         == if |names| == 0 then artist else artist + " " + Join(names, ' ')
  {
  }

  lemma {:induction false} FeaturedOneGroup(base: string, tag: string, x: string)
    requires IsFeatTag(tag) && |x| > 0 && ')' !in x && '(' !in base
    ensures Featured(base + " " + tag + " " + x + ")") == [x]
  {
    var g := tag + " " + x + ")" + "";
    OneGroupShape(base, tag, x);
    FeaturedSkips(base + " ", g);
    FeaturedGroup(tag, x, "");
  }

  lemma {:induction false} OneGroupShape(base: string, tag: string, x: string)
    ensures base + " " + tag + " " + x + ")" == (base + " ") + (tag + " " + x + ")" + "")
  {
  }

  /** One group after a plain title: the artist gains exactly that name. */
  lemma {:induction false} ExpandOneGroup(artist: string, base: string, tag: string, x: string)
    requires IsFeatTag(tag) && |x| > 0 && ')' !in x && '(' !in base
    ensures ExpandArtists(artist, base + " " + tag + " " + x + ")") == artist + " " + x
  {
    FeaturedOneGroup(base, tag, x);
    ExpandByNames(artist, base + " " + tag + " " + x + ")", [x]);
  }

  lemma {:induction false} FeaturedTwoGroups(base: string, x: string, y: string)
    requires |x| > 0 && ')' !in x && |y| > 0 && ')' !in y && '(' !in base
    ensures Featured(base + " (feat. " + x + ") (with " + y + ")") == [x, y]
  {
    var g2 := "(with" + " " + y + ")" + "";
    var rest := " " + g2;
    var g1 := "(feat." + " " + x + ")" + rest;
    TwoGroupsShape(base, x, y);
    FeaturedSkips(base + " ", g1);
    FeaturedGroup("(feat.", x, rest);
    FeaturedSkips(" ", g2);
    FeaturedGroup("(with", y, "");
  }

  /** Two groups: names are appended in order of appearance, separated by one space. */
  lemma {:induction false} ExpandTwoGroups(artist: string, base: string, x: string, y: string)
    requires |x| > 0 && ')' !in x && |y| > 0 && ')' !in y && '(' !in base
    ensures ExpandArtists(artist, base + " (feat. " + x + ") (with " + y + ")")
         == artist + " " + x + " " + y
  {
    FeaturedTwoGroups(base, x, y);
    ExpandByNames(artist, base + " (feat. " + x + ") (with " + y + ")", [x, y]);
    assert Join([x, y], ' ') == x + " " + y;
  }

  lemma {:induction false} TwoGroupsShape(base: string, x: string, y: string)
    ensures base + " (feat. " + x + ") (with " + y + ")"
         == (base + " ") + ("(feat." + " " + x + ")" + (" " + ("(with" + " " + y + ")" + "")))
  {
  }

  /** Feature groups one after another, each after a space: " (feat. X) (with Y) …". */
  function Groups(tags: seq<string>, names: seq<string>): string
    requires |tags| == |names|
    decreases |names|
  {
    if |names| == 0 then ""
    else " " + (tags[0] + " " + names[0] + ")" + Groups(tags[1..], names[1..]))
  }

  /** Well-formed groups: each tag is a feature tag, each name non-empty and without ")". */
  predicate GroupsOk(tags: seq<string>, names: seq<string>) {
    && |tags| == |names|
    && (forall k :: 0 <= k < |tags| ==> IsFeatTag(tags[k]))
    && (forall k :: 0 <= k < |names| ==> |names[k]| > 0 && ')' !in names[k])
  }

  /** Any number of groups yields their names, in order of appearance. */
  lemma {:induction false} FeaturedOfGroups(tags: seq<string>, names: seq<string>)
    requires GroupsOk(tags, names)
    ensures Featured(Groups(tags, names)) == names
    decreases |names|
  {
    if |names| == 0 {
      assert Featured("") == [];
    } else {
      var rest := Groups(tags[1..], names[1..]);
      assert GroupsOk(tags[1..], names[1..]) by {
        forall k | 0 <= k < |tags| - 1 ensures IsFeatTag(tags[1..][k]) {
          assert tags[1..][k] == tags[k + 1];
        }
        forall k | 0 <= k < |names| - 1 ensures |names[1..][k]| > 0 && ')' !in names[1..][k] {
          assert names[1..][k] == names[k + 1];
        }
      }
      FeaturedOfGroups(tags[1..], names[1..]);
      FeaturedSkips(" ", tags[0] + " " + names[0] + ")" + rest);
      FeaturedGroup(tags[0], names[0], rest);
      assert names == [names[0]] + names[1..];
    }
  }

  /**
   * A plain title followed by any number of feature groups: the artist gains all the
   * names, in order, separated by single spaces.
   */
  lemma {:induction false} ExpandGroups(artist: string, base: string, tags: seq<string>, names: seq<string>)
    requires GroupsOk(tags, names) && '(' !in base
    ensures ExpandArtists(artist, base + Groups(tags, names))
         == if |names| == 0 then artist else artist + " " + Join(names, ' ')
  {
    FeaturedOfGroups(tags, names);
    FeaturedSkips(base, Groups(tags, names));
    ExpandByNames(artist, base + Groups(tags, names), names);
  }

  /** The match is case-sensitive: "(Feat. X)" contributes nothing. */
  lemma {:induction false} ExpandIsCaseSensitive(artist: string, x: string)
    requires '(' !in x
    ensures ExpandArtists(artist, "Song (Feat. " + x + ")") == artist
  {
    FeaturedCapitalised(x);
    ExpandByNames(artist, "Song (Feat. " + x + ")", []);
  }

  lemma {:induction false} FeaturedCapitalised(x: string)
    requires '(' !in x
    ensures Featured("Song (Feat. " + x + ")") == []
  {
    var g := "(Feat. " + x + ")";
    CapitalisedShape(x);
    FeaturedSkips("Song ", g);
    CapitalisedGroup(g);
  }

  lemma {:induction false} CapitalisedGroup(g: string)
    requires |g| > 5 && g[1] == 'F' && '(' !in g[1..]
    ensures Featured(g) == []
  {
    assert !ContainsAt(g, "(with", 0) && !ContainsAt(g, "(feat", 0) by {
      assert g[..5][1] == g[1];
    }
    assert FeatGroup(g).None?;
    FeaturedNone(g[1..]);
  }

  lemma {:induction false} CapitalisedShape(x: string)
    requires '(' !in x
    ensures var g := "(Feat. " + x + ")";
            && "Song (Feat. " + x + ")" == "Song " + g
            && |g| > 5 && g[1] == 'F' && '(' !in g[1..]
  {
    var g := "(Feat. " + x + ")";
    assert g[1..] == "Feat. " + x + ")";
  }
}

=== FILE: wordfreq.dfy ===
/**
 * The word-frequency counter behind the word clouds (`getFrequencyDictForText`) and the
 * per-song stopwords derived from a song's title and artist.
 *
 * The word cloud library's own stopword list is a parameter.  The counts are a `map`:
 * the insertion order of the source's dictionary is not kept.
 */
module WordFreq {
  import opened Chars
  import opened Lines
  import Wrappers
  import Strings
  import Scanners
  import Cleaners

  /** `[\w\s']`: the characters the punctuation pass keeps. */
  predicate Kept(c: char) {
    IsWordChar(c) || IsSpace(c) || c == '\''
  }

  /** `re.sub(r"[^\w\s']", " ", s)`: every other character becomes a space. */
  function Sanitize(s: string): (r: string)
    ensures |r| == |s|
    ensures forall k :: 0 <= k < |r| ==> Kept(r[k])
    ensures forall k :: 0 <= k < |r| ==> r[k] == (if Kept(s[k]) then s[k] else ' ')
  {
    seq(|s|, k requires 0 <= k < |s| => if Kept(s[k]) then s[k] else ' ')
  }

  /** The end of the run of non-space characters that starts at `i`. */
  function TokenEnd(s: string, i: nat): (e: nat)
    requires i <= |s|
    ensures i <= e <= |s|
    ensures forall k :: i <= k < e ==> !IsSpace(s[k])
    ensures e == |s| || IsSpace(s[e])
    decreases |s| - i
  {
    if i == |s| || IsSpace(s[i]) then i else TokenEnd(s, i + 1)
  }

  /** The characters of `s` that are not whitespace, in order. */
  function NonSpace(s: string): (r: string)
    ensures forall k :: 0 <= k < |r| ==> !IsSpace(r[k])
    decreases |s|
  {
    if |s| == 0 then [] else (if IsSpace(s[0]) then [] else [s[0]]) + NonSpace(s[1..])
  }

  /** The tokens, one after the other. */
  function Flatten(ws: seq<string>): string
    decreases |ws|
  {
    if |ws| == 0 then [] else ws[0] + Flatten(ws[1..])
  }

  lemma {:induction false} NonSpaceAppend(a: string, b: string)
    ensures NonSpace(a + b) == NonSpace(a) + NonSpace(b)
    decreases |a|
  {
    if |a| == 0 {
      assert a + b == b;
    } else {
      assert (a + b)[1..] == a[1..] + b;
      NonSpaceAppend(a[1..], b);
    }
  }

  lemma {:induction false} NonSpaceOfToken(w: string)
    requires forall k :: 0 <= k < |w| ==> !IsSpace(w[k])
    ensures NonSpace(w) == w
    decreases |w|
  {
    if |w| > 0 {
      NonSpaceOfToken(w[1..]);
    }
  }

  /** `str.split()`: the maximal runs of non-whitespace characters, in order. */
  function Words(s: string): (r: seq<string>)
    ensures forall k :: 0 <= k < |r| ==> |r[k]| > 0
    ensures forall k, j :: 0 <= k < |r| && 0 <= j < |r[k]| ==> !IsSpace(r[k][j])
    ensures Flatten(r) == NonSpace(s)
    decreases |s|
  {
    if |s| == 0 then []
    else if IsSpace(s[0]) then
      NonSpaceAppend([s[0]], s[1..]);
      assert [s[0]] + s[1..] == s;
      Words(s[1..])
    else
      var e := TokenEnd(s, 0);
      var rest := Words(s[e..]);
      NonSpaceAppend(s[..e], s[e..]);
      NonSpaceOfToken(s[..e]);
      assert s[..e] + s[e..] == s;
      assert ([s[..e]] + rest)[1..] == rest;
      [s[..e]] + rest
  }

  /** `s` starts with a token. */
  predicate LeadsWord(s: string) {
    |s| > 0 && !IsSpace(s[0])
  }

  /** A token ends exactly where the run of non-whitespace ends. */
  lemma {:induction false} TokenEndAt(s: string, i: nat, e: nat)
    requires i <= e <= |s| && forall k :: i <= k < e ==> !IsSpace(s[k])
    requires e == |s| || IsSpace(s[e])
    ensures TokenEnd(s, i) == e
    decreases e - i
  {
    if i < e {
      TokenEndAt(s, i + 1, e);
    }
  }

  /** Leading whitespace yields no token. */
  lemma {:induction false} WordsSkipSpaces(s: string, e: nat)
    requires e <= |s| && forall j :: 0 <= j < e ==> IsSpace(s[j])
    ensures Words(s) == Words(s[e..])
    decreases e
  {
    if e > 0 {
      WordsSkipSpaces(s[1..], e - 1);
      assert s[1..][e - 1..] == s[e..];
    }
  }

  /** Trailing whitespace yields no token. */
  lemma {:induction false} WordsTrailingSpaces(x: string, y: string)
    requires forall j :: 0 <= j < |y| ==> IsSpace(y[j])
    ensures Words(x + y) == Words(x)
    decreases |x|
  {
    var s := x + y;
    if |x| == 0 {
      assert s == y;
      WordsSkipSpaces(y, |y|);
      assert y[|y|..] == "";
    } else if IsSpace(x[0]) {
      assert s[0] == x[0] && s[1..] == x[1..] + y;
      WordsTrailingSpaces(x[1..], y);
    } else {
      var e := TokenEnd(x, 0);
      TokenEndAt(s, 0, e);
      assert s[..e] == x[..e];
      assert s[e..] == x[e..] + y;
      WordsTrailingSpaces(x[e..], y);
    }
  }

  /**
   * A non-whitespace character in front either starts a new token or joins the first
   * one, depending on whether the rest starts with a token.
   */
  lemma WordsConsNonSpace(c: char, x: string)
    requires !IsSpace(c)
    ensures LeadsWord(x) ==> |Words(x)| > 0 && Words([c] + x) == [[c] + Words(x)[0]] + Words(x)[1..]
    ensures !LeadsWord(x) ==> Words([c] + x) == [[c]] + Words(x)
  {
    var s := [c] + x;
    assert s[1..] == x;
    if LeadsWord(x) {
      var e := TokenEnd(x, 0);
      TokenEndAt(s, 0, e + 1);
      assert s[..e + 1] == [c] + x[..e];
      assert s[e + 1..] == x[e..];
    } else {
      TokenEndAt(s, 0, 1);
      assert s[..1] == [c];
    }
  }

  /** Texts with the same tokens and the same start keep that after a common first character. */
  lemma WordsConsSame(c: char, x: string, y: string)
    requires Words(x) == Words(y) && LeadsWord(x) == LeadsWord(y)
    ensures Words([c] + x) == Words([c] + y)
  {
    if IsSpace(c) {
      assert ([c] + x)[1..] == x && ([c] + y)[1..] == y;
    } else {
      WordsConsNonSpace(c, x);
      WordsConsNonSpace(c, y);
    }
  }

  /** Collapsing runs of whitespace to one mark keeps every token. */
  lemma {:induction false} WordsCollapse(s: string, k: Strings.RunClass)
    ensures Words(Strings.CollapseRuns(s, k)) == Words(s)
    decreases |s|
  {
    if |s| > 0 {
      if Strings.InRun(k, s[0]) {
        var e := Strings.RunEnd(s, 0, k);
        WordsCollapse(s[e..], k);
        WordsCollapseRun(s, k, e);
      } else {
        WordsCollapse(s[1..], k);
        WordsCollapseOther(s, k);
      }
    }
  }

  /** A run collapses to one mark, a space, in front of the collapsed rest. */
  lemma WordsCollapseRun(s: string, k: Strings.RunClass, e: nat)
    requires |s| > 0 && Strings.InRun(k, s[0]) && e == Strings.RunEnd(s, 0, k)
    requires Words(Strings.CollapseRuns(s[e..], k)) == Words(s[e..])
    ensures Words(Strings.CollapseRuns(s, k)) == Words(s)
  {
    var r := Strings.CollapseRuns(s, k);
    WordsSkipSpaces(s, e);
    assert r[1..] == Strings.CollapseRuns(s[e..], k);
  }

  /** A character outside the class is kept in front of the collapsed rest. */
  lemma WordsCollapseOther(s: string, k: Strings.RunClass)
    requires |s| > 0 && !Strings.InRun(k, s[0])
    requires Words(Strings.CollapseRuns(s[1..], k)) == Words(s[1..])
    ensures Words(Strings.CollapseRuns(s, k)) == Words(s)
  {
    var t := Strings.CollapseRuns(s[1..], k);
    CollapseLeads(s[1..], k);
    calc {
      Words(Strings.CollapseRuns(s, k));
      Words([s[0]] + t);
      { WordsConsSame(s[0], t, s[1..]); }
      Words([s[0]] + s[1..]);
      { assert [s[0]] + s[1..] == s; }
      Words(s);
    }
  }

  /** Collapsing keeps whether the text starts with a word: runs and marks are whitespace. */
  lemma CollapseLeads(s: string, k: Strings.RunClass)
    ensures LeadsWord(Strings.CollapseRuns(s, k)) == LeadsWord(s)
  {
  }

  /** `strip()` keeps every token. */
  lemma WordsStrip(b: string)
    ensures Words(Strings.Strip(b)) == Words(b)
  {
    var o := Strings.StripOffset(b);
    var e := o + |Strings.Strip(b)|;
    WordsSkipSpaces(b, o);
    Wrappers.SliceSplit(b, o, e);
    forall j | 0 <= j < |b[e..]| ensures IsSpace(b[e..][j]) {
      assert b[e..][j] == b[e + j];
    }
    WordsTrailingSpaces(b[o..e], b[e..]);
  }

  /**
   * The whitespace tail of the lyric cleaners loses no word: the tokens of the squashed
   * text are those of the text.
   */
  lemma WordsSquash(s: string)
    ensures Words(Strings.SquashWhitespace(s)) == Words(s)
  {
    var a := Strings.CollapseRuns(s, Strings.Newlines);
    WordsCollapse(s, Strings.Newlines);
    WordsCollapse(a, Strings.Blanks);
    WordsStrip(Strings.CollapseRuns(a, Strings.Blanks));
  }

  /**
   * The service's lyric cleaner keeps every word of text that holds nothing its passes
   * look for: "Hello   world" comes back with both words.
   */
  lemma ServiceCleanKeepsWords(s: string)
    requires |s| > 0
    requires !Strings.ContainsFolded(s, Scanners.LyricsWord) && !Strings.ContainsFolded(s, Scanners.ReadMoreWord)
    requires '[' !in s && !Strings.Contains(s, Cleaners.Translations)
    requires !Scanners.EndsWith(s[..|s| - Scanners.FinalNewline(s)], Scanners.EmbedWord)
    ensures Words(Cleaners.ServiceCleanLyrics(Wrappers.Some(s))) == Words(s)
  {
    Cleaners.ServiceCleanPlain(s);
    WordsSquash(s);
  }

  /** Every character of every token is one the punctuation pass kept. */
  lemma WordsOfKept(s: string)
    requires forall k :: 0 <= k < |s| ==> Kept(s[k])
    ensures forall w, j :: w in Words(s) && 0 <= j < |w| ==> Kept(w[j])
  {
    var ws := Words(s);
    forall w, j | w in ws && 0 <= j < |w|
      ensures Kept(w[j])
    {
      var k :| 0 <= k < |ws| && ws[k] == w;
      FlattenHolds(ws, k, j);
      NonSpaceKeeps(s, Flatten(ws));
    }
  }

  /** A character of a token is a character of the flattened tokens. */
  lemma {:induction false} FlattenHolds(ws: seq<string>, k: nat, j: nat)
    requires k < |ws| && j < |ws[k]|
    ensures ws[k][j] in Flatten(ws)
    decreases k
  {
    if k == 0 {
      assert Flatten(ws)[j] == ws[0][j];
    } else {
      FlattenHolds(ws[1..], k - 1, j);
      assert Flatten(ws) == ws[0] + Flatten(ws[1..]);
    }
  }

  /** Dropping whitespace brings in no new character. */
  lemma {:induction false} NonSpaceKeeps(s: string, r: string)
    requires r == NonSpace(s)
    ensures forall c :: c in r ==> c in s
    decreases |s|
  {
    if |s| > 0 {
      NonSpaceKeeps(s[1..], NonSpace(s[1..]));
      assert forall c :: c in s[1..] ==> c in s;
    }
  }

  /** `str.lower()`, character by character. */
  function Lower(w: string): (r: string)
    ensures |r| == |w|
    ensures forall k :: 0 <= k < |r| ==> r[k] == LowerChar(w[k])
  {
    seq(|w|, k requires 0 <= k < |w| => LowerChar(w[k]))
  }

  /** The lowered tokens, in order. */
  function LowerAll(ws: seq<string>): (r: seq<string>)
    ensures |r| == |ws|
    ensures forall k :: 0 <= k < |r| ==> r[k] == Lower(ws[k])
  {
    seq(|ws|, k requires 0 <= k < |ws| => Lower(ws[k]))
  }

  // ---------------------------------------------------------------------------
  // The article filter: re.match(r"\b(a|an|the|to|in|for|of|or|by|with|is|on|that|be)\b", word)

  const Articles: seq<string> := ["a", "an", "the", "to", "in", "for", "of", "or", "by", "with", "is", "on", "that", "be"]

  /** The token starts with `a`, and the article ends at a word boundary: the token's end or a non-word character. */
  predicate HeadedBy(w: string, a: string) {
    && |a| <= |w|
    && w[..|a|] == a
    && (|a| == |w| || !IsWordChar(w[|a|]))
  }

  /** The pattern matches at the start of the token for one of the alternatives. */
  predicate ArticleHeaded(w: string, articles: seq<string>) {
    exists k :: 0 <= k < |articles| && HeadedBy(w, articles[k])
  }

  /** `that's` is dropped: the apostrophe ends the article. */
  lemma ContractionDropped(w: string)
    requires w == "that's"
    ensures ArticleHeaded(w, Articles)
  {
    assert HeadedBy(w, Articles[12]);
  }

  /** `another` is kept: `an` runs on into the word, and no other alternative fits. */
  lemma LongerWordKept(w: string)
    requires w == "another"
    ensures !ArticleHeaded(w, Articles)
  {
    forall k | 0 <= k < |Articles|
      ensures !HeadedBy(w, Articles[k])
    {
      var a := Articles[k];
      if k < 2 {
        assert |a| < |w| && IsWordChar(w[|a|]);
      } else {
        assert a[0] != w[0];
        if |a| <= |w| {
          assert w[..|a|][0] == w[0];
        }
      }
    }
  }

  /** The chorus words the script adds to the word cloud library's stopwords. */
  const Chorus: set<string> := {"uh", "oh", "huh", "yeah"}

  /** A lowered token that is not counted: a stopword, or one headed by an article. */
  predicate Dropped(w: string, stop: set<string>) {
    w in stop || ArticleHeaded(w, Articles)
  }

  /** A map's count for `w`, zero when it is not a key. */
  function CountOf(m: map<string, nat>, w: string): nat {
    if w in m then m[w] else 0
  }

  /**
   * The counting loop over the lowered tokens: each token that is not dropped adds one to
   * its count.  The count of every word is its number of occurrences among the tokens,
   * unless it is dropped, and a key is never counted zero times.
   */
  function Tally(words: seq<string>, stop: set<string>): (r: map<string, nat>)
    ensures forall w :: CountOf(r, w) == (if Dropped(w, stop) then 0 else multiset(words)[w])
    ensures forall w :: w in r ==> r[w] >= 1
    decreases |words|
  {
    if |words| == 0 then map[]
    else
      var init := words[..|words| - 1];
      var w := words[|words| - 1];
      assert words == init + [w];
      var m := Tally(init, stop);
      if Dropped(w, stop) then m else m[w := CountOf(m, w) + 1]
  }

  /**
   * `getFrequencyDictForText(sentence, extra)`: the counts of the lowered tokens of the
   * sentence with punctuation turned into spaces, leaving out the stopwords (the library's,
   * the chorus words and the extra ones) and the tokens headed by an article.
   */
  function FrequencyDict(sentence: string, library: set<string>, extra: set<string>): map<string, nat> {
    Tally(LowerAll(Words(Sanitize(sentence))), library + Chorus + extra)
  }

  /** The lowered tokens of a sentence, before any filtering. */
  function Tokens(sentence: string): seq<string> {
    LowerAll(Words(Sanitize(sentence)))
  }

  /**
   * The keys are kept lowered tokens: never a stopword or an article-headed token, made of
   * word characters and apostrophes only, and counted as often as they occur.
   */
  lemma FrequencyDictKeys(sentence: string, library: set<string>, extra: set<string>, w: string)
    requires w in FrequencyDict(sentence, library, extra)
    ensures w !in library && w !in Chorus && w !in extra && !ArticleHeaded(w, Articles)
    ensures w in Tokens(sentence)
    ensures FrequencyDict(sentence, library, extra)[w] == multiset(Tokens(sentence))[w] >= 1
    ensures forall j :: 0 <= j < |w| ==> IsWordChar(w[j]) || w[j] == '\''
  {
    var m := FrequencyDict(sentence, library, extra);
    var ws := Words(Sanitize(sentence));
    assert CountOf(m, w) == m[w];
    assert multiset(Tokens(sentence))[w] > 0;
    var k :| 0 <= k < |Tokens(sentence)| && Tokens(sentence)[k] == w;
    WordsOfKept(Sanitize(sentence));
    forall j | 0 <= j < |w|
      ensures IsWordChar(w[j]) || w[j] == '\''
    {
      assert ws[k] in ws;
      assert Kept(ws[k][j]) && !IsSpace(ws[k][j]);
      assert w[j] == LowerChar(ws[k][j]);
    }
  }

  /**
   * More stopwords only remove keys: every key that remains keeps its count, and a key
   * is lost exactly when it became a stopword.
   */
  lemma MoreStopwordsOnlyRemove(sentence: string, library: set<string>, extra: set<string>, more: set<string>, w: string)
    requires extra <= more
    ensures w in FrequencyDict(sentence, library, more) ==>
              w in FrequencyDict(sentence, library, extra)
              && FrequencyDict(sentence, library, more)[w] == FrequencyDict(sentence, library, extra)[w]
    ensures w in FrequencyDict(sentence, library, extra) && w !in FrequencyDict(sentence, library, more) ==> w in more
  {
    var a := FrequencyDict(sentence, library, extra);
    var b := FrequencyDict(sentence, library, more);
    assert CountOf(a, w) == (if Dropped(w, library + Chorus + extra) then 0 else multiset(Tokens(sentence))[w]);
    assert CountOf(b, w) == (if Dropped(w, library + Chorus + more) then 0 else multiset(Tokens(sentence))[w]);
  }

  // ---------------------------------------------------------------------------
  // The per-song stopwords

  /** The lowered words of a song's title and artist, after the same punctuation pass. */
  function SongStopwords(cleanTitle: string, artist: string): (r: set<string>)
    ensures forall w :: w in Words(Sanitize(cleanTitle)) ==> Lower(w) in r
    ensures forall w :: w in Words(Sanitize(artist)) ==> Lower(w) in r
    ensures forall v :: v in r ==>
              exists w :: (w in Words(Sanitize(cleanTitle)) || w in Words(Sanitize(artist))) && v == Lower(w)
  {
    set w | w in Words(Sanitize(cleanTitle)) + Words(Sanitize(artist)) :: Lower(w)
  }

  /** The lyrics of a song as one line: its lines joined with spaces. */
  function SongText(lyricsProcessed: string): string {
    Join(SplitLines(lyricsProcessed), ' ')
  }

  /**
   * The counts for one song never show a word of its own title or artist: those words
   * are stopwords for that song.
   */
  lemma SongWordsNotKeys(cleanTitle: string, artist: string, lyricsProcessed: string, library: set<string>, w: string)
    requires w in Words(Sanitize(cleanTitle)) || w in Words(Sanitize(artist))
    ensures Lower(w) !in FrequencyDict(SongText(lyricsProcessed), library, library + SongStopwords(cleanTitle, artist))
  {
    var stop := library + Chorus + (library + SongStopwords(cleanTitle, artist));
    var m := FrequencyDict(SongText(lyricsProcessed), library, library + SongStopwords(cleanTitle, artist));
    assert Lower(w) in stop;
    assert CountOf(m, Lower(w)) == 0;
  }
}

=== FILE: wrappers.dfy ===
/** Option, Python-style "field" values and a sequence fact, shared by every module of the model. */
module Wrappers {

  /** Python's `None` versus a present value. */
  datatype Option<+T> = None | Some(value: T) {

    /** The value, or `default` when there is none (`x if x is not None else default`). */
    function GetOr(default: T): T {
      match this
      case Some(v) => v
      case None => default
    }
  }

  /** A key of a Python dict: missing, present with the value `None`, or present with a value. */
  datatype Field<+T> = Absent | Null | Value(v: T) {

    /** `d.get(key)`: a missing key and an explicit `None` both read as `None`. */
    function Get(): Option<T> {
      match this
      case Value(x) => Some(x)
      case _ => None
    }
  }

  /** Concatenation is associative; stated once for the sequence equalities the proofs need. */
  lemma AppendAssoc<T>(a: seq<T>, b: seq<T>, c: seq<T>)
    ensures (a + b) + c == a + (b + c)
  {
  }

  /** A suffix cut in two: the slice up to `j` followed by the rest. */
  lemma SliceSplit<T>(s: seq<T>, i: nat, j: nat)
    requires i <= j <= |s|
    ensures s[i..] == s[i..j] + s[j..]
  {
  }
}
